=== FILE: README.md ===
# PremiumAuto: booking and test-drive intake, catalogue and CORS policy in Dafny

PremiumAuto is a car showroom site. It has an Express/MongoDB back end and a
React front end. This project models five parts of it:

- The **record store** and its two intake pipelines: car bookings (`/api/booking`) and
  test-drive requests (`/api/test-drive`).
  - A submission passes the required-field gate, then the duplicate guard, then the
    trimming and lower-casing construction of the document, then the schema validators,
    then the pre-save hook (a generated `bookingId` and phone digit stripping), then the insert.
  - The admin side lists, looks up, searches, updates the status of and counts the records.
- The **Mongoose schemas** of both records: field validators, enumerations, length
  bounds, the pre-save hooks and the booking status statistics.
- The **inventory page**'s filter and sort pipeline over its constant table of seven
  Tata vehicles, and its Clear Filters reset.
- The **car-details page**'s slug-keyed lookups (hero artwork, colour options, feature
  slides, video link), the image shown for the selected colour, and the carousel and colour
  state the page keeps.
- The **CORS policy** of the API server: the `FRONTEND_URL` origin list, the allowed set,
  the Vercel preview pattern and the per-request decision.

Layout, one module per file:

- `wrappers`: `Option`.
- `strings`: trimming, ASCII case mapping, substring search, digit stripping, decimal
  rendering and `split`.
- `sequences`: first match, filter, and an insertion sort with its sortedness and
  permutation proofs, and the order of fully tied elements.
- `pagination`: skip/limit/`Math.ceil` arithmetic.
- `grouping`: the `$group`/`$sum` aggregation.
- `booking_model` and `test_drive_model`: the schemas, with a document class whose
  `PreSave` method runs the hook in place.
- `booking_routes` and `test_drive_routes`: each route as a function of the stored
  records and the request.
- `record_store`: a `Store` class holding the two collections and the identity counter.
  Its methods run the intake and update steps imperatively and are proved to end in the
  state the route functions describe.
- `inventory`, `car_details` (with the `CarDetailsView` state class) and `cors`.

Booking phone validation runs before the pre-save hook strips the number:

- A formatted number such as "+1 (555) 123-4567" fails the phone pattern, because the
  validators see the trimmed, unstripped value. `FormattedPhoneRejected` states this.
- For a phone that passes the pattern, stripping can only ever remove a leading '+'.

Modelling choices:

- The clock, the random draw, local midnight, the client address, `validator.isEmail` and
  JavaScript's `new Date(...)` parsing are parameters of the operations.
- A status update whose sales notes exceed 2000 characters fails the update validators,
  and the catch-all then answers 500.

## Model

| member | source | states |
|---|---|---|
| BookingModel.ParseStatus | backend/models/Booking.js:65-69 | exactly the five status names are accepted, each naming its own status |
| BookingModel.StatusNameRoundTrip | backend/models/Booking.js:65-69 | every status survives the name round trip |
| BookingModel.NameError | backend/models/Booking.js:6-11 | no message exactly when the name is present and at most 100 characters |
| BookingModel.EmailError | backend/models/Booking.js:12-18 | no message exactly when the e-mail is present and passes the e-mail check |
| BookingModel.PhoneError | backend/models/Booking.js:19-29 | no message exactly when the phone matches optional '+', a digit 1-9, then 0 to 15 digits |
| BookingModel.AddressError | backend/models/Booking.js:30-35 | no message exactly when the address is present and at most 500 characters |
| BookingModel.ModelError | backend/models/Booking.js:38-42 | no message exactly when the model is present |
| BookingModel.ColorError | backend/models/Booking.js:43-47 | no message exactly when the colour is present |
| BookingModel.VariantError | backend/models/Booking.js:48-55 | no message exactly when the variant is base, mid, top, custom or empty |
| BookingModel.RequirementsError | backend/models/Booking.js:58-62 | no message exactly when the additional requirements are at most 1000 characters |
| BookingModel.PriceError | backend/models/Booking.js:75-78 | no message exactly when an estimated price, if present, is not negative |
| BookingModel.SalesNotesError | backend/models/Booking.js:89-93 | no message exactly when sales notes, if present, are at most 2000 characters |
| BookingModel.ValidationErrors | backend/models/Booking.js:4-103 | the message list is empty exactly when every schema constraint holds; it holds the message of every failing path and nothing else; a name failure is reported first; at most ten messages |
| BookingModel.CustomerErrors | backend/models/Booking.js:6-35 | exactly the messages of the failing name, e-mail, phone and address paths; empty exactly when those fields are valid; a name failure comes first; at most four messages |
| BookingModel.VehicleErrors | backend/models/Booking.js:38-62 | exactly the messages of the failing model, colour, variant and requirements paths; empty exactly when those fields are valid; at most four messages |
| BookingModel.SalesErrors | backend/models/Booking.js:75-93 | exactly the messages of the failing estimated-price and sales-notes paths; empty exactly when those fields are valid; at most two messages |
| BookingModel.BookingIdFormat | backend/models/Booking.js:113-119 | once the clock reads at least 100000, a generated id is "BK" followed by exactly ten digits |
| BookingModel.GeneratedIdHasNoLowerLetters | backend/models/Booking.js:116-118 | a generated id holds no lower-case letter |
| BookingModel.PreSaveHook | backend/models/Booking.js:113-127 | only the booking id and the phone change; the id is generated only for a new document without one; the phone ends up digits only and no longer |
| BookingModel.BookingIdStable | backend/models/Booking.js:114 | the first save always leaves a booking id, and no later save changes it |
| BookingModel.StoredPhoneShape | backend/models/Booking.js:122-124 | a valid phone is stored as the number without its '+', 1 to 16 digits, not starting with 0 |
| BookingModel.PhoneStripIdempotent | backend/models/Booking.js:122-124 | running the hook again leaves the stored phone unchanged |
| BookingModel.FormattedPhoneRejected | backend/models/Booking.js:25 | "+1 (555) 123-4567" fails the phone pattern, because validation precedes the hook |
| BookingModel.BookingDocument.constructor | backend/routes/booking.js:49-59 | a new document holds the given fields and is marked new |
| BookingModel.BookingDocument.PreSave | backend/models/Booking.js:113-127 | the document's fields become what the hook function gives; the new flag is kept |
| BookingModel.GetStats | backend/models/Booking.js:135-143 | one entry per status present, each with its positive count; statuses distinct; every booking's status listed; the counts add up to the number of bookings |
| BookingRoutes.SubmitBooking | backend/routes/booking.js:12-111 | missing fields, an active duplicate, failed validation and a booking id collision each refuse without touching the store; otherwise exactly one booking, as the hook leaves it, is appended and the code is 201 |
| BookingRoutes.GuardThenSave | backend/routes/booking.js:33-61 | with the required fields present: the 409 exactly when an active booking for the e-mail and model exists, naming its booking id; otherwise the outcome of saving the new booking |
| BookingRoutes.SubmitReachesSave | backend/routes/booking.js:33-61 | with the required fields present and no active duplicate, a submission is the save of the document built from the request |
| BookingRoutes.ActiveDuplicate | backend/routes/booking.js:34-38 | the first booking with the lowercased e-mail, the trimmed model and an active status, or None exactly when there is none |
| BookingRoutes.Save | backend/routes/booking.js:61 | validation failure exactly when the schema is violated, with the full message list; otherwise the hooked document is inserted unless its booking id is taken |
| BookingRoutes.CreatedBookingFields | backend/routes/booking.js:49-59 | a created booking holds the trimmed fields, the lowercased e-mail, the defaults for variant and requirements, status pending, no notes, a generated booking id and the request time |
| BookingRoutes.ClosedBookingsDoNotBlock | backend/routes/booking.js:37 | delivered or cancelled bookings for the same e-mail and model never trigger the 409 |
| BookingRoutes.SubmitPreservesInvariant | backend/routes/booking.js:33-61 | for an e-mail without surrounding whitespace, intake keeps at most one active booking per e-mail and model, unique booking ids and unique identities |
| BookingRoutes.AppendKeepsInvariant | backend/routes/booking.js:61 | appending a non-clashing booking with a fresh identity and booking id keeps the store invariant |
| BookingRoutes.PaddedEmailBypassesGuard | backend/routes/booking.js:34-51 | an e-mail with leading whitespace misses the guard, and a second active booking for the same e-mail and model is stored |
| BookingRoutes.GuardMissesPaddedEmail | backend/routes/booking.js:35 | the untrimmed, lowercased e-mail never finds the stored trimmed one |
| BookingRoutes.SavedBesideClash | backend/routes/booking.js:61 | the insert itself does not check for an active duplicate: a valid document beside an active booking for the same e-mail and model is stored |
| BookingRoutes.Matching | backend/routes/booking.js:127-133 | exactly the bookings with the given status name and a model containing the filter case-insensitively, each as often as stored |
| BookingRoutes.ListBookings | backend/routes/booking.js:123-160 | with an absent page taken as 1 and an absent limit as 10, a negative skip is refused; otherwise the totals and page size follow the skip/limit arithmetic, and the page is the run after the first (page-1)*limit records of a newest-first ordering of exactly the matching bookings, each without IP and notes |
| BookingRoutes.DefaultFirstPage | backend/routes/booking.js:125-145 | a query without page and limit lists page 1 at ten per page: the newest matching bookings, at most ten, without IP and notes |
| BookingRoutes.ListingOfSorted | backend/routes/booking.js:141-145 | the page cut from a newest-first list of matching stored bookings is the hidden run after the skipped records, newest first |
| BookingRoutes.SearchByBookingId | backend/routes/booking.js:210-226 | found exactly when some booking's id equals the upper-cased argument, and then that booking without IP and notes |
| BookingRoutes.SearchIgnoresCase | backend/routes/booking.js:212-214 | a generated booking id typed in lower case still finds its booking |
| BookingRoutes.IndexOfId | backend/routes/booking.js:176 | the first position holding the identity, or None exactly when no booking has it |
| BookingRoutes.GetBooking | backend/routes/booking.js:174-205 | 400 exactly for a malformed id, 404 exactly when no booking has it, otherwise that booking without its IP address |
| BookingRoutes.UpdateBookingStatus | backend/routes/booking.js:240-281 | 400 exactly for a status outside the five; 500 for a malformed id or overlong notes; 404 for an unknown id; otherwise only that booking changes: its status, its notes and assignee when truthy, its update time |
| BookingRoutes.UpdateKeepsIdentities | backend/routes/booking.js:251-259 | an update keeps every booking's identity, booking id, e-mail and model, so identity and booking-id uniqueness survive |
| BookingRoutes.UpdateCanBreakUniqueness | backend/routes/booking.js:244 | reopening a closed booking beside an active one for the same e-mail and model breaks the one-active-booking rule |
| BookingRoutes.CountSince | backend/routes/booking.js:291-293 | exactly the number of positions whose booking was created at or after the cut-off; hence at most the number of bookings, all of them exactly when all are recent, none exactly when none are |
| BookingRoutes.PopularModels | backend/routes/booking.js:295-304 | at most five distinct models with their positive counts, highest first; a model left out has no more bookings than any of the five |
| BookingRoutes.TopEntries | backend/routes/booking.js:295-304 | the first five groups, sorted by count, carry their counts, are distinct, descend, and no model left out outnumbers them |
| BookingRoutes.PrefixOfGroups | backend/routes/booking.js:302-303 | cutting the sorted groups keeps their counts, their order and distinct models |
| BookingRoutes.StatsOverview | backend/routes/booking.js:286-314 | the status stats are the one-group-per-status result of GetStats and the popular models are PopularModels of the booked models (at most five, highest first); the status counts add up to the total, and the recent count is the number of bookings of the last seven days |
| TestDriveModel.ParseStatus | backend/models/TestDrive.js:64-68 | exactly the four status names are accepted, each naming its own status |
| TestDriveModel.StatusNameRoundTrip | backend/models/TestDrive.js:64-68 | every status survives the name round trip |
| TestDriveModel.NameError | backend/models/TestDrive.js:6-11 | no message exactly when the name is present and at most 100 characters |
| TestDriveModel.EmailError | backend/models/TestDrive.js:12-18 | no message exactly when the e-mail is present and passes the e-mail check |
| TestDriveModel.PhoneError | backend/models/TestDrive.js:19-29 | no message exactly when the phone is an optional '+' and 7 to 16 digits |
| TestDriveModel.DateError | backend/models/TestDrive.js:32-41 | no message exactly when the date is strictly after now |
| TestDriveModel.TimeError | backend/models/TestDrive.js:42-49 | no message exactly when the time is one of the eight slots |
| TestDriveModel.ModelError | backend/models/TestDrive.js:50-54 | no message exactly when the vehicle model is present |
| TestDriveModel.MessageError | backend/models/TestDrive.js:57-61 | no message exactly when the message is at most 500 characters |
| TestDriveModel.ValidationErrors | backend/models/TestDrive.js:4-79 | the message list is empty exactly when every schema constraint holds; it holds the message of every failing path and nothing else; a name failure is reported first; at most seven messages |
| TestDriveModel.CustomerErrors | backend/models/TestDrive.js:6-29 | exactly the messages of the failing name, e-mail and phone paths; empty exactly when those fields are valid; a name failure comes first; at most three messages |
| TestDriveModel.RequestErrors | backend/models/TestDrive.js:32-61 | exactly the messages of the failing date, time, model and message paths; empty exactly when those fields are valid; at most four messages |
| TestDriveModel.PastDateReported | backend/models/TestDrive.js:36-39 | a date not after now always brings the date message |
| TestDriveModel.PreSaveHook | backend/models/TestDrive.js:94-100 | only the phone changes, to digits only and no longer; a phone already all digits is left alone |
| TestDriveModel.StoredPhoneShape | backend/models/TestDrive.js:96-98 | a valid phone is stored as the number without its '+', 7 to 16 digits |
| TestDriveModel.PreSaveIdempotent | backend/models/TestDrive.js:96-98 | running the hook twice is the same as once |
| TestDriveModel.TestDriveDocument.constructor | backend/routes/testDrive.js:51-60 | a new document holds the given fields |
| TestDriveModel.TestDriveDocument.PreSave | backend/models/TestDrive.js:94-100 | the document's fields become what the hook function gives |
| TestDriveRoutes.ActiveDuplicate | backend/routes/testDrive.js:37-41 | the first request with the lowercased e-mail, the same date and an active status, or None exactly when there is none |
| TestDriveRoutes.Save | backend/routes/testDrive.js:62 | validation failure exactly when the schema is violated against the clock, with the full message list; otherwise the hooked document is inserted |
| TestDriveRoutes.SubmitTestDrive | backend/routes/testDrive.js:12-108 | missing fields, an unreadable date (500), a date before midnight, an active duplicate and failed validation each refuse without touching the store, each exactly in its own case; otherwise exactly one request is appended with 201 |
| TestDriveRoutes.DatedSubmission | backend/routes/testDrive.js:25-62 | for a readable date: before midnight exactly when the date is, the 409 exactly when an active request for the e-mail and date exists, otherwise the save of the new request |
| TestDriveRoutes.SubmitReachesSave | backend/routes/testDrive.js:25-62 | with the required fields present, a readable date from today on and no active duplicate, a submission is the save of the document built from the request |
| TestDriveRoutes.CreatedRequestFields | backend/routes/testDrive.js:51-60 | a created request holds the trimmed fields, the lowercased e-mail, the time as sent, a date after now, the default message and status pending |
| TestDriveRoutes.CreatedPhoneShape | backend/routes/testDrive.js:51-62 | a created request's phone passed the pattern and is stored as its 7 to 16 digits |
| TestDriveRoutes.SchemaDateRuleSubsumesGate | backend/routes/testDrive.js:25-34 | a date the schema accepts always passes the start-of-day gate |
| TestDriveRoutes.EarlierTodayRejected | backend/routes/testDrive.js:29 | a date earlier today passes the gate but fails validation with the date message, and nothing is stored |
| TestDriveRoutes.ClosedRequestsDoNotBlock | backend/routes/testDrive.js:40 | completed or cancelled requests for the same e-mail and date never trigger the 409 |
| TestDriveRoutes.SubmitPreservesInvariant | backend/routes/testDrive.js:36-62 | for an e-mail without surrounding whitespace, intake keeps at most one active request per e-mail and date and unique identities |
| TestDriveRoutes.AppendKeepsInvariant | backend/routes/testDrive.js:62 | appending a non-clashing request with a fresh identity keeps the store invariant |
| TestDriveRoutes.PaddedEmailBypassesGuard | backend/routes/testDrive.js:37-53 | an e-mail with leading whitespace misses the guard, and a second active request for the same e-mail and date is stored |
| TestDriveRoutes.GuardMissesPaddedEmail | backend/routes/testDrive.js:38 | the untrimmed, lowercased e-mail never finds the stored trimmed one |
| TestDriveRoutes.SavedBesideClash | backend/routes/testDrive.js:62 | the insert itself does not check for an active duplicate: a valid document beside an active request for the same e-mail and date is stored |
| TestDriveRoutes.Matching | backend/routes/testDrive.js:118-121 | exactly the requests with the given status name, each as often as stored |
| TestDriveRoutes.ListTestDrives | backend/routes/testDrive.js:114-157 | with an absent page taken as 1 and an absent limit as 10, a negative skip is refused; otherwise the totals and page size follow the skip/limit arithmetic, and the page is the run after the first (page-1)*limit records of a newest-first ordering of exactly the matching requests, each without IP |
| TestDriveRoutes.DefaultFirstPage | backend/routes/testDrive.js:116-133 | a query without page and limit lists page 1 at ten per page: the newest matching requests, at most ten, without IP |
| TestDriveRoutes.ListingOfSorted | backend/routes/testDrive.js:129-133 | the page cut from a newest-first list of matching stored requests is the hidden run after the skipped records, newest first |
| TestDriveRoutes.IndexOfId | backend/routes/testDrive.js:164 | the first position holding the identity, or None exactly when no request has it |
| TestDriveRoutes.GetTestDrive | backend/routes/testDrive.js:162-193 | 400 exactly for a malformed id, 404 exactly when no request has it, otherwise that request without its IP address |
| TestDriveRoutes.UpdateTestDriveStatus | backend/routes/testDrive.js:198-235 | 400 exactly for a status outside the four; 500 for a malformed id; 404 for an unknown id; otherwise only that request's status and update time change |
| TestDriveRoutes.UpdateKeepsIdentities | backend/routes/testDrive.js:209-213 | an update keeps every request's identity, e-mail and date, so identity uniqueness survives |
| TestDriveRoutes.UpdateCanBreakUniqueness | backend/routes/testDrive.js:202 | reopening a closed request beside an active one for the same e-mail and date breaks the one-active-request rule |
| Pagination.TotalPages | backend/routes/booking.js:155 | `Math.ceil(total / limit)`: the least page count covering the total for a positive limit, the JavaScript value for a negative one, none for zero |
| Pagination.Paginate | backend/routes/booking.js:141-158 | refused exactly for a negative skip; otherwise the page holds the sorted records from the skip on, at most the limit of them, with the reported totals |
| Pagination.PagesCoverEverything | backend/routes/booking.js:143-144 | with a positive limit, record k is at slot k mod limit of page k div limit + 1 |
| Pagination.SecondPageOfFifteen | backend/routes/booking.js:143-155 | fifteen records, page 2, limit 10: the last five records and two pages |
| Grouping.GroupCounts | backend/models/Booking.js:136-143 | one group per distinct value, counts positive and equal to the occurrences, values distinct, every value present |
| Grouping.GroupCountsSum | backend/models/Booking.js:136-143 | the group counts add up to the number of records |
| Sequences.NewestFirst | backend/routes/booking.js:138 | a permutation of the records ordered by non-increasing creation time |
| Sequences.SortBySorted | frontend/src/pages/Inventory.tsx:135-148 | under a total preorder the sort yields a sorted permutation |
| Sequences.SortByAllTied | frontend/src/pages/Inventory.tsx:135-148 | elements that all compare equal keep their order, as a stable sort keeps ties |
| Strings.StripNonDigits | backend/models/Booking.js:123 | digits only, no longer than the input, and unchanged on an all-digit input |
| Strings.StripNonDigitsIdempotent | backend/models/Booking.js:123 | stripping twice is the same as once |
| Strings.JoinSplit | backend/server.js:20 | joining the pieces of a split with the separator gives back the string |
| RecordStore.Store.FindActiveBooking | backend/routes/booking.js:34-38 | the scan finds what the duplicate query describes |
| RecordStore.Store.BookingIdInUse | backend/models/Booking.js:70-74 | the scan answers whether the unique index already holds the booking id |
| RecordStore.Store.FindBooking | backend/routes/booking.js:255 | the scan finds the position of the identity as `findById` does |
| RecordStore.Store.CreateBooking | backend/routes/booking.js:12-61 | the outcome and the new bookings are those of the intake function on the old store with the next identity; test drives are untouched; the counter advances exactly on creation; identities stay fresh and unique |
| RecordStore.Store.SaveBooking | backend/routes/booking.js:61 | validation, the in-place hook, the index check and the insert end in the state the save function describes |
| RecordStore.Store.InsertBooking | backend/routes/booking.js:61 | appends the booking under the next identity and advances the counter, keeping identities unique |
| RecordStore.Store.UpdateBookingStatus | backend/routes/booking.js:240-266 | the update built field by field gives the outcome and the bookings of the update function; nothing else changes |
| RecordStore.Store.FindActiveTestDrive | backend/routes/testDrive.js:37-41 | the scan finds what the duplicate query describes |
| RecordStore.Store.FindTestDrive | backend/routes/testDrive.js:209-213 | the scan finds the position of the identity as `findByIdAndUpdate` does |
| RecordStore.Store.CreateTestDrive | backend/routes/testDrive.js:12-62 | the outcome and the new requests are those of the intake function on the old store with the next identity; bookings are untouched; the counter advances exactly on creation |
| RecordStore.Store.SaveTestDrive | backend/routes/testDrive.js:62 | validation, the in-place hook and the insert end in the state the save function describes |
| RecordStore.Store.InsertTestDrive | backend/routes/testDrive.js:62 | appends the request under the next identity and advances the counter, keeping identities unique |
| RecordStore.Store.UpdateTestDriveStatus | backend/routes/testDrive.js:198-220 | the outcome and the requests are those of the update function; nothing else changes |
| Inventory.KeyOf | frontend/src/pages/Inventory.tsx:136-146 | any key other than the four price and year keys sorts by name |
| Inventory.ComparatorIsTotalPreorder | frontend/src/pages/Inventory.tsx:135-148 | every sort comparator is total and transitive |
| Inventory.LexLeTotal | frontend/src/pages/Inventory.tsx:146 | any two names are comparable |
| Inventory.LexLeTransitive | frontend/src/pages/Inventory.tsx:146 | the name order is transitive |
| Inventory.Shortlist | frontend/src/pages/Inventory.tsx:128-134 | every kept vehicle passes search, body and fuel tests; the matching vehicles are kept as often as in the table and nothing else |
| Inventory.FilteredVehicles | frontend/src/pages/Inventory.tsx:128-148 | the result is a permutation of the matching vehicles, ordered by the chosen comparator |
| Inventory.ComparatorMeans | frontend/src/pages/Inventory.tsx:136-146 | a list ordered by a key's comparator is ordered by price, year or name as that key says |
| Inventory.PriceOrders | frontend/src/pages/Inventory.tsx:137-140 | "price-low" gives non-decreasing prices, "price-high" non-increasing |
| Inventory.YearOrders | frontend/src/pages/Inventory.tsx:141-144 | "year-new" gives non-increasing years, "year-old" non-decreasing |
| Inventory.TiedYearsKeepTableOrder | frontend/src/pages/Inventory.tsx:128-148 | on a table whose vehicles share one year, a year sort shows the filtered vehicles in table order |
| Inventory.YearSortKeepsTableOrder | frontend/src/pages/Inventory.tsx:43-148 | the page's seven vehicles are all 2024 models, so either year sort shows them in table order |
| Inventory.NameOrder | frontend/src/pages/Inventory.tsx:145-146 | any other key lists the vehicles in name order |
| Inventory.ShownIffMatches | frontend/src/pages/Inventory.tsx:129-134 | in a table without repeats a vehicle is shown, once, exactly when it passes the three tests |
| Inventory.EverythingShownWhenUnfiltered | frontend/src/pages/Inventory.tsx:128-134 | empty search with both filters "all" shows every vehicle of the table |
| Inventory.CatalogueOfSeven | frontend/src/pages/Inventory.tsx:38-123 | the table holds seven vehicles with distinct ids |
| Inventory.UnfilteredShowsSeven | frontend/src/pages/Inventory.tsx:38-134 | the unfiltered page shows all seven vehicles |
| Inventory.ClearFilters | frontend/src/pages/Inventory.tsx:275-280 | search, both filters and sort return to their initial values; the view mode stays |
| Inventory.ClearedShowsEverything | frontend/src/pages/Inventory.tsx:275-280 | after Clear Filters every vehicle is shown, in name order |
| CarDetails.Hyphenate | frontend/src/pages/CarDetails.tsx:27 | no whitespace is left |
| CarDetails.HyphenateKeepsWord | frontend/src/pages/CarDetails.tsx:27 | text without whitespace is left unchanged |
| CarDetails.HyphenateKeepsLowerCase | frontend/src/pages/CarDetails.tsx:27 | the replacement brings in no capital letter, so lowercased text stays lowercase |
| CarDetails.HyphenateWord | frontend/src/pages/CarDetails.tsx:27 | a leading word without whitespace is kept unchanged in front of the hyphenated rest |
| CarDetails.HyphenateGap | frontend/src/pages/CarDetails.tsx:27 | a leading whitespace run of any length becomes a single '-' in front of the hyphenated rest |
| CarDetails.HyphenateRun | frontend/src/pages/CarDetails.tsx:27 | a word, a whitespace run and text not starting with whitespace give the word, one '-' and the hyphenated rest |
| CarDetails.Slug | frontend/src/pages/CarDetails.tsx:27 | the slug holds no whitespace and no capital letter |
| CarDetails.SlugOfTwoWords | frontend/src/pages/CarDetails.tsx:27 | two words around a whitespace run give the lowercased words joined by one '-' |
| CarDetails.SlugOfRun | frontend/src/pages/CarDetails.tsx:27 | a word, a whitespace run and text not starting with whitespace give the lowercased word, one '-' and the slug of the rest |
| CarDetails.SlugOfWord | frontend/src/pages/CarDetails.tsx:27 | a name without whitespace has its lowercased self as slug |
| CarDetails.TataSlug | frontend/src/pages/CarDetails.tsx:27 | "Tata" and a single-word model give "tata-" and the lowercased model |
| CarDetails.AltrozSlug | frontend/src/pages/CarDetails.tsx:27 | "Tata Altroz" gives "tata-altroz" |
| CarDetails.CarName | frontend/src/pages/CarDetails.tsx:154 | a second piece exists exactly when the slug holds a '-' |
| CarDetails.AltrozCarName | frontend/src/pages/CarDetails.tsx:154 | the car name of "tata-altroz" is "altroz" |
| CarDetails.ModelOf | frontend/src/pages/CarDetails.tsx:29-30 | a model exactly for the seven slugs the switch names, and then the model whose slug it is |
| CarDetails.HeroConfigFor | frontend/src/pages/CarDetails.tsx:29-78 | a slug outside the seven gets the default hero; a known slug gets the hero entry of the model it names |
| CarDetails.GetHeroConfig | frontend/src/pages/CarDetails.tsx:26-79 | a model whose slug is not one of the seven gets the default hero |
| CarDetails.ColorsOfShape | frontend/src/pages/CarDetails.tsx:86-140 | every model's own list holds at least three colours, each with an image |
| CarDetails.ColorOptionsFor | frontend/src/pages/CarDetails.tsx:85-147 | at least three options, each with an image; the three defaults for an unknown slug, the named model's own list for a known one |
| CarDetails.GetColorOptions | frontend/src/pages/CarDetails.tsx:82-148 | never fewer than three options, so the first is always defined, each with an image; the defaults for an unknown model |
| CarDetails.ColorImagesPresent | frontend/src/pages/CarDetails.tsx:82-148 | every colour option has a non-empty image |
| CarDetails.FindColor | frontend/src/pages/CarDetails.tsx:219 | the first option with the id, or None exactly when no option has it |
| CarDetails.CurrentCarImage | frontend/src/pages/CarDetails.tsx:218-221 | an id no option has shows the first option's image |
| CarDetails.SelectedColorShown | frontend/src/pages/CarDetails.tsx:218-221 | the first option with a given id shows its own image |
| CarDetails.SelectionShown | frontend/src/pages/CarDetails.tsx:218-221 | an offered colour shows its image, any other id the first option's image |
| CarDetails.HeadlampImage | frontend/src/pages/CarDetails.tsx:160-162 | the image lies in the asset directory and ends in ".webp" exactly for the Altroz |
| CarDetails.GetFeatureSlides | frontend/src/pages/CarDetails.tsx:152-185 | five slides, every image under the model's asset directory, the first ending in ".webp" exactly for the Altroz, the other four in ".avif" |
| CarDetails.VideoUrlFor | frontend/src/pages/CarDetails.tsx:192-209 | the fallback link exactly for a car name outside the seven |
| CarDetails.GetVideoUrl | frontend/src/pages/CarDetails.tsx:188-210 | the fallback link when the slug has no car name, and exactly when the car name is not one of the seven |
| CarDetails.AltrozPage | frontend/src/pages/CarDetails.tsx:26-210 | "Tata Altroz" gets the Altroz hero and colour entries, a ".webp" headlamp slide and a video link other than the fallback |
| CarDetails.JsRem | frontend/src/pages/CarDetails.tsx:235-236 | JavaScript's remainder takes the sign of the dividend and stays below the divisor in size |
| CarDetails.CarouselSteps | frontend/src/pages/CarDetails.tsx:235-236 | from any slide, next and prev stay on a slide, wrap at the ends and undo each other |
| CarDetails.CarDetailsView.constructor | frontend/src/pages/CarDetails.tsx:215-224 | the page holds the model's slides (a constant from then on) and starts on the first slide with the model's first colour selected |
| CarDetails.CarDetailsView.CurrentSlide | frontend/src/pages/CarDetails.tsx:420-427 | the slide shown is one of the page's slides, which the constructor fixes to the model's |
| CarDetails.CarDetailsView.Next | frontend/src/pages/CarDetails.tsx:235 | the index moves to the next slide, wrapping, and stays valid; the colour is kept |
| CarDetails.CarDetailsView.Prev | frontend/src/pages/CarDetails.tsx:236 | the index moves to the previous slide, wrapping, and stays valid; the colour is kept |
| CarDetails.CarDetailsView.SelectColor | frontend/src/pages/CarDetails.tsx:306 | the selection becomes the given id; the slide is kept |
| Cors.TrimAll | backend/server.js:21 | each piece trimmed, in place |
| Cors.DropEmpty | backend/server.js:22 | the non-empty strings, each as often as before, and no empty one |
| Cors.ParseOrigins | backend/server.js:19-22 | every origin is non-empty, trimmed and comma-free; each trimmed non-empty piece of the setting occurs as often as in the split |
| Cors.NoSettingNoOrigins | backend/server.js:19 | an unset or empty setting gives no configured origins |
| Cors.AllowedOrigins | backend/server.js:24-28 | the two local servers are always allowed, and exactly they and the configured origins are |
| Cors.OriginSet | backend/server.js:24-28 | the two local servers and exactly the listed origins are members |
| Cors.PreviewShape | backend/server.js:30 | an origin matches the preview pattern exactly when, lower-cased, it is the prefix, a non-empty run of [a-z0-9-] and the suffix |
| Cors.PreviewIgnoresCase | backend/server.js:30 | upper- or lower-casing an origin does not change whether it matches |
| Cors.DottedLabelRejected | backend/server.js:30 | a host with a '.' before ".vercel.app" is not a preview deployment |
| Cors.OriginDecision | backend/server.js:33-39 | allowed exactly for no origin, an allowed one or a preview; otherwise "Not allowed by CORS" |
| Cors.CheckOrigin | backend/server.js:19-39 | an origin passes exactly when it is absent, one of the two local servers, a configured origin or a preview deployment; every other origin is refused with "Not allowed by CORS" |
| Cors.UnconfiguredServer | backend/server.js:19-39 | without the setting a present origin passes exactly when it is local or a preview |
| Cors.NoConfiguredOrigins | backend/server.js:24-39 | with no configured origin, a present origin passes exactly when it is local or a preview |
| Cors.ConfiguredOriginAllowed | backend/server.js:19-34 | every non-blank listed origin, once trimmed, passes |

## Left out

- MongoDB persistence is not modelled: the connection, the secondary indexes, query planning and the ObjectId format. A store is two sequences, and a malformed `:id` is a separate input case.
- E-mail delivery (`services/emailService.js`) and the fire-and-forget `.catch` are not modelled. Sending never changes the response.
- The check-then-insert race between concurrent submissions is not modelled. Operations run one at a time.
- `validator.isEmail` and `new Date(...)` parsing are foreign code. They are parameters: an e-mail predicate, and a parse function returning a time or nothing.
- `Date.now()`, `Math.random()`, local midnight and the client address are parameters.
- `toLocaleDateString` formatting (`formattedSubmissionDate`, `formattedDate`) is not modelled. The created response is not modelled field by field. `submittedAt` has the same value as `createdAt`.
- `parseInt` of `page` and `limit` is not modelled: each arrives as an integer or absent (absent means 1 and 10, as the defaults in the code say), and a NaN page or limit, as from an empty or non-numeric parameter, is not modelled.
- BookingRoutes.MatchesQuery: the `$regex` model filter is a case-insensitive substring match, assuming the filter holds no regular-expression metacharacters.
- `toLowerCase` and `toUpperCase` map ASCII letters only. Other characters are left unchanged.
- Inventory.FilteredVehicles: `localeCompare` is plain lexicographic order on characters, and prices are whole hundredths of a lakh rather than floating-point numbers. The insertion sort is stable as written, as JavaScript's `Array.prototype.sort` is, but stability is proved only for a run of fully tied elements (Sequences.SortByAllTied), not for ties in general.
- Grouping.GroupCounts: the store leaves the order of `$group` results unspecified. The model lists groups in order of first appearance, and `$sort` on equal counts keeps that order.
- The 7-day recent-bookings window is a plain comparison of integers: creation time at least `now - 604800000`.
- The Express middleware (helmet, morgan, rate limiting, body parsing), `listen`, the 404 and global error handlers, and console logging are not modelled.
- The JSX rendering of both pages is not modelled. The `!vehicle` guard in the car-details page is dead, since `vehicle.name` is read first, so a vehicle is always present. The hero gradient and colour are kept as data but nothing is drawn.
- The image imports of the inventory page are not modelled. A vehicle has no image field.
- The other UI files (Contact, Testimonials, About, Footer, HeroSection, Header, VehicleCard, TestDriveSection, FeaturedVehicles, ColorPalette, Index) are not part of this model.
- The booking and test-drive form dialogs are not part of this model. Their client-side required-field checks only pre-screen the server's gate.
- CarDetails.CurrentCarImage: the contract states the fallback case only. The matched case, including duplicate colour ids, is stated by CarDetails.SelectionShown for the first matching option.
- CarDetails.HeroConfigFor: states the default hero for an unknown slug and the named model's table entry for a known one. It does not state that those seven entries differ from the default.
- CarDetails.ColorOptionsFor: states the default colours for an unknown slug and the named model's list for a known one. It does not state that those seven lists differ from the default.
- CarDetails.GetHeroConfig: states only the default case. The known case is stated by CarDetails.HeroConfigFor on the slug, and by CarDetails.AltrozPage for "Tata Altroz".
- CarDetails.GetColorOptions: states the size, the images and the default case. The known case is stated by CarDetails.ColorOptionsFor on the slug, and by CarDetails.AltrozPage for "Tata Altroz".
- Query filters and update documents are compared as given: the schema setters (`trim`, `lowercase`) are taken to apply only when a document is built. Mongoose versions that run setters on queries and updates would trim the `findOne` e-mail and the sales notes. The version is not pinned in the code, so this is an assumption. BookingRoutes.ActiveDuplicate, TestDriveRoutes.ActiveDuplicate, both PaddedEmailBypassesGuard, GuardMissesPaddedEmail and SavedBesideClash lemmas, the trimmed-e-mail requirement of both SubmitPreservesInvariant lemmas, and the untrimmed notes length in BookingRoutes.UpdateBookingStatus rely on it.
- Request bodies are strings or absent. A truthy non-string JSON value (a number, array or object) would make `.trim()` or `.toLowerCase()` throw, and the catch-all would answer 500. That case is not modelled.
- String lengths count characters. JavaScript's `maxlength` counts UTF-16 code units, so a name with characters outside the Basic Multilingual Plane can pass a length bound in the model and fail it in the code.
- CarDetails.Hyphenate: the contract states only that no whitespace is left. The run-by-run replacement is stated by CarDetails.HyphenateWord, CarDetails.HyphenateGap and CarDetails.HyphenateRun, which together fix the result for every string.
- CarDetails.Slug: the contract states no whitespace and no capital letter. The slug of every name follows from CarDetails.SlugOfWord and CarDetails.SlugOfRun.

=== FILE: booking_model.dfy ===
/**
 * The booking schema: the stored record, its field validators, the
 * pre-save hook that fabricates `bookingId` and strips the phone number,
 * and the status-count statistics.
 *
 * Validation runs as the first step of a save, before the hook, so the
 * phone pattern is checked on the trimmed but unstripped value.
 */
module BookingModel {
  import opened Wrappers
  import opened Strings
  import Grouping

  datatype BookingStatus = Pending | Confirmed | Processing | Delivered | Cancelled

  function StatusName(s: BookingStatus): string {
    match s
    case Pending => "pending"
    case Confirmed => "confirmed"
    case Processing => "processing"
    case Delivered => "delivered"
    case Cancelled => "cancelled"
  }

  /** The status enumeration check: exactly the five names are accepted, and each names its status. */
  function ParseStatus(s: string): (r: Option<BookingStatus>)
    ensures r.Some? <==> s in ["pending", "confirmed", "processing", "delivered", "cancelled"]
    ensures r.Some? ==> StatusName(r.value) == s
  {
    if s == "pending" then Some(Pending)
    else if s == "confirmed" then Some(Confirmed)
    else if s == "processing" then Some(Processing)
    else if s == "delivered" then Some(Delivered)
    else if s == "cancelled" then Some(Cancelled)
    else None
  }

  lemma StatusNameRoundTrip(st: BookingStatus)
    ensures ParseStatus(StatusName(st)) == Some(st)
  {
  }

  /** A booking that still counts against the one-active-booking-per-model rule. */
  predicate IsActive(s: BookingStatus) {
    s == Pending || s == Confirmed || s == Processing
  }

  /** A stored booking. `id` is the store-assigned identity; optional fields absent from the document are None. */
  datatype Booking = Booking(
    id: nat,
    bookingId: Option<string>,
    name: string,
    email: string,
    phone: string,
    address: string,
    model: string,
    color: string,
    variant: string,
    additionalRequirements: string,
    status: BookingStatus,
    estimatedPrice: Option<int>,
    ipAddress: Option<string>,
    salesNotes: Option<string>,
    assignedTo: Option<string>,
    followUpDate: Option<int>,
    createdAt: int,
    updatedAt: int)

  /** `Math.floor(1000 + Math.random() * 9000)`: a four-digit number. */
  type FourDigits = r: int | 1000 <= r <= 9999 witness 1000

  const Variants: seq<string> := ["base", "mid", "top", "custom", ""]

  /** The phone pattern `^[\+]?[1-9][\d]{0,15}$`. */
  predicate ValidPhone(p: string) {
    var d := if |p| > 0 && p[0] == '+' then p[1..] else p;
    1 <= |d| <= 16 && '1' <= d[0] <= '9' && AllDigits(d)
  }

  /** Every constraint of the schema, stated on its own: the customer, the vehicle and the sales-side fields. */
  predicate SchemaValid(b: Booking, isEmail: string -> bool) {
    CustomerValid(b, isEmail) && VehicleValid(b) && SalesValid(b)
  }

  predicate CustomerValid(b: Booking, isEmail: string -> bool) {
    && b.name != "" && |b.name| <= 100
    && b.email != "" && isEmail(b.email)
    && ValidPhone(b.phone)
    && b.address != "" && |b.address| <= 500
  }

  predicate VehicleValid(b: Booking) {
    && b.model != ""
    && b.color != ""
    && b.variant in Variants
    && |b.additionalRequirements| <= 1000
  }

  predicate SalesValid(b: Booking) {
    && (b.estimatedPrice.Some? ==> b.estimatedPrice.value >= 0)
    && (b.salesNotes.Some? ==> |b.salesNotes.value| <= 2000)
  }

  // One function per schema path: the message of the first validator that
  // fails (the `required` validator runs first), or None.

  function NameError(name: string): (e: Option<string>)
    ensures e.None? <==> name != "" && |name| <= 100
  {
    if name == "" then Some("Name is required")
    else if |name| > 100 then Some("Name cannot exceed 100 characters")
    else None
  }

  function EmailError(email: string, isEmail: string -> bool): (e: Option<string>)
    ensures e.None? <==> email != "" && isEmail(email)
  {
    if email == "" then Some("Email is required")
    else if !isEmail(email) then Some("Please provide a valid email")
    else None
  }

  function PhoneError(phone: string): (e: Option<string>)
    ensures e.None? <==> ValidPhone(phone)
  {
    if phone == "" then Some("Phone number is required")
    else if !ValidPhone(phone) then Some("Please provide a valid phone number")
    else None
  }

  function AddressError(address: string): (e: Option<string>)
    ensures e.None? <==> address != "" && |address| <= 500
  {
    if address == "" then Some("Address is required")
    else if |address| > 500 then Some("Address cannot exceed 500 characters")
    else None
  }

  function ModelError(model: string): (e: Option<string>)
    ensures e.None? <==> model != ""
  {
    if model == "" then Some("Vehicle model is required") else None
  }

  function ColorError(color: string): (e: Option<string>)
    ensures e.None? <==> color != ""
  {
    if color == "" then Some("Vehicle color is required") else None
  }

  function VariantError(variant: string): (e: Option<string>)
    ensures e.None? <==> variant in Variants
  {
    if variant !in Variants then Some("Please select a valid variant") else None
  }

  function RequirementsError(text: string): (e: Option<string>)
    ensures e.None? <==> |text| <= 1000
  {
    if |text| > 1000 then Some("Additional requirements cannot exceed 1000 characters") else None
  }

  function PriceError(price: Option<int>): (e: Option<string>)
    ensures e.None? <==> (price.Some? ==> price.value >= 0)
  {
    if price.Some? && price.value < 0 then Some("Price cannot be negative") else None
  }

  function SalesNotesError(notes: Option<string>): (e: Option<string>)
    ensures e.None? <==> (notes.Some? ==> |notes.value| <= 2000)
  {
    if notes.Some? && |notes.value| > 2000 then Some("Sales notes cannot exceed 2000 characters") else None
  }

  /**
   * The `ValidationError` message list, one message per failed path in schema
   * order: empty exactly when the record meets every schema constraint.
   */
  function ValidationErrors(b: Booking, isEmail: string -> bool): (errors: seq<string>)
    ensures errors == [] <==> SchemaValid(b, isEmail)
    ensures NameError(b.name).Some? ==> errors[0] == NameError(b.name).value
    ensures forall m :: CustomerMessage(b, isEmail, m) || VehicleMessage(b, m) || SalesMessage(b, m) ==> m in errors
    ensures forall m :: m in errors ==> CustomerMessage(b, isEmail, m) || VehicleMessage(b, m) || SalesMessage(b, m)
    ensures |errors| <= 10
  {
    CustomerErrors(b, isEmail) + VehicleErrors(b) + SalesErrors(b)
  }

  /** `m` is the message of a failing name, e-mail, phone or address path. */
  predicate CustomerMessage(b: Booking, isEmail: string -> bool, m: string) {
    || NameError(b.name) == Some(m)
    || EmailError(b.email, isEmail) == Some(m)
    || PhoneError(b.phone) == Some(m)
    || AddressError(b.address) == Some(m)
  }

  /** `m` is the message of a failing model, colour, variant or requirements path. */
  predicate VehicleMessage(b: Booking, m: string) {
    || ModelError(b.model) == Some(m)
    || ColorError(b.color) == Some(m)
    || VariantError(b.variant) == Some(m)
    || RequirementsError(b.additionalRequirements) == Some(m)
  }

  /** `m` is the message of a failing estimated-price or sales-notes path. */
  predicate SalesMessage(b: Booking, m: string) {
    || PriceError(b.estimatedPrice) == Some(m)
    || SalesNotesError(b.salesNotes) == Some(m)
  }

  /** The messages of the name, e-mail, phone and address paths. */
  function CustomerErrors(b: Booking, isEmail: string -> bool): (errors: seq<string>)
    ensures errors == [] <==> CustomerValid(b, isEmail)
    ensures NameError(b.name).Some? ==> errors != [] && errors[0] == NameError(b.name).value
    ensures forall m :: CustomerMessage(b, isEmail, m) <==> m in errors
    ensures |errors| <= 4
  {
    var checks := [NameError(b.name), EmailError(b.email, isEmail), PhoneError(b.phone), AddressError(b.address)];
    assert checks[0] == NameError(b.name) && checks[1] == EmailError(b.email, isEmail);
    assert checks[2] == PhoneError(b.phone) && checks[3] == AddressError(b.address);
    PresentOfFour(NameError(b.name), EmailError(b.email, isEmail), PhoneError(b.phone), AddressError(b.address));
    Present(checks)
  }

  /** The messages of the model, colour, variant and requirements paths. */
  function VehicleErrors(b: Booking): (errors: seq<string>)
    ensures errors == [] <==> VehicleValid(b)
    ensures forall m :: VehicleMessage(b, m) <==> m in errors
    ensures |errors| <= 4
  {
    var checks := [ModelError(b.model), ColorError(b.color), VariantError(b.variant), RequirementsError(b.additionalRequirements)];
    assert checks[0] == ModelError(b.model) && checks[1] == ColorError(b.color);
    assert checks[2] == VariantError(b.variant) && checks[3] == RequirementsError(b.additionalRequirements);
    PresentOfFour(ModelError(b.model), ColorError(b.color), VariantError(b.variant), RequirementsError(b.additionalRequirements));
    Present(checks)
  }

  /** The messages of the estimated-price and sales-notes paths. */
  function SalesErrors(b: Booking): (errors: seq<string>)
    ensures errors == [] <==> SalesValid(b)
    ensures forall m :: SalesMessage(b, m) <==> m in errors
    ensures |errors| <= 2
  {
    var checks := [PriceError(b.estimatedPrice), SalesNotesError(b.salesNotes)];
    assert checks[0] == PriceError(b.estimatedPrice) && checks[1] == SalesNotesError(b.salesNotes);
    PresentOfTwo(PriceError(b.estimatedPrice), SalesNotesError(b.salesNotes));
    Present(checks)
  }

  /** `"BK" + Date.now().toString().slice(-6) + Math.floor(1000 + Math.random() * 9000)`. */
  function GeneratedBookingId(now: nat, random: FourDigits): string
  {
    "BK" + Last(NatToString(now), 6) + NatToString(random)
  }

  /** Once the clock reads at least 100000 ms, a generated id is "BK" followed by exactly ten digits. */
  lemma BookingIdFormat(now: nat, random: FourDigits)
    requires now >= 100000
    ensures var id := GeneratedBookingId(now, random);
      |id| == 12 && id[..2] == "BK" && AllDigits(id[2..])
  {
    var r: nat := random;
    NatToStringLength(now, 5);
    assert Pow10(5) == 100000;
    NatToStringLength(r, 3);
    NatToStringLength(r, 4);
    assert Pow10(3) == 1000 && Pow10(4) == 10000;
    var digits := NatToString(now);
    var t := Last(digits, 6);
    var u := NatToString(r);
    assert |t| == 6 && AllDigits(t) by {
      assert forall i :: 0 <= i < |t| ==> t[i] == digits[|digits| - 6 + i];
    }
    assert |u| == 4 && AllDigits(u);
    var id := GeneratedBookingId(now, random);
    assert id == "BK" + (t + u);
    assert id[2..] == t + u;
  }

  /** A generated booking id holds no lower-case letter: "BK" and digits. */
  lemma GeneratedIdHasNoLowerLetters(now: nat, random: FourDigits)
    ensures NoLowerLetters(GeneratedBookingId(now, random))
  {
    var r: nat := random;
    var s := NatToString(now);
    var t := Last(s, 6);
    var u := NatToString(r);
    assert AllDigits(t) by {
      assert forall i :: 0 <= i < |t| ==> t[i] == s[|s| - |t| + i];
    }
    var digits := t + u;
    forall k | 0 <= k < |digits|
      ensures IsDigit(digits[k])
    {
      if k < |t| {
        assert digits[k] == t[k];
      } else {
        assert digits[k] == u[k - |t|];
      }
    }
    assert GeneratedBookingId(now, random) == "BK" + digits;
    PrefixedDigits(digits);
  }

  lemma PrefixedDigits(digits: string)
    requires AllDigits(digits)
    ensures NoLowerLetters("BK" + digits)
  {
    var g := "BK" + digits;
    forall k | 0 <= k < |g|
      ensures !('a' <= g[k] <= 'z')
    {
      if 2 <= k {
        assert g[k] == digits[k - 2];
      }
    }
  }

  /** The pre-save hook on a document: a new document without a booking id gets one; a non-empty phone is stripped to its digits. */
  function PreSaveHook(b: Booking, isNew: bool, now: nat, random: FourDigits): (r: Booking)
    ensures r == b.(bookingId := r.bookingId, phone := r.phone)
    ensures (IsTruthy(b.bookingId) || !isNew) ==> r.bookingId == b.bookingId
    ensures (!IsTruthy(b.bookingId) && isNew) ==> r.bookingId == Some(GeneratedBookingId(now, random))
    ensures AllDigits(r.phone) && |r.phone| <= |b.phone|
  {
    var withId := if !IsTruthy(b.bookingId) && isNew then b.(bookingId := Some(GeneratedBookingId(now, random))) else b;
    if withId.phone != "" then withId.(phone := StripNonDigits(withId.phone)) else withId
  }

  /** A booking id set when the document is first saved survives every later save. */
  lemma BookingIdStable(b: Booking, now: nat, random: FourDigits, isNew2: bool, now2: nat, random2: FourDigits)
    ensures IsTruthy(PreSaveHook(b, true, now, random).bookingId)
    ensures var first := PreSaveHook(b, true, now, random);
      PreSaveHook(first, isNew2, now2, random2).bookingId == first.bookingId
  {
    if !IsTruthy(b.bookingId) {
      assert |GeneratedBookingId(now, random)| >= 2;
    }
  }

  /** A phone that passed validation is stored as its digits: the number without the optional '+', 1 to 16 digits, not starting with 0. */
  lemma StoredPhoneShape(b: Booking, now: nat, random: FourDigits)
    requires ValidPhone(b.phone)
    ensures var p := PreSaveHook(b, true, now, random).phone;
      && p == (if b.phone[0] == '+' then b.phone[1..] else b.phone)
      && AllDigits(p) && 1 <= |p| <= 16 && p[0] != '0'
  {
    if b.phone[0] == '+' {
      assert b.phone == "+" + b.phone[1..];
      StripPlusPrefix(b.phone[1..]);
    }
  }

  /** Running the hook again leaves the stored phone as it is. */
  lemma PhoneStripIdempotent(b: Booking, isNew: bool, now: nat, random: FourDigits)
    ensures var once := PreSaveHook(b, isNew, now, random);
      PreSaveHook(once, false, now, random).phone == once.phone
  {
  }

  /** Because validation precedes the hook, a formatted number never reaches the digit strip. */
  lemma FormattedPhoneRejected()
    ensures PhoneError("+1 (555) 123-4567") == Some("Please provide a valid phone number")
  {
    var p := "+1 (555) 123-4567";
    assert p[1..][1] == ' ';
  }

  /** A Mongoose document for a booking: the stored fields plus the `isNew` flag the hook consults. */
  class BookingDocument {
    var data: Booking
    var isNew: bool

    constructor (b: Booking)
      ensures data == b && isNew
    {
      data := b;
      isNew := true;
    }

    /** The pre-save hook, updating the document in place. */
    method PreSave(now: nat, random: FourDigits)
        modifies this
      ensures data == PreSaveHook(old(data), old(isNew), now, random)
      ensures isNew == old(isNew)
    {
      if !IsTruthy(data.bookingId) && isNew {
        var timestamp := Last(NatToString(now), 6);
        var suffix := NatToString(random);
        data := data.(bookingId := Some("BK" + timestamp + suffix));
      }
      if data.phone != "" {
        data := data.(phone := StripNonDigits(data.phone));
      }
    }
  }

  function Statuses(bs: seq<Booking>): (r: seq<BookingStatus>)
    ensures |r| == |bs| && forall i :: 0 <= i < |bs| ==> r[i] == bs[i].status
  {
    if bs == [] then [] else [bs[0].status] + Statuses(bs[1..])
  }

  /** `getStats`: one count per status present, each the number of bookings holding it, adding up to the number of bookings. */
  function GetStats(bs: seq<Booking>): (r: seq<(BookingStatus, nat)>)
    ensures forall i :: 0 <= i < |r| ==> r[i].1 == Grouping.Count(Statuses(bs), r[i].0) && r[i].1 > 0
    ensures forall i, j :: 0 <= i < j < |r| ==> r[i].0 != r[j].0
    ensures forall k :: 0 <= k < |bs| ==> exists i :: 0 <= i < |r| && r[i].0 == bs[k].status
    ensures Grouping.SumCounts(r) == |bs|
  {
    var statuses := Statuses(bs);
    Grouping.GroupCountsSum(statuses);
    assert forall k :: 0 <= k < |bs| ==> bs[k].status in statuses by {
      forall k | 0 <= k < |bs| ensures bs[k].status in statuses {
        assert statuses[k] == bs[k].status;
      }
    }
    Grouping.GroupCounts(statuses)
  }
}

=== FILE: booking_routes.dfy ===
/**
 * The booking routes under `/api/booking`: the public intake (POST `/`),
 * the admin listing with filters and pages, lookup by store id and by
 * booking id, the status update and the statistics overview.
 *
 * Each route is a function of the stored bookings and the request; the
 * ones that may insert or change a record return the store afterwards.
 * The clock, the random draw and the client address are parameters.
 */
module BookingRoutes {
  import opened Wrappers
  import opened Strings
  import opened BookingModel
  import opened Responses
  import Sequences
  import Pagination
  import Grouping

  /** The body of POST `/api/booking`; a field the client left out is None. */
  datatype BookingRequest = BookingRequest(
    name: Option<string>,
    email: Option<string>,
    phone: Option<string>,
    address: Option<string>,
    model: Option<string>,
    color: Option<string>,
    variant: Option<string>,
    additionalRequirements: Option<string>)

  /** What the intake reads besides the body: the clock, the random draw, the client address and the e-mail check. */
  datatype Context = Context(now: nat, random: FourDigits, ip: Option<string>, isEmail: string -> bool)

  datatype SubmitOutcome =
    | Created(booking: Booking)
    | MissingFields
    | ActiveBookingExists(existingBookingId: Option<string>)
    | ValidationFailed(errors: seq<string>)
    | DuplicateBookingId
  {
    function Code(): int {
      match this
      case Created(_) => 201
      case MissingFields => 400
      case ActiveBookingExists(_) => 409
      case ValidationFailed(_) => 400
      case DuplicateBookingId => 409
    }
  }

  datatype Submission = Submission(outcome: SubmitOutcome, store: seq<Booking>)

  /** The required-field gate: name, email, phone, address, model and color are all truthy. */
  predicate RequiredPresent(req: BookingRequest) {
    && IsTruthy(req.name) && IsTruthy(req.email) && IsTruthy(req.phone)
    && IsTruthy(req.address) && IsTruthy(req.model) && IsTruthy(req.color)
  }

  /** The duplicate query: the e-mail as lowercased (but not trimmed), the trimmed model, a still-active status. */
  predicate Blocks(b: Booking, email: string, model: string) {
    b.email == Lower(email) && b.model == Trim(model) && IsActive(b.status)
  }

  /** The document `new Booking({...})` builds, before validation and the pre-save hook. */
  function NewBooking(req: BookingRequest, ctx: Context, id: nat): Booking
    requires RequiredPresent(req)
  {
    Booking(
      id, None,
      Trim(req.name.value), Trim(Lower(req.email.value)), Trim(req.phone.value),
      Trim(req.address.value), Trim(req.model.value), Trim(req.color.value),
      if IsTruthy(req.variant) then Trim(req.variant.value) else "",
      if IsTruthy(req.additionalRequirements) then Trim(req.additionalRequirements.value) else "",
      Pending, None,
      if ctx.ip.Some? then Some(Trim(ctx.ip.value)) else None,
      None, None, None, ctx.now, ctx.now)
  }

  /** The unique (sparse) index on `bookingId`: a present id already held by a stored booking. */
  predicate BookingIdTaken(bs: seq<Booking>, bookingId: Option<string>) {
    bookingId.Some? && exists i :: 0 <= i < |bs| && bs[i].bookingId == bookingId
  }

  /**
   * POST `/api/booking`. `id` is the identity the store gives the new document.
   * The gate, the duplicate guard, validation and the unique index each
   * refuse without touching the store; only a booking that passes all four
   * is inserted, as the pre-save hook leaves it.
   */
  function SubmitBooking(bs: seq<Booking>, req: BookingRequest, ctx: Context, id: nat): (r: Submission)
    ensures r.outcome.Created? <==> r.outcome.Code() == 201
    ensures !r.outcome.Created? ==> r.store == bs
    ensures r.outcome.Created? ==> r.store == bs + [r.outcome.booking]
    ensures r.outcome.MissingFields? <==> !RequiredPresent(req)
    ensures r.outcome.ActiveBookingExists? <==>
      RequiredPresent(req) && exists i :: 0 <= i < |bs| && Blocks(bs[i], req.email.value, req.model.value)
    ensures r.outcome.ActiveBookingExists? ==>
      exists i :: 0 <= i < |bs| && Blocks(bs[i], req.email.value, req.model.value)
        && r.outcome.existingBookingId == bs[i].bookingId
    ensures r.outcome.ValidationFailed? ==>
      RequiredPresent(req) && r.outcome.errors != []
      && r.outcome.errors == ValidationErrors(NewBooking(req, ctx, id), ctx.isEmail)
    ensures r.outcome.Created? ==>
      && RequiredPresent(req)
      && SchemaValid(NewBooking(req, ctx, id), ctx.isEmail)
      && r.outcome.booking == PreSaveHook(NewBooking(req, ctx, id), true, ctx.now, ctx.random)
      && !BookingIdTaken(bs, r.outcome.booking.bookingId)
    ensures r.outcome.DuplicateBookingId? ==>
      RequiredPresent(req) && SchemaValid(NewBooking(req, ctx, id), ctx.isEmail)
      && BookingIdTaken(bs, PreSaveHook(NewBooking(req, ctx, id), true, ctx.now, ctx.random).bookingId)
  {
    if !RequiredPresent(req) then Submission(MissingFields, bs)
    else GuardThenSave(bs, req, ctx, id)
  }

  /** The duplicate guard, then the save, for a request with every required field. */
  function GuardThenSave(bs: seq<Booking>, req: BookingRequest, ctx: Context, id: nat): (r: Submission)
    requires RequiredPresent(req)
    ensures !r.outcome.MissingFields?
    ensures !r.outcome.Created? ==> r.store == bs
    ensures r.outcome.Created? ==> r.store == bs + [r.outcome.booking]
    ensures r.outcome.ActiveBookingExists? <==> exists i :: 0 <= i < |bs| && Blocks(bs[i], req.email.value, req.model.value)
    ensures r.outcome.ActiveBookingExists? ==>
      exists i :: 0 <= i < |bs| && Blocks(bs[i], req.email.value, req.model.value)
        && r.outcome.existingBookingId == bs[i].bookingId
    ensures !r.outcome.ActiveBookingExists? ==> r == Save(bs, NewBooking(req, ctx, id), ctx)
  {
    match ActiveDuplicate(bs, req.email.value, req.model.value)
    case Some(i) => Submission(ActiveBookingExists(bs[i].bookingId), bs)
    case None => Save(bs, NewBooking(req, ctx, id), ctx)
  }

  /** `Booking.findOne(...)` for the duplicate guard: the first blocking booking, if any. */
  function ActiveDuplicate(bs: seq<Booking>, email: string, model: string): (r: Option<nat>)
    ensures r.Some? ==> r.value < |bs| && Blocks(bs[r.value], email, model)
    ensures r.Some? ==> forall i :: 0 <= i < r.value ==> !Blocks(bs[i], email, model)
    ensures r.None? <==> forall i :: 0 <= i < |bs| ==> !Blocks(bs[i], email, model)
  {
    Sequences.FindFirst(bs, (b: Booking) => Blocks(b, email, model))
  }

  /** `booking.save()`: validation, then the pre-save hook, then the unique index, then the insert. */
  function Save(bs: seq<Booking>, doc: Booking, ctx: Context): (r: Submission)
    ensures !r.outcome.Created? ==> r.store == bs
    ensures r.outcome.Created? ==> r.store == bs + [r.outcome.booking]
    ensures r.outcome.Created? || r.outcome.ValidationFailed? || r.outcome.DuplicateBookingId?
    ensures r.outcome.ValidationFailed? <==> !SchemaValid(doc, ctx.isEmail)
    ensures r.outcome.ValidationFailed? ==> r.outcome.errors == ValidationErrors(doc, ctx.isEmail) && r.outcome.errors != []
    ensures r.outcome.Created? ==>
      r.outcome.booking == PreSaveHook(doc, true, ctx.now, ctx.random) && !BookingIdTaken(bs, r.outcome.booking.bookingId)
    ensures r.outcome.DuplicateBookingId? ==> BookingIdTaken(bs, PreSaveHook(doc, true, ctx.now, ctx.random).bookingId)
  {
    var errors := ValidationErrors(doc, ctx.isEmail);
    if errors != [] then Submission(ValidationFailed(errors), bs)
    else
      var saved := PreSaveHook(doc, true, ctx.now, ctx.random);
      if BookingIdTaken(bs, saved.bookingId) then Submission(DuplicateBookingId, bs)
      else Submission(Created(saved), bs + [saved])
  }

  /** A created booking holds the trimmed fields, the lowercased e-mail, the defaults and a fresh booking id. */
  lemma CreatedBookingFields(bs: seq<Booking>, req: BookingRequest, ctx: Context, id: nat)
    requires SubmitBooking(bs, req, ctx, id).outcome.Created?
    ensures var b := SubmitBooking(bs, req, ctx, id).outcome.booking;
      && b.id == id
      && b.name == Trim(req.name.value) && 0 < |b.name| <= 100
      && b.email == Trim(Lower(req.email.value)) && ctx.isEmail(b.email)
      && ValidPhone(Trim(req.phone.value)) && b.phone == StripNonDigits(Trim(req.phone.value))
      && b.address == Trim(req.address.value) && 0 < |b.address| <= 500
      && b.model == Trim(req.model.value) && b.model != ""
      && b.color == Trim(req.color.value) && b.color != ""
      && b.variant == (if IsTruthy(req.variant) then Trim(req.variant.value) else "")
      && b.variant in Variants
      && b.additionalRequirements ==
           (if IsTruthy(req.additionalRequirements) then Trim(req.additionalRequirements.value) else "")
      && b.status == Pending
      && b.bookingId == Some(GeneratedBookingId(ctx.now, ctx.random))
      && b.salesNotes.None? && b.assignedTo.None? && b.estimatedPrice.None?
      && b.createdAt == ctx.now && b.updatedAt == ctx.now
  {
  }

  /** A delivered or cancelled booking for the same e-mail and model never triggers the duplicate guard. */
  lemma ClosedBookingsDoNotBlock(bs: seq<Booking>, req: BookingRequest, ctx: Context, id: nat)
    requires RequiredPresent(req)
    requires forall i :: 0 <= i < |bs| && bs[i].email == Lower(req.email.value) && bs[i].model == Trim(req.model.value)
               ==> bs[i].status == Delivered || bs[i].status == Cancelled
    ensures !SubmitBooking(bs, req, ctx, id).outcome.ActiveBookingExists?
  {
  }

  /** At most one active booking per (e-mail, model). */
  predicate ActiveBookingsUnique(bs: seq<Booking>) {
    forall i, j :: 0 <= i < j < |bs| && IsActive(bs[i].status) && IsActive(bs[j].status) ==>
      bs[i].email != bs[j].email || bs[i].model != bs[j].model
  }

  /** The unique index on `bookingId`: no two bookings share a present booking id. */
  predicate BookingIdsUnique(bs: seq<Booking>) {
    forall i, j :: 0 <= i < j < |bs| && bs[i].bookingId.Some? ==> bs[i].bookingId != bs[j].bookingId
  }

  /** Store identities are unique. */
  predicate IdsUnique(bs: seq<Booking>) {
    forall i, j :: 0 <= i < j < |bs| ==> bs[i].id != bs[j].id
  }

  predicate StoreInvariant(bs: seq<Booking>) {
    ActiveBookingsUnique(bs) && BookingIdsUnique(bs) && IdsUnique(bs)
  }

  /**
   * The intake keeps the store invariant when the e-mail it is given has no
   * surrounding whitespace: the guard then queries exactly the value that
   * would be stored.
   */
  lemma SubmitPreservesInvariant(bs: seq<Booking>, req: BookingRequest, ctx: Context, id: nat)
    requires StoreInvariant(bs)
    requires forall i :: 0 <= i < |bs| ==> bs[i].id != id
    requires req.email.Some? ==> Trimmed(req.email.value)
    ensures StoreInvariant(SubmitBooking(bs, req, ctx, id).store)
  {
    var r := SubmitBooking(bs, req, ctx, id);
    if r.outcome.Created? {
      var e := req.email.value;
      var m := req.model.value;
      var doc := NewBooking(req, ctx, id);
      var b := r.outcome.booking;
      assert ActiveDuplicate(bs, e, m).None?;
      assert b.email == doc.email && b.model == doc.model && b.status == Pending && b.id == id;
      TrimLowerCommute(e);
      assert b.email == Lower(e);
      AppendKeepsInvariant(bs, b);
    }
  }

  /** Appending a booking that no active booking clashes with, under a fresh identity and booking id, keeps the invariant. */
  lemma AppendKeepsInvariant(bs: seq<Booking>, b: Booking)
    requires StoreInvariant(bs)
    requires forall i :: 0 <= i < |bs| ==> bs[i].id != b.id
    requires IsActive(b.status) ==> forall i :: 0 <= i < |bs| && IsActive(bs[i].status) ==>
               bs[i].email != b.email || bs[i].model != b.model
    requires !BookingIdTaken(bs, b.bookingId)
    ensures StoreInvariant(bs + [b])
  {
    var s := bs + [b];
    assert forall i :: 0 <= i < |bs| ==> s[i] == bs[i];
    assert s[|bs|] == b;
  }

  /**
   * An e-mail with leading whitespace slips past the guard: the guard looks
   * for the lowercased e-mail with its whitespace, while the active booking
   * holds the trimmed value, so a second active booking for the same e-mail
   * and model is stored.
   */
  lemma PaddedEmailBypassesGuard(existing: Booking, req: BookingRequest, ctx: Context, id: nat)
    requires RequiredPresent(req) && IsWhitespace(req.email.value[0])
    requires IsActive(existing.status) && existing.bookingId.None?
    requires existing.email == Trim(Lower(req.email.value)) && existing.model == Trim(req.model.value)
    requires SchemaValid(NewBooking(req, ctx, id), ctx.isEmail)
    ensures StoreInvariant([existing])
    ensures var r := SubmitBooking([existing], req, ctx, id);
      r.outcome.Created? && !ActiveBookingsUnique(r.store)
  {
    var e := req.email.value;
    GuardMissesPaddedEmail(existing, e, req.model.value);
    var doc := NewBooking(req, ctx, id);
    assert doc.email == existing.email && doc.model == existing.model && doc.status == Pending && doc.bookingId.None?;
    SavedBesideClash(existing, doc, ctx);
    SubmitReachesSave([existing], req, ctx, id);
  }

  /** The guard's lowercased but untrimmed e-mail never equals a stored, trimmed one when it starts with whitespace. */
  lemma GuardMissesPaddedEmail(existing: Booking, email: string, model: string)
    requires email != [] && IsWhitespace(email[0]) && existing.email == Trim(Lower(email))
    ensures ActiveDuplicate([existing], email, model).None?
  {
    assert IsWhitespace(Lower(email)[0]);
  }

  /** Past the gate and the duplicate guard, the intake is the save of the constructed document. */
  lemma SubmitReachesSave(bs: seq<Booking>, req: BookingRequest, ctx: Context, id: nat)
    requires RequiredPresent(req) && ActiveDuplicate(bs, req.email.value, req.model.value).None?
    ensures SubmitBooking(bs, req, ctx, id) == Save(bs, NewBooking(req, ctx, id), ctx)
  {
  }

  /** Saving a valid document whose e-mail and model equal an active booking's leaves two active bookings that clash. */
  lemma SavedBesideClash(existing: Booking, doc: Booking, ctx: Context)
    requires IsActive(existing.status) && existing.bookingId.None?
    requires existing.email == doc.email && existing.model == doc.model && doc.status == Pending && doc.bookingId.None?
    requires SchemaValid(doc, ctx.isEmail)
    ensures var r := Save([existing], doc, ctx);
      r.outcome.Created? && !ActiveBookingsUnique(r.store)
  {
    var saved := PreSaveHook(doc, true, ctx.now, ctx.random);
    assert saved.bookingId == Some(GeneratedBookingId(ctx.now, ctx.random));
    assert !BookingIdTaken([existing], saved.bookingId);
    var r := Save([existing], doc, ctx);
    assert r.outcome.Created?;
    assert r.store == [existing] + [saved];
    assert r.store[1].status == Pending && r.store[0] == existing;
    assert !(r.store[0].email != r.store[1].email || r.store[0].model != r.store[1].model);
  }

  /**
   * The admin list query: `status` and `model` are the optional filters,
   * `page` and `limit` the parsed numbers when they are given.
   */
  datatype ListQuery = ListQuery(status: Option<string>, model: Option<string>, pageParam: Option<int>, limitParam: Option<int>)
  {
    /** `page = 1`: an absent page is the first. */
    function Page(): int {
      if pageParam.Some? then pageParam.value else 1
    }

    /** `limit = 10`: an absent limit is ten per page. */
    function Limit(): int {
      if limitParam.Some? then limitParam.value else 10
    }
  }

  /** The status filter is an exact match on the status name; the model filter a case-insensitive substring match. */
  predicate MatchesQuery(b: Booking, q: ListQuery) {
    && (IsTruthy(q.status) ==> StatusName(b.status) == q.status.value)
    && (IsTruthy(q.model) ==> Contains(Lower(b.model), Lower(q.model.value)))
  }

  /** The bookings the list query selects, in store order. */
  function Matching(bs: seq<Booking>, q: ListQuery): (r: seq<Booking>)
    ensures forall b :: multiset(r)[b] == if MatchesQuery(b, q) then multiset(bs)[b] else 0
    ensures forall i :: 0 <= i < |r| ==> MatchesQuery(r[i], q)
  {
    Sequences.Filter(bs, b => MatchesQuery(b, q))
  }

  /** `select('-ipAddress -salesNotes')`. */
  function Hidden(b: Booking): Booking {
    b.(ipAddress := None, salesNotes := None)
  }

  function HideAll(s: seq<Booking>): (r: seq<Booking>)
    ensures |r| == |s| && forall k :: 0 <= k < |s| ==> r[k] == Hidden(s[k])
  {
    seq(|s|, k requires 0 <= k < |s| => Hidden(s[k]))
  }

  /**
   * GET `/api/booking`: the matching bookings, newest first, one page of
   * them, without the IP address and the sales notes.
   */
  function ListBookings(bs: seq<Booking>, q: ListQuery): (r: Pagination.Listing<Booking>)
    ensures r.SkipRejected? <==> Pagination.SkipCount(q.Page(), q.Limit()) < 0
    ensures r.Listed? ==>
      && r.page.totalItems == |Matching(bs, q)|
      && r.page.totalPages == Pagination.TotalPages(|Matching(bs, q)|, q.Limit())
      && r.page.currentPage == q.Page() && r.page.itemsPerPage == q.Limit()
      && |r.page.items| == Pagination.PageSize(|Matching(bs, q)|, q.Page(), q.Limit())
    ensures r.Listed? ==> forall k :: 0 <= k < |r.page.items| ==>
      && r.page.items[k].ipAddress.None? && r.page.items[k].salesNotes.None?
      && MatchesQuery(r.page.items[k], q)
      && exists b :: b in bs && r.page.items[k] == Hidden(b)
    ensures r.Listed? ==> forall i, j :: 0 <= i < j < |r.page.items| ==>
      r.page.items[i].createdAt >= r.page.items[j].createdAt
    ensures r.Listed? ==> exists sorted :: NewestFirstOf(sorted, Matching(bs, q)) && PageOf(r.page.items, sorted, Pagination.SkipCount(q.Page(), q.Limit()))
  {
    var sorted := Sequences.NewestFirst(Matching(bs, q), (b: Booking) => b.createdAt);
    ShownFromStore(bs, q, sorted);
    ListingOfSorted(bs, q, sorted);
    assert NewestFirstOf(sorted, Matching(bs, q));
    Pagination.Paginate(HideAll(sorted), q.Page(), q.Limit())
  }

  /** Without `page` and `limit` the list is the first page, at most ten of the newest matching bookings. */
  lemma DefaultFirstPage(bs: seq<Booking>, q: ListQuery)
    requires q.pageParam.None? && q.limitParam.None?
    ensures var r := ListBookings(bs, q);
      && r.Listed? && r.page.currentPage == 1 && r.page.itemsPerPage == 10
      && |r.page.items| == (if |Matching(bs, q)| < 10 then |Matching(bs, q)| else 10)
      && exists sorted :: NewestFirstOf(sorted, Matching(bs, q)) && PageOf(r.page.items, sorted, 0)
  {
    assert q.Page() == 1 && q.Limit() == 10;
    assert Pagination.SkipCount(q.Page(), q.Limit()) == 0;
  }
  /** `sorted` holds the bookings of `s`, each as often, newest first. */
  predicate NewestFirstOf(sorted: seq<Booking>, s: seq<Booking>) {
    && multiset(sorted) == multiset(s)
    && forall i, j :: 0 <= i < j < |sorted| ==> sorted[i].createdAt >= sorted[j].createdAt
  }

  /** `items` are the records of `sorted` that follow the first `skip`, without IP address and notes. */
  predicate PageOf(items: seq<Booking>, sorted: seq<Booking>, skip: int) {
    && 0 <= skip
    && (|items| > 0 ==> skip + |items| <= |sorted|)
    && forall k :: 0 <= k < |items| ==> items[k] == Hidden(sorted[skip + k])
  }

  /** The page cut from a newest-first list of hidden, matching, stored bookings. */
  lemma ListingOfSorted(bs: seq<Booking>, q: ListQuery, sorted: seq<Booking>)
    requires forall i, j :: 0 <= i < j < |sorted| ==> sorted[i].createdAt >= sorted[j].createdAt
    requires AllShownStored(bs, q, sorted)
    ensures var r := Pagination.Paginate(HideAll(sorted), q.Page(), q.Limit());
      && (r.Listed? ==> PageOf(r.page.items, sorted, Pagination.SkipCount(q.Page(), q.Limit())))
      && (r.Listed? ==> ItemsShownStored(bs, q, r.page.items))
      && (r.Listed? ==> forall i, j :: 0 <= i < j < |r.page.items| ==>
            r.page.items[i].createdAt >= r.page.items[j].createdAt)
  {
    var r := Pagination.Paginate(HideAll(sorted), q.Page(), q.Limit());
    PageOfHidden(sorted, q.Page(), q.Limit());
    if r.Listed? {
      PageFromSorted(bs, q, sorted, r.page.items, Pagination.SkipCount(q.Page(), q.Limit()));
      SliceNewestFirst(sorted, r.page.items, Pagination.SkipCount(q.Page(), q.Limit()));
    }
  }

  /** The page cut from the hidden list is the hidden run of the list after the skipped records. */
  lemma PageOfHidden(sorted: seq<Booking>, page: int, limit: int)
    ensures var r := Pagination.Paginate(HideAll(sorted), page, limit);
      r.Listed? ==> PageOf(r.page.items, sorted, Pagination.SkipCount(page, limit))
  {
    var r := Pagination.Paginate(HideAll(sorted), page, limit);
    if r.Listed? {
      HiddenRun(sorted, r.page.items, Pagination.SkipCount(page, limit));
    }
  }

  /** A run of the hidden list starting at `skip` is the hidden run of the list itself. */
  lemma HiddenRun(sorted: seq<Booking>, items: seq<Booking>, skip: int)
    requires Pagination.RunOf(items, HideAll(sorted), skip)
    ensures PageOf(items, sorted, skip)
  {
    forall k | 0 <= k < |items|
      ensures items[k] == Hidden(sorted[skip + k])
    {
      var it, i := items[k], skip + k;
      assert it == HideAll(sorted)[i];
    }
  }

  /** A page cut from hidden, matching, stored bookings holds hidden, matching, stored bookings. */
  lemma PageFromSorted(bs: seq<Booking>, q: ListQuery, sorted: seq<Booking>, items: seq<Booking>, skip: int)
    requires AllShownStored(bs, q, sorted)
    requires PageOf(items, sorted, skip)
    ensures ItemsShownStored(bs, q, items)
  {
    forall k | 0 <= k < |items|
      ensures && items[k].ipAddress.None? && items[k].salesNotes.None?
              && MatchesQuery(items[k], q)
              && exists b :: b in bs && items[k] == Hidden(b)
    {
      var it, i := items[k], skip + k;
      assert 0 <= i < |sorted| && it == Hidden(sorted[i]);
    }
  }

  /** A run of consecutive records of a newest-first list is newest first. */
  lemma SliceNewestFirst(sorted: seq<Booking>, items: seq<Booking>, skip: int)
    requires forall i, j :: 0 <= i < j < |sorted| ==> sorted[i].createdAt >= sorted[j].createdAt
    requires PageOf(items, sorted, skip)
    ensures forall i, j :: 0 <= i < j < |items| ==> items[i].createdAt >= items[j].createdAt
  {
    forall i, j | 0 <= i < j < |items|
      ensures items[i].createdAt >= items[j].createdAt
    {
      var x, y := items[i], items[j];
      assert x == Hidden(sorted[skip + i]) && y == Hidden(sorted[skip + j]);
    }
  }

  /** Every listed booking lacks its IP address and notes, matches the query and is a stored booking, hidden. */
  predicate ItemsShownStored(bs: seq<Booking>, q: ListQuery, items: seq<Booking>) {
    forall k :: 0 <= k < |items| ==>
      && items[k].ipAddress.None? && items[k].salesNotes.None?
      && MatchesQuery(items[k], q)
      && exists b :: b in bs && items[k] == Hidden(b)
  }

  /** Every booking of `sorted`, hidden, matches the query and is a stored booking, hidden. */
  predicate AllShownStored(bs: seq<Booking>, q: ListQuery, sorted: seq<Booking>) {
    forall k :: 0 <= k < |sorted| ==>
      MatchesQuery(Hidden(sorted[k]), q) && exists b :: b in bs && Hidden(sorted[k]) == Hidden(b)
  }

  /** Every record of a reordering of the matching bookings is a stored booking that matches. */
  lemma ShownFromStore(bs: seq<Booking>, q: ListQuery, sorted: seq<Booking>)
    requires multiset(sorted) == multiset(Matching(bs, q))
    ensures AllShownStored(bs, q, sorted)
  {
    forall k | 0 <= k < |sorted|
      ensures MatchesQuery(Hidden(sorted[k]), q) && exists b :: b in bs && Hidden(sorted[k]) == Hidden(b)
    {
      var b := sorted[k];
      assert b in multiset(sorted);
      assert b in multiset(bs);
    }
  }

  /**
   * GET `/api/booking/search/:bookingId`: the argument is upper-cased and
   * compared exactly; the booking is returned without the IP address and
   * the sales notes. None is the 404 answer.
   */
  function SearchByBookingId(bs: seq<Booking>, bookingId: string): (r: Option<Booking>)
    ensures r.None? <==> forall i :: 0 <= i < |bs| ==> bs[i].bookingId != Some(Upper(bookingId))
    ensures r.Some? ==>
      exists i :: 0 <= i < |bs| && bs[i].bookingId == Some(Upper(bookingId)) && r.value == Hidden(bs[i])
  {
    var key := Some(Upper(bookingId));
    match Sequences.FindFirst(bs, (b: Booking) => b.bookingId == key)
    case None => None
    case Some(i) => Some(Hidden(bs[i]))
  }

  /** A generated booking id is found whatever the case the customer types it in. */
  lemma SearchIgnoresCase(bs: seq<Booking>, i: nat, now: nat, random: FourDigits)
    requires i < |bs| && bs[i].bookingId == Some(GeneratedBookingId(now, random))
    ensures var r := SearchByBookingId(bs, Lower(GeneratedBookingId(now, random)));
      r.Some? && r.value.bookingId == Some(GeneratedBookingId(now, random))
  {
    GeneratedIdHasNoLowerLetters(now, random);
    UpperOfLower(GeneratedBookingId(now, random));
  }

  /** `findById`: the position of the booking with store identity `id`, if any. */
  function IndexOfId(bs: seq<Booking>, id: nat): (r: Option<nat>)
    ensures r.Some? ==> r.value < |bs| && bs[r.value].id == id
    ensures r.Some? ==> forall i :: 0 <= i < r.value ==> bs[i].id != id
    ensures r.None? <==> forall i :: 0 <= i < |bs| ==> bs[i].id != id
  {
    Sequences.FindFirst(bs, (b: Booking) => b.id == id)
  }

  /** GET `/api/booking/:id`: the booking without its IP address, 404 for an unknown id, 400 for a malformed one. */
  function GetBooking(bs: seq<Booking>, id: IdParam): (r: Lookup<Booking>)
    ensures r.InvalidId? <==> id.Malformed?
    ensures r.NotFound? <==> id.ObjectId? && forall i :: 0 <= i < |bs| ==> bs[i].id != id.value
    ensures r.Found? ==> exists i :: 0 <= i < |bs| && bs[i].id == id.value && r.record == bs[i].(ipAddress := None)
  {
    match id
    case Malformed => InvalidId
    case ObjectId(n) =>
      match IndexOfId(bs, n)
      case None => NotFound
      case Some(i) => Found(bs[i].(ipAddress := None))
  }

  const StatusNames: seq<string> := ["pending", "confirmed", "processing", "delivered", "cancelled"]

  /** The update document: the new status, and the notes and assignee only when they are truthy. */
  function ApplyStatusUpdate(b: Booking, status: BookingStatus, salesNotes: Option<string>, assignedTo: Option<string>, now: int): Booking {
    b.(status := status,
       salesNotes := if IsTruthy(salesNotes) then salesNotes else b.salesNotes,
       assignedTo := if IsTruthy(assignedTo) then assignedTo else b.assignedTo,
       updatedAt := now)
  }

  /**
   * PUT `/api/booking/:id/status`. Any status of the enumeration may follow
   * any other. With update validators on, notes over 2000 characters make
   * the update fail; that and a malformed id reach the catch-all (500).
   */
  function UpdateBookingStatus(bs: seq<Booking>, id: IdParam, status: Option<string>,
                               salesNotes: Option<string>, assignedTo: Option<string>, now: int): (r: StoreUpdate<Booking>)
    ensures r.outcome.InvalidStatus? <==> !(IsTruthy(status) && status.value in StatusNames)
    ensures !r.outcome.Updated? ==> r.store == bs
    ensures r.outcome.ServerError? <==>
      IsTruthy(status) && status.value in StatusNames
      && (id.Malformed? || (IsTruthy(salesNotes) && |salesNotes.value| > 2000))
    ensures r.outcome.NoSuchRecord? <==>
      IsTruthy(status) && status.value in StatusNames && id.ObjectId?
      && !(IsTruthy(salesNotes) && |salesNotes.value| > 2000)
      && forall i :: 0 <= i < |bs| ==> bs[i].id != id.value
    ensures r.outcome.Updated? ==>
      && status.Some? && id.ObjectId? && |r.store| == |bs|
      && exists i :: 0 <= i < |bs| && bs[i].id == id.value
           && StatusName(r.store[i].status) == status.value
           && r.store[i] == bs[i].(status := r.store[i].status, salesNotes := r.store[i].salesNotes,
                                   assignedTo := r.store[i].assignedTo, updatedAt := now)
           && r.store[i].salesNotes == (if IsTruthy(salesNotes) then salesNotes else bs[i].salesNotes)
           && r.store[i].assignedTo == (if IsTruthy(assignedTo) then assignedTo else bs[i].assignedTo)
           && r.store == bs[i := r.store[i]]
           && r.outcome.record == r.store[i].(ipAddress := None)
  {
    if !IsTruthy(status) || ParseStatus(status.value).None? then StoreUpdate(InvalidStatus, bs)
    else if id.Malformed? then StoreUpdate(ServerError, bs)
    else if IsTruthy(salesNotes) && |salesNotes.value| > 2000 then StoreUpdate(ServerError, bs)
    else
      var st := ParseStatus(status.value).value;
      match IndexOfId(bs, id.value)
      case None => StoreUpdate(NoSuchRecord, bs)
      case Some(i) =>
        var u := ApplyStatusUpdate(bs[i], st, salesNotes, assignedTo, now);
        StoreUpdate(Updated(u.(ipAddress := None)), bs[i := u])
  }

  /** A status update keeps every booking's identity, booking id, e-mail and model. */
  lemma UpdateKeepsIdentities(bs: seq<Booking>, id: IdParam, status: Option<string>,
                              salesNotes: Option<string>, assignedTo: Option<string>, now: int)
    ensures var s := UpdateBookingStatus(bs, id, status, salesNotes, assignedTo, now).store;
      |s| == |bs| && forall k :: 0 <= k < |s| ==>
        s[k].id == bs[k].id && s[k].bookingId == bs[k].bookingId && s[k].email == bs[k].email && s[k].model == bs[k].model
    ensures var s := UpdateBookingStatus(bs, id, status, salesNotes, assignedTo, now).store;
      (IdsUnique(bs) ==> IdsUnique(s)) && (BookingIdsUnique(bs) ==> BookingIdsUnique(s))
  {
  }

  /**
   * Transitions are unrestricted, so reopening a closed booking beside an
   * active one for the same e-mail and model breaks the one-active-booking rule.
   */
  lemma UpdateCanBreakUniqueness(bs: seq<Booking>, i: nat, j: nat, now: int)
    requires i < |bs| && j < |bs| && i != j && IdsUnique(bs)
    requires bs[i].email == bs[j].email && bs[i].model == bs[j].model
    requires IsActive(bs[i].status) && !IsActive(bs[j].status)
    ensures var r := UpdateBookingStatus(bs, ObjectId(bs[j].id), Some("pending"), None, None, now);
      r.outcome.Updated? && !ActiveBookingsUnique(r.store)
  {
    var r := UpdateBookingStatus(bs, ObjectId(bs[j].id), Some("pending"), None, None, now);
    assert r.outcome.Updated?;
    var k :| 0 <= k < |bs| && bs[k].id == bs[j].id && StatusName(r.store[k].status) == "pending"
      && r.store == bs[k := r.store[k]];
    assert k == j;
    assert r.store[j].status == Pending;
    assert r.store[i] == bs[i];
    if i < j {
      assert !(r.store[i].email != r.store[j].email || r.store[i].model != r.store[j].model);
    } else {
      assert !(r.store[j].email != r.store[i].email || r.store[j].model != r.store[i].model);
    }
  }

  /** Seven days in milliseconds. */
  const WeekMillis: int := 7 * 24 * 60 * 60 * 1000

  /** The bookings created at or after `since`, as `countDocuments({ createdAt: { $gte: since } })`. */
  function CountSince(bs: seq<Booking>, since: int): (n: nat)
    ensures n == |CreatedSince(bs, since)|
    ensures n <= |bs|
    ensures n == |bs| <==> forall i :: 0 <= i < |bs| ==> bs[i].createdAt >= since
    ensures n == 0 <==> forall i :: 0 <= i < |bs| ==> bs[i].createdAt < since
  {
    if bs == [] then
      assert CreatedSince(bs, since) == {};
      0
    else
      var init := bs[..|bs| - 1];
      var n := CountSince(init, since);
      assert forall i :: 0 <= i < |init| ==> init[i] == bs[i];
      CreatedSinceStep(bs, since);
      n + (if bs[|bs| - 1].createdAt >= since then 1 else 0)
  }

  /** The positions of the bookings created at or after `since`. */
  function CreatedSince(bs: seq<Booking>, since: int): (r: set<int>)
    ensures forall i :: i in r <==> 0 <= i < |bs| && bs[i].createdAt >= since
  {
    set i | 0 <= i < |bs| && bs[i].createdAt >= since
  }

  /** The last booking adds its own position, or nothing, to those of the bookings before it. */
  lemma CreatedSinceStep(bs: seq<Booking>, since: int)
    requires bs != []
    ensures |CreatedSince(bs, since)| == |CreatedSince(bs[..|bs| - 1], since)| + (if bs[|bs| - 1].createdAt >= since then 1 else 0)
  {
    var last := |bs| - 1;
    var all, init := CreatedSince(bs, since), CreatedSince(bs[..last], since);
    var tail: set<int> := if bs[last].createdAt >= since then {last} else {};
    forall i | i in all
      ensures i in init + tail
    {
      if i != last {
        assert bs[..last][i] == bs[i];
      }
    }
    forall i | i in init
      ensures i in all
    {
      assert bs[..last][i] == bs[i];
    }
    assert all == init + tail;
    assert init !! tail;
  }

  function Models(bs: seq<Booking>): (r: seq<string>)
    ensures |r| == |bs| && forall i :: 0 <= i < |bs| ==> r[i] == bs[i].model
  {
    seq(|bs|, i requires 0 <= i < |bs| => bs[i].model)
  }

  /** The `$sort: { count: -1 }` order on group entries. */
  predicate MoreFrequent(a: (string, nat), b: (string, nat)) {
    a.1 >= b.1
  }

  lemma MoreFrequentIsTotalPreorder()
    ensures Sequences.TotalPreorder(MoreFrequent)
  {
  }

  /**
   * The five most booked models: one entry per model with its booking count,
   * highest count first; a model left out has no more bookings than any of
   * the five listed.
   */
  function PopularModels(models: seq<string>): (r: seq<(string, nat)>)
    ensures |r| <= 5
    ensures forall i :: 0 <= i < |r| ==> r[i].1 == Grouping.Count(models, r[i].0) && r[i].1 > 0
    ensures forall i, j :: 0 <= i < j < |r| ==> r[i].1 >= r[j].1
    ensures Grouping.KeysDistinct(r)
    ensures forall m :: m in models ==>
      (exists i :: 0 <= i < |r| && r[i].0 == m)
      || (|r| == 5 && forall i :: 0 <= i < |r| ==> r[i].1 >= Grouping.Count(models, m))
  {
    var groups := Grouping.GroupCounts(models);
    MoreFrequentIsTotalPreorder();
    var sorted := Sequences.SortBy(groups, MoreFrequent);
    Sequences.SortBySorted(groups, MoreFrequent);
    var n := if |sorted| < 5 then |sorted| else 5;
    TopEntries(models, sorted, n);
    sorted[..n]
  }

  /** The first `n` entries of the count-ordered model groups meet every promise of the popular-models list. */
  lemma TopEntries(models: seq<string>, sorted: seq<(string, nat)>, n: nat)
    requires multiset(sorted) == multiset(Grouping.GroupCounts(models))
    requires Sequences.SortedBy(sorted, MoreFrequent)
    requires n == if |sorted| < 5 then |sorted| else 5
    ensures var r := sorted[..n];
      && |r| <= 5
      && (forall i :: 0 <= i < |r| ==> r[i].1 == Grouping.Count(models, r[i].0) && r[i].1 > 0)
      && (forall i, j :: 0 <= i < j < |r| ==> r[i].1 >= r[j].1)
      && Grouping.KeysDistinct(r)
      && forall m :: m in models ==>
           (exists i :: 0 <= i < |r| && r[i].0 == m)
           || (|r| == 5 && forall i :: 0 <= i < |r| ==> r[i].1 >= Grouping.Count(models, m))
  {
    ReorderedGroups(models, sorted);
    TopEntriesCover(models, sorted, n);
    PrefixOfGroups(models, sorted, n);
  }

  /** The first `n` entries of a count-ordered list of counted groups are counted, ordered and distinct. */
  lemma PrefixOfGroups(models: seq<string>, sorted: seq<(string, nat)>, n: nat)
    requires n <= |sorted|
    requires forall i :: 0 <= i < |sorted| ==> sorted[i].1 == Grouping.Count(models, sorted[i].0) && sorted[i].1 > 0
    requires Grouping.KeysDistinct(sorted)
    requires Sequences.SortedBy(sorted, MoreFrequent)
    ensures var r := sorted[..n];
      && (forall i :: 0 <= i < |r| ==> r[i].1 == Grouping.Count(models, r[i].0) && r[i].1 > 0)
      && (forall i, j :: 0 <= i < j < |r| ==> r[i].1 >= r[j].1)
      && Grouping.KeysDistinct(r)
  {
    var r := sorted[..n];
    assert forall i :: 0 <= i < |r| ==> r[i] == sorted[i];
    forall i, j | 0 <= i < j < |r|
      ensures r[i].1 >= r[j].1
    {
      assert MoreFrequent(sorted[i], sorted[j]);
    }
  }

  /** A reordering of the model groups still has one entry per model, each with its count. */
  lemma ReorderedGroups(models: seq<string>, sorted: seq<(string, nat)>)
    requires multiset(sorted) == multiset(Grouping.GroupCounts(models))
    ensures forall i :: 0 <= i < |sorted| ==> sorted[i].1 == Grouping.Count(models, sorted[i].0) && sorted[i].1 > 0
    ensures Grouping.KeysDistinct(sorted)
    ensures forall m :: m in models ==> exists j :: 0 <= j < |sorted| && sorted[j].0 == m
  {
    var groups := Grouping.GroupCounts(models);
    forall i | 0 <= i < |sorted|
      ensures sorted[i].1 == Grouping.Count(models, sorted[i].0) && sorted[i].1 > 0
    {
      assert sorted[i] in multiset(groups);
    }
    Grouping.PermutationKeepsKeysDistinct(groups, sorted);
    forall m | m in models
      ensures exists j :: 0 <= j < |sorted| && sorted[j].0 == m
    {
      var g :| 0 <= g < |groups| && groups[g].0 == m;
      assert groups[g] in multiset(sorted);
    }
  }

  /** Cutting a count-ordered list of groups after `n` entries drops only models counted no higher than every kept one. */
  lemma TopEntriesCover(models: seq<string>, sorted: seq<(string, nat)>, n: nat)
    requires n <= |sorted| && (n < |sorted| ==> n == 5)
    requires Sequences.SortedBy(sorted, MoreFrequent)
    requires forall i :: 0 <= i < |sorted| ==> sorted[i].1 == Grouping.Count(models, sorted[i].0)
    requires forall m :: m in models ==> exists j :: 0 <= j < |sorted| && sorted[j].0 == m
    ensures forall m :: m in models ==>
      (exists i :: 0 <= i < n && sorted[..n][i].0 == m)
      || (n == 5 && forall i :: 0 <= i < n ==> sorted[..n][i].1 >= Grouping.Count(models, m))
  {
    forall m | m in models
      ensures (exists i :: 0 <= i < n && sorted[..n][i].0 == m)
              || (n == 5 && forall i :: 0 <= i < n ==> sorted[..n][i].1 >= Grouping.Count(models, m))
    {
      var j :| 0 <= j < |sorted| && sorted[j].0 == m;
      if j < n {
        assert sorted[..n][j].0 == m;
      } else {
        assert forall i :: 0 <= i < n ==> MoreFrequent(sorted[i], sorted[j]);
      }
    }
  }

  /** The body of GET `/api/booking/stats/overview`. */
  datatype Overview = Overview(
    statusStats: seq<(BookingStatus, nat)>,
    totalBookings: nat,
    recentBookings: nat,
    popularModels: seq<(string, nat)>)

  /**
   * GET `/api/booking/stats/overview`: the status counts, the total, the
   * bookings of the last seven days and the five most booked models.
   */
  function StatsOverview(bs: seq<Booking>, now: int): (r: Overview)
    ensures r.totalBookings == |bs|
    ensures Grouping.SumCounts(r.statusStats) == r.totalBookings
    ensures r.recentBookings <= r.totalBookings
    ensures r.recentBookings == CountSince(bs, now - WeekMillis)
    ensures |r.popularModels| <= 5
    ensures forall i :: 0 <= i < |r.popularModels| ==>
      r.popularModels[i].1 == Grouping.Count(Models(bs), r.popularModels[i].0)
    ensures r.statusStats == GetStats(bs) && r.popularModels == PopularModels(Models(bs))
  {
    Overview(GetStats(bs), |bs|, CountSince(bs, now - WeekMillis), PopularModels(Models(bs)))
  }
}

=== FILE: car_details.dfy ===
/**
 * The car-details page: the lookups keyed by the model's slug (hero image and
 * colours, colour options, feature slides, video link), the image shown for
 * the selected colour, and the page state the carousel buttons and the colour
 * palette step.
 */
module CarDetails {
  import opened Wrappers
  import opened Strings

  // ---------------------------------------------------------------------------
  // The slug
  // ---------------------------------------------------------------------------

  /** `s` with its leading whitespace removed. */
  function DropWhitespace(s: string): (r: string)
    ensures |r| <= |s| && r == s[|s| - |r|..]
    ensures r == [] || !IsWhitespace(r[0])
    ensures forall c :: c in r ==> c in s
  {
    if s != [] && IsWhitespace(s[0]) then DropWhitespace(s[1..]) else s
  }

  /** `s.replace(/\s+/g, '-')`: every run of whitespace becomes one '-'. */
  function Hyphenate(s: string): (r: string)
    ensures forall i :: 0 <= i < |r| ==> !IsWhitespace(r[i])
    decreases |s|
  {
    if s == [] then []
    else if IsWhitespace(s[0]) then "-" + Hyphenate(DropWhitespace(s[1..]))
    else [s[0]] + Hyphenate(s[1..])
  }

  predicate NoUpperCase(s: string) {
    forall i :: 0 <= i < |s| ==> !('A' <= s[i] <= 'Z')
  }

  /** Hyphenating adds only '-', so a string without upper-case letters keeps none. */
  lemma {:induction false} HyphenateKeepsLowerCase(s: string)
    requires NoUpperCase(s)
    ensures NoUpperCase(Hyphenate(s))
    decreases |s|
  {
    if s != [] {
      if IsWhitespace(s[0]) {
        var t := DropWhitespace(s[1..]);
        SuffixNoUpperCase(s, t);
        HyphenateKeepsLowerCase(t);
        PrependNoUpperCase('-', Hyphenate(t));
      } else {
        SuffixNoUpperCase(s, s[1..]);
        HyphenateKeepsLowerCase(s[1..]);
        PrependNoUpperCase(s[0], Hyphenate(s[1..]));
      }
    }
  }

  lemma SuffixNoUpperCase(s: string, t: string)
    requires NoUpperCase(s) && |t| <= |s| && t == s[|s| - |t|..]
    ensures NoUpperCase(t)
  {
    assert forall i :: 0 <= i < |t| ==> t[i] == s[|s| - |t| + i];
  }

  lemma PrependNoUpperCase(c: char, h: string)
    requires !('A' <= c <= 'Z') && NoUpperCase(h)
    ensures NoUpperCase([c] + h)
  {
    assert forall i :: 1 <= i < |h| + 1 ==> ([c] + h)[i] == h[i - 1];
  }

  /** A string without whitespace is left as it is. */
  lemma {:induction false} HyphenateKeepsWord(s: string)
    requires forall i :: 0 <= i < |s| ==> !IsWhitespace(s[i])
    ensures Hyphenate(s) == s
  {
    if s != [] {
      HyphenateKeepsWord(s[1..]);
      assert [s[0]] + s[1..] == s;
    }
  }

  /** `modelName.toLowerCase().replace(/\s+/g, '-')`: lower case, no whitespace. */
  function Slug(modelName: string): (r: string)
    ensures forall i :: 0 <= i < |r| ==> !IsWhitespace(r[i]) && !('A' <= r[i] <= 'Z')
  {
    HyphenateKeepsLowerCase(Lower(modelName));
    Hyphenate(Lower(modelName))
  }

  /** Two words separated by a run of whitespace become the lowercased words joined by one '-'. */
  lemma SlugOfTwoWords(make: string, gap: string, model: string)
    requires forall i :: 0 <= i < |make| ==> !IsWhitespace(make[i])
    requires forall i :: 0 <= i < |model| ==> !IsWhitespace(model[i])
    requires gap != [] && forall i :: 0 <= i < |gap| ==> IsWhitespace(gap[i])
    ensures Slug(make + gap + model) == Lower(make) + "-" + Lower(model)
  {
    SlugOfWord(model);
    assert model == [] || !IsWhitespace(model[0]);
    SlugOfRun(make, gap, model);
  }

  /**
   * The slug run by run: a word, then a run of whitespace, then text that does
   * not start with whitespace, give the lowercased word, one '-' and the slug
   * of the rest. With SlugOfWord this fixes the slug of every name.
   */
  lemma SlugOfRun(word: string, gap: string, rest: string)
    requires forall i :: 0 <= i < |word| ==> !IsWhitespace(word[i])
    requires gap != [] && forall i :: 0 <= i < |gap| ==> IsWhitespace(gap[i])
    requires rest == [] || !IsWhitespace(rest[0])
    ensures Slug(word + gap + rest) == Lower(word) + "-" + Slug(rest)
  {
    var s := word + gap + rest;
    LowerAppend(word + gap, rest);
    LowerAppend(word, gap);
    var lw, lg, lr := Lower(word), Lower(gap), Lower(rest);
    assert Lower(s) == lw + lg + lr;
    LowerKeepsWord(word);
    LowerKeepsGap(gap);
    LowerKeepsWhitespace(rest);
    HyphenateRun(lw, lg, lr);
    assert Slug(s) == Hyphenate(lw + lg + lr);
    assert Slug(rest) == Hyphenate(lr);
  }

  /** Lower-casing keeps every character's whitespace status. */
  lemma LowerKeepsWhitespace(s: string)
    ensures |Lower(s)| == |s| && forall i :: 0 <= i < |s| ==> IsWhitespace(Lower(s)[i]) == IsWhitespace(s[i])
  {
  }

  /** Lower-casing a word leaves it without whitespace. */
  lemma LowerKeepsWord(word: string)
    requires forall i :: 0 <= i < |word| ==> !IsWhitespace(word[i])
    ensures forall i :: 0 <= i < |Lower(word)| ==> !IsWhitespace(Lower(word)[i])
  {
    LowerKeepsWhitespace(word);
  }

  /** Lower-casing a run of whitespace leaves a run of whitespace. */
  lemma LowerKeepsGap(gap: string)
    requires gap != [] && forall i :: 0 <= i < |gap| ==> IsWhitespace(gap[i])
    ensures Lower(gap) != [] && forall i :: 0 <= i < |Lower(gap)| ==> IsWhitespace(Lower(gap)[i])
  {
    LowerKeepsWhitespace(gap);
  }

  /** A word, a run of whitespace and text not starting with whitespace: the word, one '-' and the rest hyphenated. */
  lemma HyphenateRun(word: string, gap: string, rest: string)
    requires forall i :: 0 <= i < |word| ==> !IsWhitespace(word[i])
    requires gap != [] && forall i :: 0 <= i < |gap| ==> IsWhitespace(gap[i])
    requires rest == [] || !IsWhitespace(rest[0])
    ensures Hyphenate(word + gap + rest) == word + "-" + Hyphenate(rest)
  {
    var t := gap + rest;
    Associative(word, gap, rest);
    HyphenateWord(word, t);
    HyphenateGap(gap, rest);
    var h := Hyphenate(rest);
    Associative(word, "-", h);
  }

  /** Concatenation regroups freely; a lemma of its own so that HyphenateRun stays within the resource limit. */
  lemma Associative(a: string, b: string, c: string)
    ensures a + b + c == a + (b + c)
  {
  }

  /** A name without whitespace has its lowercased self as slug. */
  lemma SlugOfWord(word: string)
    requires forall i :: 0 <= i < |word| ==> !IsWhitespace(word[i])
    ensures Slug(word) == Lower(word)
  {
    HyphenateKeepsWord(Lower(word));
  }

  lemma LowerAppend(a: string, b: string)
    ensures Lower(a + b) == Lower(a) + Lower(b)
  {
    var l, r := Lower(a + b), Lower(a) + Lower(b);
    forall i | 0 <= i < |a + b|
      ensures l[i] == r[i]
    {
      if i < |a| {
        assert (a + b)[i] == a[i];
      } else {
        assert (a + b)[i] == b[i - |a|];
      }
    }
  }

  /** A leading word without whitespace is kept as it is in front of the rest. */
  lemma {:induction false} HyphenateWord(word: string, rest: string)
    requires forall i :: 0 <= i < |word| ==> !IsWhitespace(word[i])
    ensures Hyphenate(word + rest) == word + Hyphenate(rest)
    decreases |word|
  {
    if word == [] {
      assert word + rest == rest;
    } else {
      var u := word[1..] + rest;
      assert word + rest == [word[0]] + u;
      HyphenateKeeps(word[0], u);
      HyphenateWord(word[1..], rest);
      assert [word[0]] + (word[1..] + Hyphenate(rest)) == word + Hyphenate(rest);
    }
  }

  /** A character that is not whitespace is kept in front of the rest. */
  lemma HyphenateKeeps(c: char, u: string)
    requires !IsWhitespace(c)
    ensures Hyphenate([c] + u) == [c] + Hyphenate(u)
  {
    assert ([c] + u)[0] == c;
    assert ([c] + u)[1..] == u;
  }

  /** A leading run of whitespace, however long, becomes one '-' in front of the rest. */
  lemma HyphenateGap(gap: string, rest: string)
    requires gap != [] && forall i :: 0 <= i < |gap| ==> IsWhitespace(gap[i])
    requires rest == [] || !IsWhitespace(rest[0])
    ensures Hyphenate(gap + rest) == "-" + Hyphenate(rest)
  {
    var t := gap + rest;
    assert t[1..] == gap[1..] + rest;
    DropGap(gap[1..], rest);
    var d := DropWhitespace(t[1..]);
    assert d == rest;
    assert t != [] && IsWhitespace(t[0]);
    assert Hyphenate(t) == "-" + Hyphenate(d);
  }

  lemma {:induction false} DropGap(gap: string, rest: string)
    requires forall i :: 0 <= i < |gap| ==> IsWhitespace(gap[i])
    requires rest == [] || !IsWhitespace(rest[0])
    ensures DropWhitespace(gap + rest) == rest
    decreases |gap|
  {
    if gap != [] {
      assert (gap + rest)[1..] == gap[1..] + rest;
      DropGap(gap[1..], rest);
    }
  }

  /** "Tata " followed by a model word without whitespace has the slug "tata-" and the lowercased word. */
  lemma TataSlug(word: string)
    requires forall i :: 0 <= i < |word| ==> !IsWhitespace(word[i])
    ensures Slug("Tata " + word) == "tata-" + Lower(word)
  {
    MakeIsWord();
    SpaceIsGap();
    SlugOfTwoWords("Tata", " ", word);
    LowerMake();
    MakeJoins(word, Lower(word));
  }

  // The small facts below each serve one of TataSlug and AltrozSlug. Stated
  // inline, string literals and their lower-cased forms in one context push
  // those proofs past the solver's resource limit; as separate lemmas each
  // fact is settled on its own.

  lemma MakeIsWord()
    ensures forall i :: 0 <= i < |"Tata"| ==> !IsWhitespace("Tata"[i])
  {
  }

  lemma SpaceIsGap()
    ensures forall i :: 0 <= i < |" "| ==> IsWhitespace(" "[i])
  {
  }

  lemma LowerMake()
    ensures Lower("Tata") == "tata"
  {
    assert Lower("Tata")[0] == 't';
  }

  lemma MakeJoins(a: string, b: string)
    ensures "Tata" + " " + a == "Tata " + a && "tata" + "-" + b == "tata-" + b
  {
  }

  /** The Altroz's catalogue name has the slug "tata-altroz". */
  lemma AltrozSlug()
    ensures Slug("Tata Altroz") == "tata-altroz"
  {
    AltrozIsWord();
    TataSlug("Altroz");
    LowerAltroz();
    AltrozJoins();
  }

  lemma AltrozJoins()
    ensures "Tata " + "Altroz" == "Tata Altroz" && "tata-" + "altroz" == "tata-altroz"
  {
  }

  lemma LowerAltroz()
    ensures Lower("Altroz") == "altroz"
  {
    assert Lower("Altroz")[0] == 'a';
  }

  lemma AltrozIsWord()
    ensures forall i :: 0 <= i < |"Altroz"| ==> !IsWhitespace("Altroz"[i])
  {
  }

  /** A string without the separator splits into itself alone. */
  lemma {:induction false} SplitWithoutSeparator(s: string, sep: char)
    requires sep !in s
    ensures Split(s, sep) == [s]
  {
    if s != [] {
      SplitWithoutSeparator(s[1..], sep);
      assert [s[0]] + s[1..] == s;
    }
  }

  /** Splitting at the first separator: the piece before it, then the split of the rest. */
  lemma {:induction false} SplitAtFirst(a: string, sep: char, b: string)
    requires sep !in a
    ensures Split(a + [sep] + b, sep) == [a] + Split(b, sep)
  {
    if a == [] {
      assert a + [sep] + b == [sep] + b;
      assert ([sep] + b)[1..] == b;
    } else {
      assert (a + [sep] + b)[1..] == a[1..] + [sep] + b;
      SplitAtFirst(a[1..], sep, b);
      assert [a[0]] + a[1..] == a;
    }
  }

  /** The car name of "tata-altroz" is "altroz". */
  lemma AltrozCarName()
    ensures CarName("tata-altroz") == Some("altroz")
  {
    SplitWithoutSeparator("altroz", '-');
    SplitAtFirst("tata", '-', "altroz");
    assert "tata" + ['-'] + "altroz" == "tata-altroz";
  }

  /** `modelPath.split('-')[1]`; `undefined` reads as the text "undefined" inside a template literal. */
  function CarName(slug: string): (r: Option<string>)
    ensures r.Some? <==> '-' in slug
  {
    var parts := Split(slug, '-');
    SplitFindsSeparator(slug, '-');
    if |parts| >= 2 then Some(parts[1]) else None
  }

  /** The string has the separator exactly when it splits into two or more pieces. */
  lemma {:induction false} SplitFindsSeparator(s: string, sep: char)
    ensures |Split(s, sep)| >= 2 <==> sep in s
  {
    if s != [] {
      SplitFindsSeparator(s[1..], sep);
      assert sep in s <==> s[0] == sep || sep in s[1..];
    }
  }

  /** `${carName}` in a template literal. */
  function CarNameText(slug: string): string {
    match CarName(slug)
    case Some(name) => name
    case None => "undefined"
  }

  /** The asset directory of a model, `/src/assets/<slug>/`. */
  function AssetDir(slug: string): string {
    "/src/assets/" + slug + "/"
  }

  predicate StartsWith(s: string, prefix: string) {
    |prefix| <= |s| && s[..|prefix|] == prefix
  }

  predicate EndsWith(s: string, suffix: string) {
    |suffix| <= |s| && s[|s| - |suffix|..] == suffix
  }

  /** The seven models the page has artwork for. */
  const KnownSlugs: set<string> :=
    {"tata-altroz", "tata-curvv", "tata-harrier", "tata-nexon", "tata-punch", "tata-tiago", "tata-tigor"}

  /** The models named by the `case` labels of the page's slug switches. */
  datatype Model = Altroz | Curvv | Harrier | Nexon | Punch | Tiago | Tigor

  function SlugOf(m: Model): string {
    match m
    case Altroz => "tata-altroz"
    case Curvv => "tata-curvv"
    case Harrier => "tata-harrier"
    case Nexon => "tata-nexon"
    case Punch => "tata-punch"
    case Tiago => "tata-tiago"
    case Tigor => "tata-tigor"
  }

  /** The `case` a slug selects: a model exactly for the known slugs, and the one whose slug it is. */
  function ModelOf(slug: string): (r: Option<Model>)
    ensures r.Some? <==> slug in KnownSlugs
    ensures r.Some? ==> SlugOf(r.value) == slug
  {
    match slug
    case "tata-altroz" => Some(Altroz)
    case "tata-curvv" => Some(Curvv)
    case "tata-harrier" => Some(Harrier)
    case "tata-nexon" => Some(Nexon)
    case "tata-punch" => Some(Punch)
    case "tata-tiago" => Some(Tiago)
    case "tata-tigor" => Some(Tigor)
    case _ => None
  }

  // ---------------------------------------------------------------------------
  // Hero configuration
  // ---------------------------------------------------------------------------

  datatype HeroConfig = HeroConfig(image: string, bgGradient: string, primaryColor: string)

  const DefaultHero := HeroConfig(
    "https://via.placeholder.com/1920x1080/111111/ffffff?text=Hero+Image",
    "from-gray-900 via-gray-800 to-gray-700",
    "#666666")

  /** The hero of a known model. */
  function HeroOf(m: Model): HeroConfig {
    match m
    case Altroz =>
      HeroConfig("/src/assets/tata-altroz/Hero_section_altroz.avif",
                 "from-orange-600 via-yellow-500 to-amber-400", "#E3B04B")
    case Curvv =>
      HeroConfig("/src/assets/tata-curvv/Hero_section_curvv.avif",
                 "from-blue-900 via-blue-700 to-blue-500", "#1E3A8A")
    case Harrier =>
      HeroConfig("/src/assets/tata-harrier/Hero_section_harrier.avif",
                 "from-orange-700 via-orange-600 to-yellow-500", "#FFA500")
    case Nexon =>
      HeroConfig("/src/assets/tata-nexon/Hero_section_nexon.avif",
                 "from-gray-800 via-gray-600 to-gray-500", "#696969")
    case Punch =>
      HeroConfig("/src/assets/tata-punch/Hero_section_punch.avif",
                 "from-blue-600 via-blue-500 to-cyan-400", "#1E3A8A")
    case Tiago =>
      HeroConfig("/src/assets/tata-tiago/Hero_section__tiago.avif",
                 "from-blue-700 via-blue-600 to-blue-400", "#1E90FF")
    case Tigor =>
      HeroConfig("/src/assets/tata-tigor/Hero_section_tigor.avif",
                 "from-slate-700 via-slate-600 to-slate-400", "#808080")
  }

  /** The `switch (modelPath)` of `getHeroConfig`. */
  function HeroConfigFor(slug: string): (r: HeroConfig)
    ensures slug !in KnownSlugs ==> r == DefaultHero
    ensures slug in KnownSlugs ==> SlugOf(ModelOf(slug).value) == slug && r == HeroOf(ModelOf(slug).value)
  {
    match ModelOf(slug)
    case Some(m) => HeroOf(m)
    case None => DefaultHero
  }

  /** `getHeroConfig`. */
  function GetHeroConfig(modelName: string): (r: HeroConfig)
    ensures Slug(modelName) !in KnownSlugs ==> r == DefaultHero
  {
    HeroConfigFor(Slug(modelName))
  }

  // ---------------------------------------------------------------------------
  // Colour options
  // ---------------------------------------------------------------------------

  datatype ColorOption = ColorOption(id: string, name: string, value: string, image: string)

  const DefaultColors := [
    ColorOption("midnight-black", "Midnight Black", "#1a1a1a",
                "https://via.placeholder.com/1400x600/1a1a1a/ffffff?text=Midnight+Black+Car"),
    ColorOption("pearl-white", "Pearl White", "#f8f8ff",
                "https://via.placeholder.com/1400x600/f8f8ff/000000?text=Pearl+White+Car"),
    ColorOption("silver-metallic", "Silver Metallic", "#c0c0c0",
                "https://via.placeholder.com/1400x600/c0c0c0/000000?text=Silver+Metallic+Car")
  ]

  /** At least three colours, each with an image. */
  predicate ModelPalette(r: seq<ColorOption>) {
    |r| >= 3 && forall i :: 0 <= i < |r| ==> r[i].image != ""
  }

  /** The colours of a known model. */
  function ColorsOf(m: Model): seq<ColorOption> {
    match m
    case Altroz => [
      ColorOption("dune-glow", "Dune Glow", "#E3B04B", "/src/assets/tata-altroz/Dune-Glow.webp"),
      ColorOption("dune-blue", "Dune Blue", "#5D8BF4", "/src/assets/tata-altroz/dune_blue.webp"),
      ColorOption("ember-glow", "Ember Glow", "#FF6B6B", "/src/assets/tata-altroz/ember_glow.webp"),
      ColorOption("pure-grey", "Pure Grey", "#A9A9A9", "/src/assets/tata-altroz/pure_grey.webp"),
      ColorOption("white", "White", "#FFFFFF", "/src/assets/tata-altroz/white.webp")]
    case Curvv => [
      ColorOption("gold-essence", "Gold Essence", "#D4AF37", "/src/assets/tata-curvv/Gold_Essence.png"),
      ColorOption("blue", "Blue", "#1E3A8A", "/src/assets/tata-curvv/blue.webp"),
      ColorOption("crimson", "Crimson", "#DC2626", "/src/assets/tata-curvv/crimson.jpg"),
      ColorOption("flame-red", "Flame Red", "#FF2400", "/src/assets/tata-curvv/flame_red.webp"),
      ColorOption("grey", "Grey", "#808080", "/src/assets/tata-curvv/grey.webp"),
      ColorOption("white", "White", "#FFFFFF", "/src/assets/tata-curvv/white.jpg")]
    case Harrier => [
      ColorOption("orange", "Orange", "#FFA500", "/src/assets/tata-harrier/orange.jpeg"),
      ColorOption("pure-grey", "Pure Grey", "#A9A9A9", "/src/assets/tata-harrier/pure-grey.webp"),
      ColorOption("yellow", "Yellow", "#FFD700", "/src/assets/tata-harrier/yellow.webp")]
    case Nexon => [
      ColorOption("daytona-grey", "Daytona Grey", "#696969", "/src/assets/tata-nexon/Daytona_grey.webp"),
      ColorOption("blue", "Blue", "#1E3A8A", "/src/assets/tata-nexon/blue.jpg"),
      ColorOption("green", "Green", "#228B22", "/src/assets/tata-nexon/green.webp"),
      ColorOption("pure-grey", "Pure Grey", "#A9A9A9", "/src/assets/tata-nexon/pure_grey.webp"),
      ColorOption("white", "White", "#FFFFFF", "/src/assets/tata-nexon/white.webp")]
    case Punch => [
      ColorOption("black", "Black", "#000000", "/src/assets/tata-punch/black.jpg"),
      ColorOption("blue", "Blue", "#1E3A8A", "/src/assets/tata-punch/blue.jpg"),
      ColorOption("orange", "Orange", "#FFA500", "/src/assets/tata-punch/orange.jpg"),
      ColorOption("red", "Red", "#DC2626", "/src/assets/tata-punch/red.webp"),
      ColorOption("white", "White", "#FFFFFF", "/src/assets/tata-punch/white.webp")]
    case Tiago => [
      ColorOption("arizona-blue", "Arizona Blue", "#1E90FF", "/src/assets/tata-tiago/Arizona_Blue.jpg"),
      ColorOption("copper", "Copper", "#B87333", "/src/assets/tata-tiago/copper.webp"),
      ColorOption("grey", "Grey", "#808080", "/src/assets/tata-tiago/grey.webp"),
      ColorOption("ocean-blue", "Ocean Blue", "#000080", "/src/assets/tata-tiago/ocean_blue.jpg"),
      ColorOption("tornado-blue", "Tornado Blue", "#1E3A8A", "/src/assets/tata-tiago/tornado_blue.jpg"),
      ColorOption("white", "White", "#FFFFFF", "/src/assets/tata-tiago/white.png")]
    case Tigor => [
      ColorOption("white", "White", "#FFFFFF", "/src/assets/tata-tigor/White.webp"),
      ColorOption("blue", "Blue", "#1E3A8A", "/src/assets/tata-tigor/blue.jpg"),
      ColorOption("bronze", "Bronze", "#CD7F32", "/src/assets/tata-tigor/bronze.jpg"),
      ColorOption("copper", "Copper", "#B87333", "/src/assets/tata-tigor/copper.jpg"),
      ColorOption("grey", "Grey", "#808080", "/src/assets/tata-tigor/grey.webp")]
  }

  /** Every known model has at least three colours, each with an image. */
  lemma ColorsOfShape(m: Model)
    ensures ModelPalette(ColorsOf(m))
  {
    match m
    case Altroz => AltrozPalette();
    case Curvv => CurvvPalette();
    case Harrier => HarrierPalette();
    case Nexon => NexonPalette();
    case Punch => PunchPalette();
    case Tiago => TiagoPalette();
    case Tigor => TigorPalette();
  }

  lemma AltrozPalette()
    ensures ModelPalette(ColorsOf(Altroz))
  {
  }

  lemma CurvvPalette()
    ensures ModelPalette(ColorsOf(Curvv))
  {
  }

  lemma HarrierPalette()
    ensures ModelPalette(ColorsOf(Harrier))
  {
  }

  lemma NexonPalette()
    ensures ModelPalette(ColorsOf(Nexon))
  {
  }

  lemma PunchPalette()
    ensures ModelPalette(ColorsOf(Punch))
  {
  }

  lemma TiagoPalette()
    ensures ModelPalette(ColorsOf(Tiago))
  {
  }

  lemma TigorPalette()
    ensures ModelPalette(ColorsOf(Tigor))
  {
  }

  /** The `switch (modelPath)` of `getColorOptions`. */
  function ColorOptionsFor(slug: string): (r: seq<ColorOption>)
    ensures |r| >= 3
    ensures slug !in KnownSlugs ==> r == DefaultColors
    ensures slug in KnownSlugs ==> SlugOf(ModelOf(slug).value) == slug && r == ColorsOf(ModelOf(slug).value)
    ensures forall i :: 0 <= i < |r| ==> r[i].image != ""
  {
    match ModelOf(slug)
    case Some(m) =>
      ColorsOfShape(m);
      ColorsOf(m)
    case None => DefaultColors
  }

  /** `getColorOptions`: never empty, so the page's `[0]` is always defined. */
  function GetColorOptions(modelName: string): (r: seq<ColorOption>)
    ensures |r| >= 3
    ensures Slug(modelName) !in KnownSlugs ==> r == DefaultColors
    ensures forall i :: 0 <= i < |r| ==> r[i].image != ""
  {
    ColorOptionsFor(Slug(modelName))
  }

  /** `options.find(color => color.id === id)`. */
  function FindColor(options: seq<ColorOption>, id: string): (r: Option<ColorOption>)
    ensures r.Some? ==> exists i :: (0 <= i < |options| && options[i] == r.value && options[i].id == id
                                     && forall j :: 0 <= j < i ==> options[j].id != id)
    ensures r.None? <==> forall i :: 0 <= i < |options| ==> options[i].id != id
  {
    if options == [] then None
    else if options[0].id == id then Some(options[0])
    else
      var r := FindColor(options[1..], id);
      assert r.Some? ==> exists i :: (1 <= i < |options| && options[i] == r.value && options[i].id == id
                                       && forall j :: 0 <= j < i ==> options[j].id != id) by {
        if r.Some? {
          var i :| 0 <= i < |options[1..]| && options[1..][i] == r.value && options[1..][i].id == id
                   && forall j :: 0 <= j < i ==> options[1..][j].id != id;
          assert options[i + 1] == r.value;
          assert forall j :: 1 <= j < i + 1 ==> options[j].id == options[1..][j - 1].id;
        }
      }
      r
  }

  /**
   * `getCurrentCarImage`: the image of the first option whose id is the
   * selected colour, unless there is none or its image is empty, in which
   * case the first option's image.
   */
  function CurrentCarImage(modelName: string, selectedColor: string): (r: string)
    ensures var options := GetColorOptions(modelName);
      && (forall i :: 0 <= i < |options| ==> options[i].id != selectedColor) ==> r == options[0].image
  {
    var options := GetColorOptions(modelName);
    match FindColor(options, selectedColor)
    case Some(color) => if color.image != "" then color.image else options[0].image
    case None => options[0].image
  }

  /** A colour the model offers shows that colour's own image. */
  lemma SelectedColorShown(modelName: string, i: nat)
    requires i < |GetColorOptions(modelName)|
    requires forall j :: 0 <= j < i ==> GetColorOptions(modelName)[j].id != GetColorOptions(modelName)[i].id
    ensures CurrentCarImage(modelName, GetColorOptions(modelName)[i].id) == GetColorOptions(modelName)[i].image
  {
    var options := GetColorOptions(modelName);
    ColorImagesPresent(modelName);
    var found := FindColor(options, options[i].id);
    var k :| 0 <= k < |options| && options[k] == found.value && options[k].id == options[i].id
             && forall j :: 0 <= j < k ==> options[j].id != options[i].id;
    assert k == i;
  }

  lemma ColorImagesPresent(modelName: string)
    ensures forall i :: 0 <= i < |GetColorOptions(modelName)| ==> GetColorOptions(modelName)[i].image != ""
  {
    var _ := ColorOptionsFor(Slug(modelName));
  }

  // ---------------------------------------------------------------------------
  // Feature slides and video
  // ---------------------------------------------------------------------------

  datatype Slide = Slide(title: string, desc: string, img: string)

  lemma PrefixOf(dir: string, file: string)
    ensures StartsWith(dir + file, dir)
  {
    assert (dir + file)[..|dir|] == dir;
  }

  lemma SuffixOf(file: string, ext: string)
    ensures EndsWith(file + ext, ext)
  {
    assert (file + ext)[|file + ext| - |ext|..] == ext;
  }

  /** The headlamp image: `.webp` for the Altroz, `.avif` for every other model. */
  function HeadlampImage(dir: string, car: string): (r: string)
    ensures StartsWith(r, dir)
    ensures EndsWith(r, ".webp") <==> car == "altroz"
  {
    var ext := if car == "altroz" then ".webp" else ".avif";
    PrefixOf(dir, "led-headlamps-" + car + ext);
    SuffixOf(dir + "led-headlamps-" + car, ext);
    assert dir + ("led-headlamps-" + car + ext) == dir + "led-headlamps-" + car + ext;
    dir + "led-headlamps-" + car + ext
  }

  /** An `.avif` slide image of kind `kind` in the directory `dir`. */
  function AvifImage(dir: string, kind: string, car: string): (r: string)
    ensures StartsWith(r, dir) && EndsWith(r, ".avif")
  {
    PrefixOf(dir, kind + car + ".avif");
    SuffixOf(dir + kind + car, ".avif");
    assert dir + (kind + car + ".avif") == dir + kind + car + ".avif";
    dir + kind + car + ".avif"
  }

  const SlideTitles: seq<string> :=
    ["LED Headlamps", "Premium Interiors", "Advanced Infotainment", "Safety Features", "Performance"]

  const SlideDescriptions: seq<string> := [
    "Crisp, clear lighting for safer drives.",
    "Luxurious comfort for every journey.",
    "Stay connected and entertained on the go.",
    "Protecting you and your loved ones.",
    "Unleash the power within."]

  /** The image of slide `i`: the headlamp picture first, then the `.avif` pictures of the other four. */
  function SlideImage(dir: string, car: string, i: nat): (r: string)
    requires i < 5
    ensures StartsWith(r, dir)
    ensures i == 0 ==> (EndsWith(r, ".webp") <==> car == "altroz")
    ensures i > 0 ==> EndsWith(r, ".avif")
  {
    if i == 0 then HeadlampImage(dir, car)
    else if i == 1 then AvifImage(dir, "interior-", car)
    else if i == 2 then AvifImage(dir, "infotainment-", car)
    else if i == 3 then AvifImage(dir, "safety-", car)
    else AvifImage(dir, "performance-", car)
  }

  /** `getFeatureSlides`: five slides, each image under the model's asset directory. */
  function GetFeatureSlides(modelName: string): (r: seq<Slide>)
    ensures |r| == 5
    ensures forall i :: 0 <= i < 5 ==> StartsWith(r[i].img, AssetDir(Slug(modelName)))
    ensures EndsWith(r[0].img, ".webp") <==> CarNameText(Slug(modelName)) == "altroz"
    ensures forall i :: 1 <= i < 5 ==> EndsWith(r[i].img, ".avif")
  {
    var car := CarNameText(Slug(modelName));
    var dir := AssetDir(Slug(modelName));
    seq(5, i requires 0 <= i < 5 => Slide(SlideTitles[i], SlideDescriptions[i], SlideImage(dir, car, i)))
  }

  const FallbackVideo := "https://youtube.com"

  /** The car names that have their own video. */
  const VideoCars: set<string> := {"curvv", "tiago", "tigor", "punch", "nexon", "harrier", "altroz"}

  /** The `switch (carName)` of `getVideoUrl`. */
  function VideoUrlFor(carName: string): (r: string)
    ensures carName !in VideoCars <==> r == FallbackVideo
  {
    match carName
    case "curvv" => "https://youtu.be/2iMLqAyZoiE?list=TLGG-J7u4KYcGfExNjExMjAyNQ"
    case "tiago" => "https://youtu.be/LnKlC_7-wmo?list=TLGG7K4Oi0hSN_4xNjExMjAyNQ"
    case "tigor" => "https://youtu.be/MeHysdNnI1E?list=TLGGMdFmG69pPT4xNjExMjAyNQ"
    case "punch" => "https://youtu.be/2Pi3iJ7uZ-s?list=TLGGXSPIOfw2D44xNjExMjAyNQ"
    case "nexon" => "https://youtu.be/ix3yijzMmKA?list=TLGGjBH6FbZ11isxNjExMjAyNQ"
    case "harrier" => "https://youtu.be/FYOzVWrwLoE?list=TLGGod7oVDjF0QQxNjExMjAyNQ"
    case "altroz" => "https://youtu.be/MIlQe8WmdrE"
    case _ => FallbackVideo
  }

  /** The Altroz page shows its own artwork, a `.webp` headlamp slide and its own video. */
  lemma AltrozPage()
    ensures GetHeroConfig("Tata Altroz") == HeroOf(Altroz)
    ensures GetColorOptions("Tata Altroz") == ColorsOf(Altroz)
    ensures EndsWith(GetFeatureSlides("Tata Altroz")[0].img, ".webp")
    ensures GetVideoUrl("Tata Altroz") != FallbackVideo
  {
    AltrozSlug();
    AltrozCarName();
  }

  /** `getVideoUrl`: the model's own video for the seven known car names, the fallback otherwise. */
  function GetVideoUrl(modelName: string): (r: string)
    ensures CarName(Slug(modelName)).None? ==> r == FallbackVideo
    ensures CarNameText(Slug(modelName)) !in VideoCars <==> r == FallbackVideo
  {
    VideoUrlFor(CarNameText(Slug(modelName)))
  }

  // ---------------------------------------------------------------------------
  // Carousel arithmetic
  // ---------------------------------------------------------------------------

  /** JavaScript's `%`, which truncates toward zero: the remainder takes the sign of `a`. */
  function JsRem(a: int, n: int): (r: int)
    requires n > 0
    ensures a >= 0 ==> 0 <= r < n
    ensures a < 0 ==> -n < r <= 0
  {
    if a >= 0 then a % n else -((-a) % n)
  }

  /** `(i + 1) % n`. */
  function NextIndex(i: int, n: int): int
    requires n > 0
  {
    JsRem(i + 1, n)
  }

  /** `(i - 1 + n) % n`. */
  function PrevIndex(i: int, n: int): int
    requires n > 0
  {
    JsRem(i - 1 + n, n)
  }

  /** From any slide, `next` and `prev` stay on a slide and undo each other. */
  lemma CarouselSteps(i: int, n: int)
    requires n > 0 && 0 <= i < n
    ensures 0 <= NextIndex(i, n) < n && 0 <= PrevIndex(i, n) < n
    ensures NextIndex(i, n) == (if i == n - 1 then 0 else i + 1)
    ensures PrevIndex(i, n) == (if i == 0 then n - 1 else i - 1)
    ensures PrevIndex(NextIndex(i, n), n) == i && NextIndex(PrevIndex(i, n), n) == i
  {
    if i == n - 1 { Wrap(i + 1, n); } else { Below(i + 1, n); }
    if i == 0 { Below(i - 1 + n, n); } else { Wrap(i - 1 + n, n); }
    var nx, pv := NextIndex(i, n), PrevIndex(i, n);
    if nx == 0 { Below(n - 1, n); } else { Wrap(nx - 1 + n, n); }
    if pv == n - 1 { Wrap(n, n); } else { Below(pv + 1, n); }
  }

  /** The view's `(i + 1) % n` is the carousel's next index. */
  lemma NextStep(i: int, n: int)
    requires 0 <= i < n
    ensures (i + 1) % n == NextIndex(i, n) && 0 <= NextIndex(i, n) < n
  {
    CarouselSteps(i, n);
    if i == n - 1 { Wrap(i + 1, n); } else { Below(i + 1, n); }
  }

  /** The view's `(i - 1 + n) % n` is the carousel's previous index. */
  lemma PrevStep(i: int, n: int)
    requires 0 <= i < n
    ensures (i - 1 + n) % n == PrevIndex(i, n) && 0 <= PrevIndex(i, n) < n
  {
    CarouselSteps(i, n);
    if i == 0 { Below(i - 1 + n, n); } else { Wrap(i - 1 + n, n); }
  }

  lemma Below(a: int, n: int)
    requires 0 <= a < n
    ensures a % n == a
  {
  }

  lemma Wrap(a: int, n: int)
    requires n <= a < 2 * n
    ensures a % n == a - n
  {
  }

  // ---------------------------------------------------------------------------
  // Page state
  // ---------------------------------------------------------------------------

  /** The component state of one car-details page: the carousel index and the selected colour. */
  class CarDetailsView {
    const vehicleName: string
    const featureSlides: seq<Slide>
    var featIdx: int
    var selectedColor: string

    /** Five slides, and the carousel index names one of them. */
    predicate Valid()
      reads this
    {
      |featureSlides| == 5 && 0 <= featIdx < |featureSlides|
    }

    /** The first slide and the model's first colour. */
    constructor (name: string)
      ensures vehicleName == name && featureSlides == GetFeatureSlides(name) && Valid()
      ensures featIdx == 0 && selectedColor == GetColorOptions(name)[0].id
    {
      vehicleName := name;
      featureSlides := GetFeatureSlides(name);
      featIdx := 0;
      selectedColor := GetColorOptions(name)[0].id;
    }

    /** `featureSlides[featIdx]`. */
    function CurrentSlide(): (r: Slide)
      reads this
      requires Valid()
      ensures r in featureSlides
    {
      featureSlides[featIdx]
    }

    /** The car image for the selected colour. */
    function CurrentImage(): string
      reads this
    {
      CurrentCarImage(vehicleName, selectedColor)
    }

    /** The carousel's right arrow: the following slide, wrapping from the last to the first. */
    method Next()
      requires Valid()
      modifies this
      ensures Valid()
      ensures featIdx == NextIndex(old(featIdx), 5) && selectedColor == old(selectedColor)
    {
      var n := |featureSlides|;
      NextStep(featIdx, n);
      featIdx := (featIdx + 1) % n;
    }

    /** The carousel's left arrow: the preceding slide, wrapping from the first to the last. */
    method Prev()
      requires Valid()
      modifies this
      ensures Valid()
      ensures featIdx == PrevIndex(old(featIdx), 5) && selectedColor == old(selectedColor)
    {
      var n := |featureSlides|;
      PrevStep(featIdx, n);
      featIdx := (featIdx - 1 + n) % n;
    }

    /** The colour palette's `onColorChange`: any id is taken as the selection. */
    method SelectColor(id: string)
      modifies this
      ensures selectedColor == id && featIdx == old(featIdx)
    {
      selectedColor := id;
    }
  }

  /** Selecting an offered colour shows its image; selecting another id shows the first colour's image. */
  lemma SelectionShown(name: string, id: string)
    ensures var options := GetColorOptions(name);
      (forall i :: 0 <= i < |options| ==> options[i].id != id) ==> CurrentCarImage(name, id) == options[0].image
    ensures var options := GetColorOptions(name);
      forall i :: 0 <= i < |options| && options[i].id == id && (forall j :: 0 <= j < i ==> options[j].id != id)
        ==> CurrentCarImage(name, id) == options[i].image
  {
    var options := GetColorOptions(name);
    forall i | 0 <= i < |options| && options[i].id == id && (forall j :: 0 <= j < i ==> options[j].id != id)
      ensures CurrentCarImage(name, id) == options[i].image
    {
      SelectedColorShown(name, i);
    }
  }
}

=== FILE: cors.dfy ===
/**
 * The cross-origin policy of the API server: the origins read from the
 * FRONTEND_URL setting, the set of allowed origins built from them, the
 * pattern for Vercel preview deployments, and the decision taken for the
 * Origin header of each request.
 */
module Cors {
  import opened Wrappers
  import opened Strings

  /** Trimming keeps only characters of the original. */
  lemma TrimKeepsCharacters(s: string)
    ensures forall c :: c in Trim(s) ==> c in s
  {
    var t := TrimStart(s);
    var r := TrimEnd(t);
    assert r == Trim(s);
    SliceKeepsCharacters(t, 0, |r|);
    assert r == t[0..|r|];
    SliceKeepsCharacters(s, |s| - |t|, |s|);
    assert t == s[|s| - |t|..|s|];
  }

  /** A slice holds only characters of the whole. */
  lemma SliceKeepsCharacters(s: string, i: nat, j: nat)
    requires i <= j <= |s|
    ensures forall c :: c in s[i..j] ==> c in s
  {
    forall c | c in s[i..j]
      ensures c in s
    {
      var k :| 0 <= k < j - i && s[i..j][k] == c;
      assert s[i + k] == c;
    }
  }

  /** `.map(origin => origin.trim())`. */
  function TrimAll(pieces: seq<string>): (r: seq<string>)
    ensures |r| == |pieces| && forall i :: 0 <= i < |r| ==> r[i] == Trim(pieces[i])
  {
    seq(|pieces|, i requires 0 <= i < |pieces| => Trim(pieces[i]))
  }

  /** The pieces of a split on ',', trimmed, hold no ',' either. */
  lemma TrimmedPiecesHaveNoComma(raw: string)
    ensures forall i :: 0 <= i < |TrimAll(Split(raw, ','))| ==> ',' !in TrimAll(Split(raw, ','))[i]
  {
    var pieces := Split(raw, ',');
    forall i | 0 <= i < |pieces|
      ensures ',' !in Trim(pieces[i])
    {
      TrimKeepsCharacters(pieces[i]);
    }
  }

  /** `.filter(Boolean)` on strings: the non-empty ones, in order. */
  function DropEmpty(s: seq<string>): (r: seq<string>)
    ensures forall i :: 0 <= i < |r| ==> r[i] != "" && r[i] in s
    ensures forall x :: multiset(r)[x] == if x != "" then multiset(s)[x] else 0
  {
    if s == [] then []
    else
      assert s == [s[0]] + s[1..];
      (if s[0] != "" then [s[0]] else []) + DropEmpty(s[1..])
  }

  /**
   * `rawOrigins`: FRONTEND_URL (empty when unset) split on ',', each piece
   * trimmed, the empty pieces dropped. Each trimmed non-empty piece is kept
   * as often as it occurs, and nothing else.
   */
  function ParseOrigins(frontendUrl: Option<string>): (r: seq<string>)
    ensures forall i :: 0 <= i < |r| ==> r[i] != "" && Trimmed(r[i]) && ',' !in r[i]
    ensures forall x :: multiset(r)[x] == if x != "" then multiset(TrimAll(Split(Raw(frontendUrl), ',')))[x] else 0
  {
    TrimmedPiecesHaveNoComma(Raw(frontendUrl));
    DropEmpty(TrimAll(Split(Raw(frontendUrl), ',')))
  }

  /** `process.env.FRONTEND_URL || ''`. */
  function Raw(frontendUrl: Option<string>): string {
    if IsTruthy(frontendUrl) then frontendUrl.value else ""
  }

  /** With FRONTEND_URL unset or empty there are no configured origins. */
  lemma NoSettingNoOrigins(frontendUrl: Option<string>)
    requires !IsTruthy(frontendUrl)
    ensures ParseOrigins(frontendUrl) == []
  {
    assert Raw(frontendUrl) == "";
    assert Split("", ',') == [""];
    assert Trim("") == "";
    assert TrimAll([""]) == [""];
    assert DropEmpty([""]) == [];
  }

  const LocalFrontend := "http://localhost:3000"
  const LocalPreview := "http://localhost:8080"

  /** `allowedOrigins`: the two local development servers and every configured origin. */
  function AllowedOrigins(frontendUrl: Option<string>): (r: set<string>)
    ensures LocalFrontend in r && LocalPreview in r
    ensures forall x :: x in r <==> x == LocalFrontend || x == LocalPreview || x in ParseOrigins(frontendUrl)
  {
    OriginSet(ParseOrigins(frontendUrl))
  }

  /** `new Set([...])` over the two local servers followed by `origins`. */
  function OriginSet(origins: seq<string>): (r: set<string>)
    ensures LocalFrontend in r && LocalPreview in r
    ensures forall x :: x in r <==> x == LocalFrontend || x == LocalPreview || x in origins
  {
    {LocalFrontend, LocalPreview} + set x | x in origins
  }

  const PreviewPrefix := "https://premium-auto-"
  const PreviewSuffix := ".vercel.app"

  /** `[a-z0-9-]` once the origin is lower-cased. */
  predicate LabelChar(c: char) {
    ('a' <= c <= 'z') || ('0' <= c <= '9') || c == '-'
  }

  predicate IsHostLabel(name: string) {
    name != [] && forall i :: 0 <= i < |name| ==> LabelChar(name[i])
  }

  /**
   * `/^https:\/\/premium-auto-[a-z0-9-]+\.vercel\.app$/i`: with the origin
   * lower-cased, the fixed prefix, a non-empty run of name characters, and
   * the fixed suffix. A name character is never '.', so the run is exactly
   * what lies between the prefix and the suffix.
   */
  predicate VercelPreview(origin: string) {
    PreviewPattern(Lower(origin))
  }

  /** The pattern itself, on an origin already lower-cased. */
  predicate PreviewPattern(o: string) {
    && |PreviewPrefix| + |PreviewSuffix| < |o|
    && o[..|PreviewPrefix|] == PreviewPrefix
    && o[|o| - |PreviewSuffix|..] == PreviewSuffix
    && IsHostLabel(o[|PreviewPrefix|..|o| - |PreviewSuffix|])
  }

  /** An origin matches the preview pattern exactly when, lower-cased, it is the prefix, a name and the suffix. */
  lemma PreviewShape(origin: string)
    ensures VercelPreview(origin) <==>
      exists name :: IsHostLabel(name) && Lower(origin) == PreviewPrefix + name + PreviewSuffix
  {
    var o := Lower(origin);
    if VercelPreview(origin) {
      var i, j := |PreviewPrefix|, |o| - |PreviewSuffix|;
      CutInThree(o, i, j);
      assert o == PreviewPrefix + o[i..j] + PreviewSuffix;
    }
    if exists name :: IsHostLabel(name) && o == PreviewPrefix + name + PreviewSuffix {
      var name :| IsHostLabel(name) && o == PreviewPrefix + name + PreviewSuffix;
      PartsOfThree(PreviewPrefix, name, PreviewSuffix);
    }
  }

  lemma CutInThree(o: string, i: nat, j: nat)
    requires i <= j <= |o|
    ensures o == o[..i] + o[i..j] + o[j..]
  {
  }

  lemma PartsOfThree(a: string, b: string, c: string)
    ensures var o := a + b + c;
      o[..|a|] == a && o[|o| - |c|..] == c && o[|a|..|o| - |c|] == b
  {
    var o := a + b + c;
    assert o[..|a|] == a;
    assert o[|o| - |c|..] == c;
    assert o[|a|..|o| - |c|] == b;
  }

  lemma LowerUpper(s: string)
    ensures Lower(Upper(s)) == Lower(s)
  {
    assert forall i :: 0 <= i < |s| ==> LowerChar(UpperChar(s[i])) == LowerChar(s[i]);
  }

  /** The `i` flag: upper- or lower-casing an origin does not change whether it matches. */
  lemma PreviewIgnoresCase(origin: string)
    ensures VercelPreview(Lower(origin)) == VercelPreview(origin)
    ensures VercelPreview(Upper(origin)) == VercelPreview(origin)
  {
    LowerIdempotent(origin);
    LowerUpper(origin);
  }

  /** A host name with a dot before ".vercel.app" is not a preview deployment of this project. */
  lemma DottedLabelRejected(name: string, rest: string)
    ensures !VercelPreview(PreviewPrefix + name + "." + rest + PreviewSuffix)
  {
    var origin := PreviewPrefix + name + "." + rest + PreviewSuffix;
    var o := Lower(origin);
    var k := |PreviewPrefix| + |name|;
    assert origin[k] == '.';
    var middle := o[|PreviewPrefix|..|o| - |PreviewSuffix|];
    assert middle[|name|] == o[k] == '.';
    assert !LabelChar(middle[|name|]);
  }

  /** The answer to a CORS check. */
  datatype Decision = Allow | Reject(message: string)

  /**
   * `corsOptions.origin`: a request without an Origin header, an allowed
   * origin or a preview deployment is let through; anything else is refused
   * with "Not allowed by CORS".
   */
  function OriginDecision(origin: Option<string>, allowed: set<string>): (r: Decision)
    ensures r.Allow? <==> !IsTruthy(origin) || origin.value in allowed || VercelPreview(origin.value)
    ensures r.Reject? ==> r.message == "Not allowed by CORS"
  {
    if !IsTruthy(origin) || origin.value in allowed || VercelPreview(origin.value) then Allow
    else Reject("Not allowed by CORS")
  }

  /** The server's check, with the allowed set built from FRONTEND_URL. */
  function CheckOrigin(frontendUrl: Option<string>, origin: Option<string>): (r: Decision)
    ensures !IsTruthy(origin) ==> r == Allow
    ensures origin == Some(LocalFrontend) || origin == Some(LocalPreview) ==> r == Allow
    ensures IsTruthy(origin) && origin.value in ParseOrigins(frontendUrl) ==> r == Allow
    ensures IsTruthy(origin) && VercelPreview(origin.value) ==> r == Allow
    ensures r != Allow ==> r == Reject("Not allowed by CORS")
    ensures r == Allow <==>
      (!IsTruthy(origin) || origin.value == LocalFrontend || origin.value == LocalPreview
       || origin.value in ParseOrigins(frontendUrl) || VercelPreview(origin.value))
  {
    OriginDecision(origin, AllowedOrigins(frontendUrl))
  }

  /** Without FRONTEND_URL, a present origin passes only if it is local or a preview deployment. */
  lemma UnconfiguredServer(frontendUrl: Option<string>, origin: string)
    requires !IsTruthy(frontendUrl) && origin != ""
    ensures CheckOrigin(frontendUrl, Some(origin)) == Allow <==>
      origin == LocalFrontend || origin == LocalPreview || VercelPreview(origin)
  {
    NoSettingNoOrigins(frontendUrl);
    NoConfiguredOrigins(frontendUrl, origin);
  }

  /** With no configured origins, a present origin passes only if it is local or a preview deployment. */
  lemma NoConfiguredOrigins(frontendUrl: Option<string>, origin: string)
    requires ParseOrigins(frontendUrl) == [] && origin != ""
    ensures CheckOrigin(frontendUrl, Some(origin)) == Allow <==>
      origin == LocalFrontend || origin == LocalPreview || VercelPreview(origin)
  {
    var allowed := AllowedOrigins(frontendUrl);
    assert CheckOrigin(frontendUrl, Some(origin)) == OriginDecision(Some(origin), allowed);
    DecisionOnLocalOnly(origin, allowed, LocalFrontend, LocalPreview);
  }

  /** With only two origins allowed, a present origin passes exactly when it is one of them or a preview deployment. */
  lemma DecisionOnLocalOnly(origin: string, allowed: set<string>, a: string, b: string)
    requires origin != ""
    requires forall x :: x in allowed <==> x == a || x == b
    ensures OriginDecision(Some(origin), allowed) == Allow <==> origin == a || origin == b || VercelPreview(origin)
  {
  }

  /** Every origin listed in FRONTEND_URL, surrounded by any whitespace, is allowed once trimmed. */
  lemma ConfiguredOriginAllowed(frontendUrl: Option<string>, i: nat)
    requires i < |Split(Raw(frontendUrl), ',')|
    requires Trim(Split(Raw(frontendUrl), ',')[i]) != ""
    ensures CheckOrigin(frontendUrl, Some(Trim(Split(Raw(frontendUrl), ',')[i]))) == Allow
  {
    var trimmed := TrimAll(Split(Raw(frontendUrl), ','));
    var x := trimmed[i];
    assert x in multiset(trimmed);
    assert x in multiset(ParseOrigins(frontendUrl));
  }
}

=== FILE: grouping.dfy ===
/**
 * The `$group: { _id: <field>, count: { $sum: 1 } }` aggregation used by the
 * booking statistics: one entry per distinct value, with the number of
 * documents holding it. The store does not fix the order of the groups; the
 * model lists them in order of first appearance.
 */
module Grouping {

  /** How many elements of `s` equal `k`. */
  function Count<K(==)>(s: seq<K>, k: K): (n: nat)
    ensures n <= |s|
    ensures n > 0 <==> k in s
  {
    if s == [] then 0 else Count(s[..|s| - 1], k) + (if s[|s| - 1] == k then 1 else 0)
  }

  predicate NoDuplicates<K(==)>(d: seq<K>) {
    forall i, j :: 0 <= i < j < |d| ==> d[i] != d[j]
  }

  /** The distinct values of `s`, in order of first appearance. */
  function Distinct<K(==,!new)>(s: seq<K>): (d: seq<K>)
    ensures forall x :: x in d <==> x in s
    ensures NoDuplicates(d)
  {
    if s == [] then []
    else
      var d := Distinct(s[..|s| - 1]);
      assert s == s[..|s| - 1] + [s[|s| - 1]];
      if s[|s| - 1] in d then d else d + [s[|s| - 1]]
  }

  /** The group entries `(value, count)` for the values in `d`. */
  function CountsOver<K(==)>(d: seq<K>, s: seq<K>): (r: seq<(K, nat)>)
    ensures |r| == |d|
    ensures forall i :: 0 <= i < |d| ==> r[i] == (d[i], Count(s, d[i]))
  {
    if d == [] then [] else CountsOver(d[..|d| - 1], s) + [(d[|d| - 1], Count(s, d[|d| - 1]))]
  }

  /** One group per distinct value of `s`: counts are positive, values are distinct and every value appears. */
  function GroupCounts<K(==,!new)>(s: seq<K>): (r: seq<(K, nat)>)
    ensures forall i :: 0 <= i < |r| ==> r[i].1 == Count(s, r[i].0) && r[i].1 > 0
    ensures forall i, j :: 0 <= i < j < |r| ==> r[i].0 != r[j].0
    ensures forall x :: x in s <==> exists i :: 0 <= i < |r| && r[i].0 == x
  {
    var d := Distinct(s);
    var r := CountsOver(d, s);
    assert forall x :: x in d ==> exists i :: 0 <= i < |r| && r[i].0 == x by {
      forall x | x in d ensures exists i :: 0 <= i < |r| && r[i].0 == x {
        var i :| 0 <= i < |d| && d[i] == x;
        assert r[i].0 == x;
      }
    }
    r
  }

  /** The total of the counts of a list of groups. */
  function SumCounts<K>(r: seq<(K, nat)>): nat {
    if r == [] then 0 else SumCounts(r[..|r| - 1]) + r[|r| - 1].1
  }

  lemma {:induction false} CountSnoc<K>(s: seq<K>, x: K, k: K)
    ensures Count(s + [x], k) == Count(s, k) + (if x == k then 1 else 0)
  {
    assert (s + [x])[..|s + [x]| - 1] == s;
  }

  /** Adding one element `x` adds one to the sum over `d` when `x` is one of `d`'s values. */
  lemma {:induction false} SumAfterSnoc<K>(d: seq<K>, s: seq<K>, x: K)
    requires NoDuplicates(d)
    ensures SumCounts(CountsOver(d, s + [x])) == SumCounts(CountsOver(d, s)) + (if x in d then 1 else 0)
  {
    if d != [] {
      var p, k := d[..|d| - 1], d[|d| - 1];
      var after, before := CountsOver(d, s + [x]), CountsOver(d, s);
      assert after[..|d| - 1] == CountsOver(p, s + [x]);
      assert before[..|d| - 1] == CountsOver(p, s);
      assert SumCounts(after) == SumCounts(CountsOver(p, s + [x])) + Count(s + [x], k);
      assert SumCounts(before) == SumCounts(CountsOver(p, s)) + Count(s, k);
      SumAfterSnoc(p, s, x);
      CountSnoc(s, x, k);
      assert x in d <==> x in p || x == k by {
        assert d == p + [k];
      }
      if x == k {
        assert x !in p;
      }
    }
  }

  /** The group counts add up to the number of documents grouped. */
  lemma {:induction false} GroupCountsSum<K(!new)>(s: seq<K>)
    ensures SumCounts(GroupCounts(s)) == |s|
  {
    if s != [] {
      var p := s[..|s| - 1];
      var x := s[|s| - 1];
      assert s == p + [x];
      GroupCountsSum(p);
      var d := Distinct(p);
      SumAfterSnoc(d, p, x);
      if x !in d {
        assert Count(p, x) == 0;
        CountSnoc(p, x, x);
        assert CountsOver(d + [x], s)[..|d|] == CountsOver(d, s);
      }
    }
  }

  predicate KeysDistinct<K(==), V>(r: seq<(K, V)>) {
    forall i, j :: 0 <= i < j < |r| ==> r[i].0 != r[j].0
  }

  /** With distinct keys, no entry occurs twice. */
  lemma {:induction false} KeysDistinctOccursOnce<K, V>(r: seq<(K, V)>, x: (K, V))
    requires KeysDistinct(r)
    ensures multiset(r)[x] <= 1
  {
    if r != [] {
      var p := r[..|r| - 1];
      assert r == p + [r[|r| - 1]];
      KeysDistinctOccursOnce(p, x);
    }
  }

  /** Reordering a list of groups keeps their keys distinct. */
  lemma {:induction false} PermutationKeepsKeysDistinct<K, V>(r: seq<(K, V)>, t: seq<(K, V)>)
    requires KeysDistinct(r) && multiset(t) == multiset(r)
    requires forall i, j :: 0 <= i < |r| && 0 <= j < |r| && r[i].0 == r[j].0 ==> r[i] == r[j]
    ensures KeysDistinct(t)
  {
    forall i, j | 0 <= i < j < |t|
      ensures t[i].0 != t[j].0
    {
      if t[i].0 == t[j].0 {
        assert t[i] in multiset(r) && t[j] in multiset(r);
        var a :| 0 <= a < |r| && r[a] == t[i];
        var b :| 0 <= b < |r| && r[b] == t[j];
        assert t[i] == t[j];
        assert t == t[..j] + t[j..];
        assert t[i] in t[..j];
        assert t[j..][0] == t[j];
        assert multiset(t[..j])[t[i]] >= 1 && multiset(t[j..])[t[i]] >= 1;
        KeysDistinctOccursOnce(r, t[i]);
        assert false;
      }
    }
  }
}

=== FILE: inventory.dfy ===
/**
 * The Inventory page's catalogue: the constant table of Tata vehicles, the
 * search box and the two drop-down filters applied to it, the sort chosen
 * from the sort drop-down, and the Clear Filters reset of the page state.
 */
module Inventory {
  import opened Strings
  import Sequences

  /**
   * One catalogue entry. `price` is the ex-showroom price in lakh rupees,
   * held as a whole number of hundredths (6.60 is 660); the image is left out.
   */
  datatype Vehicle = Vehicle(
    id: string,
    name: string,
    price: nat,
    year: int,
    mileage: string,
    fuelType: string,
    transmission: string,
    bodyType: string,
    description: string)

  const Vehicles: seq<Vehicle> := [
    Vehicle("altroz", "Tata Altroz", 660, 2024, "19.3 kmpl", "Petrol", "Manual", "Hatchback",
            "Premium hatchback with best-in-class features"),
    Vehicle("curvv", "Tata Curvv", 1000, 2024, "17.5 kmpl", "Petrol", "Manual", "SUV",
            "India's first SUV-coupe with cutting-edge design"),
    Vehicle("tiago", "Tata Tiago", 565, 2024, "20.1 kmpl", "Petrol", "Automatic", "Hatchback",
            "Stylish and efficient compact hatchback"),
    Vehicle("tigor", "Tata Tigor", 620, 2024, "19.2 kmpl", "Petrol", "Automatic", "Sedan",
            "Spacious compact sedan with modern features"),
    Vehicle("punch", "Tata Punch", 613, 2024, "18.8 kmpl", "Petrol", "Manual", "Hatchback",
            "Micro-SUV with SUV stance and city convenience"),
    Vehicle("nexon", "Tata Nexon", 815, 2024, "17.5 kmpl", "Petrol", "Automatic", "SUV",
            "5-star safety-rated compact SUV"),
    Vehicle("harrier", "Tata Harrier", 1550, 2024, "16.5 kmpl", "Diesel", "Automatic", "SUV",
            "Flagship SUV with premium luxury and performance")
  ]

  datatype ViewMode = Grid | List

  /** The page state: the view toggle, the search term, the two filters and the sort key. */
  datatype PageState = PageState(
    viewMode: ViewMode,
    searchTerm: string,
    bodyTypeFilter: string,
    fuelTypeFilter: string,
    sortBy: string)

  /** The state the page starts in. */
  const Initial := PageState(Grid, "", "all", "all", "name")

  /** The three tests of the filter callback. */
  predicate Matches(v: Vehicle, s: PageState) {
    && Contains(Lower(v.name), Lower(s.searchTerm))
    && (s.bodyTypeFilter == "all" || Lower(v.bodyType) == s.bodyTypeFilter)
    && (s.fuelTypeFilter == "all" || Lower(v.fuelType) == s.fuelTypeFilter)
  }

  /** Lexicographic order on strings, standing for `localeCompare(...) <= 0`. */
  predicate LexLe(a: string, b: string) {
    a == [] || (b != [] && (a[0] < b[0] || (a[0] == b[0] && LexLe(a[1..], b[1..]))))
  }

  lemma {:induction false} LexLeTotal(a: string, b: string)
    ensures LexLe(a, b) || LexLe(b, a)
  {
    if a != [] && b != [] && a[0] == b[0] {
      LexLeTotal(a[1..], b[1..]);
    }
  }

  lemma {:induction false} LexLeTransitive(a: string, b: string, c: string)
    requires LexLe(a, b) && LexLe(b, c)
    ensures LexLe(a, c)
  {
    if a != [] && b != [] && c != [] && a[0] == b[0] && b[0] == c[0] {
      LexLeTransitive(a[1..], b[1..], c[1..]);
    }
  }

  /** The cases of the sort callback's `switch`. */
  datatype SortKey = PriceLow | PriceHigh | YearNew | YearOld | ByName

  /** The `switch (sortBy)`: any key other than the four price and year keys orders by name. */
  function KeyOf(sortBy: string): (k: SortKey)
    ensures k == ByName <==> sortBy !in {"price-low", "price-high", "year-new", "year-old"}
  {
    match sortBy
    case "price-low" => PriceLow
    case "price-high" => PriceHigh
    case "year-new" => YearNew
    case "year-old" => YearOld
    case _ => ByName
  }

  /** "May come before": the sort callback returns a value that is not positive. */
  function Comparator(key: SortKey): (Vehicle, Vehicle) -> bool {
    match key
    case PriceLow => (a: Vehicle, b: Vehicle) => a.price <= b.price
    case PriceHigh => (a: Vehicle, b: Vehicle) => b.price <= a.price
    case YearNew => (a: Vehicle, b: Vehicle) => b.year <= a.year
    case YearOld => (a: Vehicle, b: Vehicle) => a.year <= b.year
    case ByName => (a: Vehicle, b: Vehicle) => LexLe(a.name, b.name)
  }

  /** Every comparator orders the vehicles totally and transitively. */
  lemma ComparatorIsTotalPreorder(key: SortKey)
    ensures Sequences.TotalPreorder(Comparator(key))
  {
    if key == ByName {
      forall a: Vehicle, b: Vehicle
        ensures LexLe(a.name, b.name) || LexLe(b.name, a.name)
      {
        LexLeTotal(a.name, b.name);
      }
      forall a: Vehicle, b: Vehicle, c: Vehicle | LexLe(a.name, b.name) && LexLe(b.name, c.name)
        ensures LexLe(a.name, c.name)
      {
        LexLeTransitive(a.name, b.name, c.name);
      }
    }
  }

  /** The vehicles of `table` that pass the filter callback, in table order. */
  function Shortlist(table: seq<Vehicle>, s: PageState): (r: seq<Vehicle>)
    ensures forall i :: 0 <= i < |r| ==> Matches(r[i], s)
    ensures forall v :: multiset(r)[v] == if Matches(v, s) then multiset(table)[v] else 0
  {
    Sequences.Filter(table, (v: Vehicle) => Matches(v, s))
  }

  /**
   * `filteredVehicles`: the table filtered, then sorted (stably) by the chosen
   * key. The result is exactly the matching vehicles, each as often as in the
   * table, in the order the comparator asks for.
   */
  function FilteredVehicles(table: seq<Vehicle>, s: PageState): (r: seq<Vehicle>)
    ensures forall i :: 0 <= i < |r| ==> Matches(r[i], s)
    ensures forall v :: multiset(r)[v] == if Matches(v, s) then multiset(table)[v] else 0
    ensures forall i, j :: 0 <= i < j < |r| ==> Comparator(KeyOf(s.sortBy))(r[i], r[j])
  {
    var shortlist := Shortlist(table, s);
    var key := KeyOf(s.sortBy);
    ComparatorIsTotalPreorder(key);
    Sequences.SortBySorted(shortlist, Comparator(key));
    Sequences.SortBy(shortlist, Comparator(key))
  }

  /** What each comparator's order means for the listed vehicles. */
  lemma ComparatorMeans(r: seq<Vehicle>, key: SortKey)
    requires forall i, j :: 0 <= i < j < |r| ==> Comparator(key)(r[i], r[j])
    ensures key == PriceLow ==> forall i, j :: 0 <= i < j < |r| ==> r[i].price <= r[j].price
    ensures key == PriceHigh ==> forall i, j :: 0 <= i < j < |r| ==> r[i].price >= r[j].price
    ensures key == YearNew ==> forall i, j :: 0 <= i < j < |r| ==> r[i].year >= r[j].year
    ensures key == YearOld ==> forall i, j :: 0 <= i < j < |r| ==> r[i].year <= r[j].year
    ensures key == ByName ==> forall i, j :: 0 <= i < j < |r| ==> LexLe(r[i].name, r[j].name)
  {
  }

  /** "price-low" lists the cheapest first, "price-high" the dearest first. */
  lemma PriceOrders(table: seq<Vehicle>, s: PageState)
    ensures var r := FilteredVehicles(table, s);
      && (s.sortBy == "price-low" ==> forall i, j :: 0 <= i < j < |r| ==> r[i].price <= r[j].price)
      && (s.sortBy == "price-high" ==> forall i, j :: 0 <= i < j < |r| ==> r[i].price >= r[j].price)
  {
    ComparatorMeans(FilteredVehicles(table, s), KeyOf(s.sortBy));
  }

  /** "year-new" lists the newest first, "year-old" the oldest first. */
  lemma YearOrders(table: seq<Vehicle>, s: PageState)
    ensures var r := FilteredVehicles(table, s);
      && (s.sortBy == "year-new" ==> forall i, j :: 0 <= i < j < |r| ==> r[i].year >= r[j].year)
      && (s.sortBy == "year-old" ==> forall i, j :: 0 <= i < j < |r| ==> r[i].year <= r[j].year)
  {
    ComparatorMeans(FilteredVehicles(table, s), KeyOf(s.sortBy));
  }

  /** Any other sort key, "name" included, lists the vehicles by name. */
  lemma NameOrder(table: seq<Vehicle>, s: PageState)
    requires s.sortBy !in {"price-low", "price-high", "year-new", "year-old"}
    ensures var r := FilteredVehicles(table, s);
      forall i, j :: 0 <= i < j < |r| ==> LexLe(r[i].name, r[j].name)
  {
    ComparatorMeans(FilteredVehicles(table, s), KeyOf(s.sortBy));
  }

  /** In a table without repeats, a vehicle is shown once if it passes the three tests, and not at all otherwise. */
  lemma ShownIffMatches(table: seq<Vehicle>, s: PageState, v: Vehicle)
    requires forall i, j :: 0 <= i < j < |table| ==> table[i] != table[j]
    requires v in table
    ensures v in FilteredVehicles(table, s) <==> Matches(v, s)
    ensures multiset(FilteredVehicles(table, s))[v] == if Matches(v, s) then 1 else 0
  {
    Sequences.DistinctOccursOnce(table, v);
  }

  /** With no search term and both filters at "all", every vehicle of the table is shown. */
  lemma EverythingShownWhenUnfiltered(table: seq<Vehicle>, s: PageState)
    requires s.searchTerm == "" && s.bodyTypeFilter == "all" && s.fuelTypeFilter == "all"
    ensures multiset(FilteredVehicles(table, s)) == multiset(table)
    ensures |FilteredVehicles(table, s)| == |table|
  {
    var r := FilteredVehicles(table, s);
    forall v: Vehicle
      ensures Matches(v, s)
    {
      assert Lower(s.searchTerm) == [];
    }
    assert multiset(r) == multiset(table);
    assert |r| == |multiset(r)| == |multiset(table)| == |table|;
  }

  /** The catalogue holds seven distinct vehicles. */
  lemma CatalogueOfSeven()
    ensures |Vehicles| == 7
    ensures forall i, j :: 0 <= i < j < |Vehicles| ==> Vehicles[i].id != Vehicles[j].id
  {
  }

  /**
   * Clear Filters: the search, both filters and the sort go back to their
   * starting values; the view toggle stays as it was.
   */
  function ClearFilters(s: PageState): (r: PageState)
    ensures r == Initial.(viewMode := s.viewMode)
  {
    s.(searchTerm := "", bodyTypeFilter := "all", fuelTypeFilter := "all", sortBy := "name")
  }

  /** After Clear Filters the page shows every vehicle of the table again, by name. */
  lemma ClearedShowsEverything(table: seq<Vehicle>, s: PageState)
    ensures var r := FilteredVehicles(table, ClearFilters(s));
      && multiset(r) == multiset(table) && |r| == |table|
      && forall i, j :: 0 <= i < j < |r| ==> LexLe(r[i].name, r[j].name)
  {
    EverythingShownWhenUnfiltered(table, ClearFilters(s));
    NameOrder(table, ClearFilters(s));
  }

  /** When every vehicle of the table has the same year, a year sort keeps the table order. */
  lemma TiedYearsKeepTableOrder(table: seq<Vehicle>, s: PageState, year: int)
    requires s.sortBy == "year-new" || s.sortBy == "year-old"
    requires forall i :: 0 <= i < |table| ==> table[i].year == year
    ensures FilteredVehicles(table, s) == Shortlist(table, s)
  {
    var shortlist := Shortlist(table, s);
    var le := Comparator(KeyOf(s.sortBy));
    forall i | 0 <= i < |shortlist|
      ensures shortlist[i].year == year
    {
      var w := shortlist[i];
      assert multiset(shortlist)[w] > 0;
      assert w in table;
    }
    Sequences.SortByAllTied(shortlist, le);
  }

  /** All seven vehicles of the page's table are 2024 models, so a year sort shows them in table order. */
  lemma YearSortKeepsTableOrder(s: PageState)
    requires s.sortBy == "year-new" || s.sortBy == "year-old"
    ensures FilteredVehicles(Vehicles, s) == Shortlist(Vehicles, s)
  {
    TiedYearsKeepTableOrder(Vehicles, s, 2024);
  }

  /** On the page's own table, an unfiltered view shows all seven vehicles. */
  lemma UnfilteredShowsSeven(s: PageState)
    requires s.searchTerm == "" && s.bodyTypeFilter == "all" && s.fuelTypeFilter == "all"
    ensures |FilteredVehicles(Vehicles, s)| == 7
  {
    EverythingShownWhenUnfiltered(Vehicles, s);
    CatalogueOfSeven();
  }
}

=== FILE: pagination.dfy ===
/**
 * The listing arithmetic both admin list routes share: the store skips
 * `(page - 1) * limit` documents of the sorted result and returns at most
 * `limit`, and the response reports `Math.ceil(total / limit)` pages.
 *
 * Store semantics modelled: a negative skip is refused by the store (the
 * route then answers 500), a limit of 0 means "no limit", and a negative
 * limit returns at most |limit| documents.
 */
module Pagination {
  import opened Wrappers

  function Abs(x: int): nat {
    if x < 0 then -x else x
  }

  function Min(a: int, b: int): int {
    if a <= b then a else b
  }

  /** How many documents `.skip((page - 1) * limit)` passes over. */
  function SkipCount(page: int, limit: int): int {
    (page - 1) * limit
  }

  /**
   * `Math.ceil(total / limit)`. JavaScript gives Infinity or NaN for a zero
   * limit, which the JSON response renders as null: None here.
   */
  function TotalPages(total: nat, limit: int): (r: Option<int>)
    ensures r.None? <==> limit == 0
    ensures limit > 0 ==> r.Some? && (r.value - 1) * limit < total <= r.value * limit
    ensures limit < 0 ==> r.Some? && r.value <= 0 && -r.value * -limit <= total < (-r.value + 1) * -limit
  {
    if limit == 0 then None
    else if limit > 0 then
      var q := (total + limit - 1) / limit;
      DivBounds(total + limit - 1, limit);
      assert (q - 1) * limit == q * limit - limit;
      assert (q + 1) * limit == q * limit + limit;
      Some(q)
    else
      var q := total / -limit;
      DivBounds(total, -limit);
      assert (-(-q) + 1) * -limit == q * -limit + -limit;
      Some(-q)
  }

  lemma DivBounds(n: int, d: int)
    requires d > 0
    ensures (n / d) * d <= n < (n / d) * d + d
  {
  }

  /** The `pagination` object of a list response, with the page's documents. */
  datatype Page<T> = Page(items: seq<T>, currentPage: int, totalPages: Option<int>, totalItems: nat, itemsPerPage: int)

  datatype Listing<T> = Listed(page: Page<T>) | SkipRejected

  /** Number of documents on the page: what is left after the skip, capped by the limit (0 = no cap). */
  function PageSize(total: nat, page: int, limit: int): nat {
    var skip := SkipCount(page, limit);
    var left := if skip < total then total - skip else 0;
    if limit == 0 then left else Min(Abs(limit), left)
  }

  /** `items` are the documents of `sorted` that follow the first `skip`, in order. */
  ghost predicate RunOf<T>(items: seq<T>, sorted: seq<T>, skip: int) {
    && 0 <= skip
    && (|items| > 0 ==> skip + |items| <= |sorted|)
    && forall k :: 0 <= k < |items| ==> items[k] == sorted[skip + k]
  }

  /** Skips and limits an already sorted result, as `.sort(...).limit(limit).skip(skip)` does. */
  function Paginate<T>(sorted: seq<T>, page: int, limit: int): (r: Listing<T>)
    ensures r.SkipRejected? <==> SkipCount(page, limit) < 0
    ensures r.Listed? ==>
      && r.page.totalItems == |sorted|
      && r.page.totalPages == TotalPages(|sorted|, limit)
      && r.page.currentPage == page && r.page.itemsPerPage == limit
      && |r.page.items| == PageSize(|sorted|, page, limit)
      && (limit != 0 ==> |r.page.items| <= Abs(limit))
      && RunOf(r.page.items, sorted, SkipCount(page, limit))
  {
    var skip := SkipCount(page, limit);
    if skip < 0 then SkipRejected
    else
      var start := if skip < |sorted| then skip else |sorted|;
      var n := PageSize(|sorted|, page, limit);
      Listed(Page(sorted[start..start + n], page, TotalPages(|sorted|, limit), |sorted|, limit))
  }

  /** With a positive limit, the document at position k is on page k / limit + 1, at slot k % limit. */
  lemma PagesCoverEverything<T>(sorted: seq<T>, limit: int, k: nat)
    requires limit > 0 && k < |sorted|
    ensures var r := Paginate(sorted, k / limit + 1, limit);
      r.Listed? && k % limit < |r.page.items| && r.page.items[k % limit] == sorted[k]
  {
    var page := k / limit + 1;
    assert SkipCount(page, limit) == (k / limit) * limit;
    assert (k / limit) * limit + k % limit == k;
    assert SkipCount(page, limit) <= k;
  }

  /** Fifteen matching documents, page 2, limit 10: five documents and two pages. */
  lemma SecondPageOfFifteen<T>(sorted: seq<T>)
    requires |sorted| == 15
    ensures var r := Paginate(sorted, 2, 10);
      r.Listed? && |r.page.items| == 5 && r.page.totalPages == Some(2) && r.page.items == sorted[10..]
  {
  }
}

=== FILE: record_store.dfy ===
/**
 * The record store the two intake pipelines and the status updates work
 * on: one collection of bookings and one of test-drive requests, and the
 * counter that hands out store identities. Each method runs the route's
 * steps one after the other on the stored sequences and ends in the state
 * the corresponding route function describes.
 */
module RecordStore {
  import opened Wrappers
  import opened Strings
  import opened Responses
  import BookingModel
  import TestDriveModel
  import BookingRoutes
  import TestDriveRoutes

  /** Every stored record has an identity below `nextId`, and no identity is used twice. */
  predicate Consistent(bs: seq<BookingModel.Booking>, ts: seq<TestDriveModel.TestDrive>, nextId: nat) {
    && (forall i :: 0 <= i < |bs| ==> bs[i].id < nextId)
    && (forall i :: 0 <= i < |ts| ==> ts[i].id < nextId)
    && BookingRoutes.IdsUnique(bs)
    && TestDriveRoutes.IdsUnique(ts)
  }

  /** Storing a booking under the next identity keeps the identities fresh and unique. */
  lemma AppendBookingConsistent(bs: seq<BookingModel.Booking>, ts: seq<TestDriveModel.TestDrive>, nextId: nat, b: BookingModel.Booking)
    requires Consistent(bs, ts, nextId) && b.id == nextId
    ensures Consistent(bs + [b], ts, nextId + 1)
  {
  }

  /** Storing a test-drive request under the next identity keeps the identities fresh and unique. */
  lemma AppendTestDriveConsistent(bs: seq<BookingModel.Booking>, ts: seq<TestDriveModel.TestDrive>, nextId: nat, t: TestDriveModel.TestDrive)
    requires Consistent(bs, ts, nextId) && t.id == nextId
    ensures Consistent(bs, ts + [t], nextId + 1)
  {
  }

  /** Replacing a stored booking by one with the same identity keeps the identities fresh and unique. */
  lemma ReplaceBookingConsistent(bs: seq<BookingModel.Booking>, ts: seq<TestDriveModel.TestDrive>, nextId: nat, i: nat, b: BookingModel.Booking)
    requires Consistent(bs, ts, nextId) && i < |bs| && b.id == bs[i].id
    ensures Consistent(bs[i := b], ts, nextId)
  {
    assert forall k :: 0 <= k < |bs| ==> bs[i := b][k].id == bs[k].id;
  }

  class Store {
    var bookings: seq<BookingModel.Booking>
    var testDrives: seq<TestDriveModel.TestDrive>
    var nextId: nat

    predicate Valid()
      reads this
    {
      Consistent(bookings, testDrives, nextId)
    }

    constructor ()
      ensures Valid()
      ensures bookings == [] && testDrives == [] && nextId == 0
    {
      bookings := [];
      testDrives := [];
      nextId := 0;
    }

    /** The duplicate query of the booking intake, scanning the bookings in store order. */
    method FindActiveBooking(email: string, model: string) returns (found: Option<nat>)
      ensures found == BookingRoutes.ActiveDuplicate(bookings, email, model)
    {
      var i := 0;
      while i < |bookings|
        invariant 0 <= i <= |bookings|
        invariant forall j :: 0 <= j < i ==> !BookingRoutes.Blocks(bookings[j], email, model)
      {
        if BookingRoutes.Blocks(bookings[i], email, model) {
          var d := BookingRoutes.ActiveDuplicate(bookings, email, model);
          assert d.Some? && !(d.value < i) && !(i < d.value);
          return Some(i);
        }
        i := i + 1;
      }
      return None;
    }

    /** The unique index on `bookingId`: whether a stored booking already holds `bookingId`. */
    method BookingIdInUse(bookingId: Option<string>) returns (taken: bool)
      ensures taken == BookingRoutes.BookingIdTaken(bookings, bookingId)
    {
      if bookingId.None? {
        return false;
      }
      var i := 0;
      while i < |bookings|
        invariant 0 <= i <= |bookings|
        invariant forall j :: 0 <= j < i ==> bookings[j].bookingId != bookingId
      {
        if bookings[i].bookingId == bookingId {
          return true;
        }
        i := i + 1;
      }
      return false;
    }

    /** `findById` on the bookings. */
    method FindBooking(id: nat) returns (found: Option<nat>)
      ensures found == BookingRoutes.IndexOfId(bookings, id)
    {
      var i := 0;
      while i < |bookings|
        invariant 0 <= i <= |bookings|
        invariant forall j :: 0 <= j < i ==> bookings[j].id != id
      {
        if bookings[i].id == id {
          var d := BookingRoutes.IndexOfId(bookings, id);
          assert d.Some? && !(d.value < i) && !(i < d.value);
          return Some(i);
        }
        i := i + 1;
      }
      return None;
    }

    /**
     * POST `/api/booking`: the gate, the duplicate guard, the document and its
     * validation, the pre-save hook and the unique index, then the insert
     * under the next identity.
     */
    method CreateBooking(req: BookingRoutes.BookingRequest, ctx: BookingRoutes.Context)
      returns (outcome: BookingRoutes.SubmitOutcome)
      requires Valid()
      modifies this
      ensures Valid()
      ensures var r := BookingRoutes.SubmitBooking(old(bookings), req, ctx, old(nextId));
        outcome == r.outcome && bookings == r.store
      ensures testDrives == old(testDrives)
      ensures nextId == if outcome.Created? then old(nextId) + 1 else old(nextId)
    {
      if !BookingRoutes.RequiredPresent(req) {
        return BookingRoutes.MissingFields;
      }
      var duplicate := FindActiveBooking(req.email.value, req.model.value);
      if duplicate.Some? {
        return BookingRoutes.ActiveBookingExists(bookings[duplicate.value].bookingId);
      }
      outcome := SaveBooking(BookingRoutes.NewBooking(req, ctx, nextId), ctx);
    }

    /**
     * `booking.save()` on a new document: validation, the pre-save hook on the
     * document, the unique index on `bookingId`, then the insert.
     */
    method SaveBooking(data: BookingModel.Booking, ctx: BookingRoutes.Context)
      returns (outcome: BookingRoutes.SubmitOutcome)
      requires Valid() && data.id == nextId
      modifies this
      ensures Valid()
      ensures var r := BookingRoutes.Save(old(bookings), data, ctx);
        outcome == r.outcome && bookings == r.store
      ensures testDrives == old(testDrives)
      ensures nextId == if outcome.Created? then old(nextId) + 1 else old(nextId)
    {
      var doc := new BookingModel.BookingDocument(data);
      var errors := BookingModel.ValidationErrors(doc.data, ctx.isEmail);
      if errors != [] {
        return BookingRoutes.ValidationFailed(errors);
      }
      doc.PreSave(ctx.now, ctx.random);
      var taken := BookingIdInUse(doc.data.bookingId);
      if taken {
        return BookingRoutes.DuplicateBookingId;
      }
      InsertBooking(doc.data);
      outcome := BookingRoutes.Created(doc.data);
    }

    /**
     * PUT `/api/booking/:id/status`: the status check, then the update
     * document built field by field, then the update of the one booking.
     */
    method UpdateBookingStatus(id: IdParam, status: Option<string>, salesNotes: Option<string>,
                               assignedTo: Option<string>, now: int)
      returns (outcome: UpdateOutcome<BookingModel.Booking>)
      requires Valid()
      modifies this
      ensures Valid()
      ensures var r := BookingRoutes.UpdateBookingStatus(old(bookings), id, status, salesNotes, assignedTo, now);
        outcome == r.outcome && bookings == r.store
      ensures testDrives == old(testDrives) && nextId == old(nextId)
    {
      if !IsTruthy(status) || BookingModel.ParseStatus(status.value).None? {
        return InvalidStatus;
      }
      if id.Malformed? || (IsTruthy(salesNotes) && |salesNotes.value| > 2000) {
        return ServerError;
      }
      var found := FindBooking(id.value);
      if found.None? {
        return NoSuchRecord;
      }
      var i := found.value;
      var updated := bookings[i].(status := BookingModel.ParseStatus(status.value).value);
      if IsTruthy(salesNotes) {
        updated := updated.(salesNotes := salesNotes);
      }
      if IsTruthy(assignedTo) {
        updated := updated.(assignedTo := assignedTo);
      }
      updated := updated.(updatedAt := now);
      assert updated == BookingRoutes.ApplyStatusUpdate(bookings[i], BookingModel.ParseStatus(status.value).value,
                                                        salesNotes, assignedTo, now);
      ReplaceBookingConsistent(bookings, testDrives, nextId, i, updated);
      bookings := bookings[i := updated];
      outcome := Updated(updated.(ipAddress := None));
    }

    /** The duplicate query of the test-drive intake. */
    method FindActiveTestDrive(email: string, date: int) returns (found: Option<nat>)
      ensures found == TestDriveRoutes.ActiveDuplicate(testDrives, email, date)
    {
      var i := 0;
      while i < |testDrives|
        invariant 0 <= i <= |testDrives|
        invariant forall j :: 0 <= j < i ==> !TestDriveRoutes.Blocks(testDrives[j], email, date)
      {
        if TestDriveRoutes.Blocks(testDrives[i], email, date) {
          var d := TestDriveRoutes.ActiveDuplicate(testDrives, email, date);
          assert d.Some? && !(d.value < i) && !(i < d.value);
          return Some(i);
        }
        i := i + 1;
      }
      return None;
    }

    /** `findById` on the test-drive requests. */
    method FindTestDrive(id: nat) returns (found: Option<nat>)
      ensures found == TestDriveRoutes.IndexOfId(testDrives, id)
    {
      var i := 0;
      while i < |testDrives|
        invariant 0 <= i <= |testDrives|
        invariant forall j :: 0 <= j < i ==> testDrives[j].id != id
      {
        if testDrives[i].id == id {
          var d := TestDriveRoutes.IndexOfId(testDrives, id);
          assert d.Some? && !(d.value < i) && !(i < d.value);
          return Some(i);
        }
        i := i + 1;
      }
      return None;
    }

    /**
     * POST `/api/test-drive`: the gate, the start-of-day check, the duplicate
     * guard, the document and its validation, the pre-save hook, the insert.
     */
    method CreateTestDrive(req: TestDriveRoutes.TestDriveRequest, ctx: TestDriveRoutes.Context)
      returns (outcome: TestDriveRoutes.SubmitOutcome)
      requires Valid()
      modifies this
      ensures Valid()
      ensures var r := TestDriveRoutes.SubmitTestDrive(old(testDrives), req, ctx, old(nextId));
        outcome == r.outcome && testDrives == r.store
      ensures bookings == old(bookings)
      ensures nextId == if outcome.Created? then old(nextId) + 1 else old(nextId)
    {
      if !TestDriveRoutes.RequiredPresent(req) {
        return TestDriveRoutes.MissingFields;
      }
      var selected := ctx.parseDate(req.preferredDate.value);
      if selected.None? {
        return TestDriveRoutes.UnreadableDate;
      }
      var date := selected.value;
      if date < ctx.midnight {
        return TestDriveRoutes.DateBeforeToday;
      }
      var duplicate := FindActiveTestDrive(req.email.value, date);
      if duplicate.Some? {
        return TestDriveRoutes.DuplicateRequest;
      }
      outcome := SaveTestDrive(TestDriveRoutes.NewTestDrive(req, ctx, date, nextId), ctx);
    }

    /** `testDrive.save()` on a new document: validation, the pre-save hook on the document, then the insert. */
    method SaveTestDrive(data: TestDriveModel.TestDrive, ctx: TestDriveRoutes.Context)
      returns (outcome: TestDriveRoutes.SubmitOutcome)
      requires Valid() && data.id == nextId
      modifies this
      ensures Valid()
      ensures var r := TestDriveRoutes.Save(old(testDrives), data, ctx);
        outcome == r.outcome && testDrives == r.store
      ensures bookings == old(bookings)
      ensures nextId == if outcome.Created? then old(nextId) + 1 else old(nextId)
    {
      var doc := new TestDriveModel.TestDriveDocument(data);
      var errors := TestDriveModel.ValidationErrors(doc.data, ctx.isEmail, ctx.now);
      if errors != [] {
        return TestDriveRoutes.ValidationFailed(errors);
      }
      doc.PreSave();
      InsertTestDrive(doc.data);
      outcome := TestDriveRoutes.Created(doc.data);
    }

    /** The insert of a saved booking under the next identity. */
    method InsertBooking(b: BookingModel.Booking)
      requires Valid() && b.id == nextId
      modifies this
      ensures Valid()
      ensures bookings == old(bookings) + [b] && testDrives == old(testDrives) && nextId == old(nextId) + 1
    {
      AppendBookingConsistent(bookings, testDrives, nextId, b);
      bookings := bookings + [b];
      nextId := nextId + 1;
    }

    /** The insert of a saved test-drive request under the next identity. */
    method InsertTestDrive(t: TestDriveModel.TestDrive)
      requires Valid() && t.id == nextId
      modifies this
      ensures Valid()
      ensures testDrives == old(testDrives) + [t] && bookings == old(bookings) && nextId == old(nextId) + 1
    {
      AppendTestDriveConsistent(bookings, testDrives, nextId, t);
      testDrives := testDrives + [t];
      nextId := nextId + 1;
    }

    /** PUT `/api/test-drive/:id/status`: the status check, then the update of the one request. */
    method UpdateTestDriveStatus(id: IdParam, status: Option<string>, now: int)
      returns (outcome: UpdateOutcome<TestDriveModel.TestDrive>)
      requires Valid()
      modifies this
      ensures Valid()
      ensures var r := TestDriveRoutes.UpdateTestDriveStatus(old(testDrives), id, status, now);
        outcome == r.outcome && testDrives == r.store
      ensures bookings == old(bookings) && nextId == old(nextId)
    {
      if !IsTruthy(status) || TestDriveModel.ParseStatus(status.value).None? {
        return InvalidStatus;
      }
      if id.Malformed? {
        return ServerError;
      }
      var found := FindTestDrive(id.value);
      if found.None? {
        return NoSuchRecord;
      }
      var i := found.value;
      var updated := testDrives[i].(status := TestDriveModel.ParseStatus(status.value).value, updatedAt := now);
      testDrives := testDrives[i := updated];
      outcome := Updated(TestDriveRoutes.Hidden(updated));
    }
  }
}

=== FILE: responses.dfy ===
/**
 * Shapes shared by the booking and test-drive routes: the `:id` path
 * parameter, the result of a lookup by id and the result of a status
 * update, each with the HTTP status code the route answers with.
 */
module Responses {

  /**
   * The `:id` path parameter. A string that is not a valid ObjectId makes the
   * store raise a CastError; a valid one names a store identity.
   */
  datatype IdParam = Malformed | ObjectId(value: nat)

  /** GET `/:id`: the record (with its IP address hidden), no record, or a CastError. */
  datatype Lookup<T> = Found(record: T) | NotFound | InvalidId {
    function Code(): int {
      match this
      case Found(_) => 200
      case NotFound => 404
      case InvalidId => 400
    }
  }

  /**
   * PUT `/:id/status`: the updated record, a status outside the enumeration,
   * no record, or an error the catch-all turns into 500 (a CastError or a
   * failed update validator).
   */
  datatype UpdateOutcome<T> = Updated(record: T) | InvalidStatus | NoSuchRecord | ServerError {
    function Code(): int {
      match this
      case Updated(_) => 200
      case InvalidStatus => 400
      case NoSuchRecord => 404
      case ServerError => 500
    }
  }

  /** The answer of a request that may change the store, with the store afterwards. */
  datatype StoreUpdate<T> = StoreUpdate(outcome: UpdateOutcome<T>, store: seq<T>)
}

=== FILE: sequences.dfy ===
/**
 * Filtering and sorting of sequences, as `Array.prototype.filter`,
 * `Array.prototype.sort` and the store's `find(query).sort(...)` do it.
 * A comparator is given as a "may come before" relation; the sort is a
 * stable insertion sort.
 */
module Sequences {
  import opened Wrappers

  /** The index of the first element of `s` that satisfies `p`, as `findOne` on an insertion-ordered collection. */
  function FindFirst<T>(s: seq<T>, p: T -> bool): (r: Option<nat>)
    ensures r.Some? ==> r.value < |s| && p(s[r.value]) && forall j :: 0 <= j < r.value ==> !p(s[j])
    ensures r.None? <==> forall j :: 0 <= j < |s| ==> !p(s[j])
  {
    if s == [] then None
    else if p(s[0]) then Some(0)
    else
      match FindFirst(s[1..], p)
      case None => None
      case Some(k) => Some(k + 1)
  }

  /** The elements of `s` that satisfy `p`, in their original order, each as often as in `s`. */
  function Filter<T(!new)>(s: seq<T>, p: T -> bool): (r: seq<T>)
    ensures |r| <= |s|
    ensures forall i :: 0 <= i < |r| ==> p(r[i])
    ensures forall x :: multiset(r)[x] == if p(x) then multiset(s)[x] else 0
  {
    if s == [] then []
    else
      assert s == [s[0]] + s[1..];
      (if p(s[0]) then [s[0]] else []) + Filter(s[1..], p)
  }

  /** `le` is total and transitive, so that a sort by it is well defined. */
  ghost predicate TotalPreorder<T(!new)>(le: (T, T) -> bool) {
    && (forall a, b :: le(a, b) || le(b, a))
    && (forall a, b, c :: le(a, b) && le(b, c) ==> le(a, c))
  }

  predicate SortedBy<T>(s: seq<T>, le: (T, T) -> bool) {
    forall i, j :: 0 <= i < j < |s| ==> le(s[i], s[j])
  }

  /** Puts `x` in front of the first element it may come before, after every element that must precede it. */
  function Insert<T>(x: T, s: seq<T>, le: (T, T) -> bool): (r: seq<T>)
    ensures multiset(r) == multiset(s) + multiset{x}
    ensures |r| == |s| + 1
  {
    if s == [] then [x]
    else if le(x, s[0]) then [x] + s
    else
      assert s == [s[0]] + s[1..];
      [s[0]] + Insert(x, s[1..], le)
  }

  /** Sorts `s` by `le`; elements that compare equal keep their relative order. */
  function SortBy<T>(s: seq<T>, le: (T, T) -> bool): (r: seq<T>)
    ensures multiset(r) == multiset(s) && |r| == |s|
  {
    if s == [] then []
    else
      assert s == [s[0]] + s[1..];
      Insert(s[0], SortBy(s[1..], le), le)
  }

  /** Sorting elements that all compare equal leaves them in their order: the sort is stable on ties. */
  lemma {:induction false} SortByAllTied<T>(s: seq<T>, le: (T, T) -> bool)
    requires forall i, j :: 0 <= i < |s| && 0 <= j < |s| ==> le(s[i], s[j])
    ensures SortBy(s, le) == s
  {
    if s != [] {
      var t := s[1..];
      forall i, j | 0 <= i < |t| && 0 <= j < |t|
        ensures le(t[i], t[j])
      {
        assert t[i] == s[i + 1] && t[j] == s[j + 1];
      }
      SortByAllTied(t, le);
      if t != [] {
        assert t[0] == s[1];
        assert le(s[0], t[0]);
      }
      assert s == [s[0]] + t;
    }
  }

  lemma {:induction false} InsertSorted<T(!new)>(x: T, s: seq<T>, le: (T, T) -> bool)
    requires TotalPreorder(le) && SortedBy(s, le)
    ensures SortedBy(Insert(x, s, le), le)
  {
    if s != [] && !le(x, s[0]) {
      var rest := Insert(x, s[1..], le);
      InsertSorted(x, s[1..], le);
      assert le(s[0], x);
      forall j | 0 <= j < |rest|
        ensures le(s[0], rest[j])
      {
        assert rest[j] in multiset(rest);
        assert rest[j] == x || rest[j] in multiset(s[1..]);
        if rest[j] != x {
          var k :| 0 <= k < |s[1..]| && s[1..][k] == rest[j];
          assert s[k + 1] == rest[j];
        }
      }
    }
  }

  /** The sort orders its output by the comparator. */
  lemma {:induction false} SortBySorted<T(!new)>(s: seq<T>, le: (T, T) -> bool)
    requires TotalPreorder(le)
    ensures SortedBy(SortBy(s, le), le)
  {
    if s != [] {
      SortBySorted(s[1..], le);
      InsertSorted(s[0], SortBy(s[1..], le), le);
    }
  }

  /** Sorting by the reverse of a clock reading: newest first, as `.sort({ createdAt: -1 })`. */
  function NewestFirst<T(!new)>(s: seq<T>, stamp: T -> int): (r: seq<T>)
    ensures multiset(r) == multiset(s) && |r| == |s|
    ensures forall i, j :: 0 <= i < j < |r| ==> stamp(r[i]) >= stamp(r[j])
  {
    var le := (a: T, b: T) => stamp(a) >= stamp(b);
    SortBySorted(s, le);
    SortBy(s, le)
  }

  /** In a sequence without repeats, each of its elements occurs exactly once. */
  lemma {:induction false} DistinctOccursOnce<T>(s: seq<T>, x: T)
    requires forall i, j :: 0 <= i < j < |s| ==> s[i] != s[j]
    requires x in s
    ensures multiset(s)[x] == 1
  {
    assert s == [s[0]] + s[1..];
    if s[0] == x {
      assert x !in s[1..];
    } else {
      DistinctOccursOnce(s[1..], x);
    }
  }
}

=== FILE: strings.dfy ===
/**
 * The JavaScript string operations the backend and the pages rely on:
 * truthiness of an optional string, `trim`, `toLowerCase`/`toUpperCase`,
 * `includes`, `split`, `replace(/\D/g, '')`, `Number.prototype.toString`
 * and `slice(-k)`.
 */
module Strings {
  import opened Wrappers

  /** A JavaScript value that is a string or absent is truthy exactly when it is a non-empty string. */
  predicate IsTruthy(o: Option<string>) {
    o.Some? && o.value != ""
  }

  /** The characters `String.prototype.trim` removes and the regular-expression class `\s` matches. */
  predicate IsWhitespace(c: char) {
    c == ' ' || c == '\t' || c == '\n' || c == '\r' || c == '\U{B}' || c == '\U{C}' ||
    c == '\U{A0}' || c == '\U{1680}' || ('\U{2000}' <= c <= '\U{200A}') ||
    c == '\U{2028}' || c == '\U{2029}' || c == '\U{202F}' || c == '\U{205F}' ||
    c == '\U{3000}' || c == '\U{FEFF}'
  }

  /** The regular-expression class `\d`. */
  predicate IsDigit(c: char) {
    '0' <= c <= '9'
  }

  predicate AllDigits(s: string) {
    forall i :: 0 <= i < |s| ==> IsDigit(s[i])
  }

  /** No whitespace at either end: what `trim` returns. */
  predicate Trimmed(s: string) {
    s == [] || (!IsWhitespace(s[0]) && !IsWhitespace(s[|s| - 1]))
  }

  function TrimStart(s: string): (r: string)
    ensures |r| <= |s| && r == s[|s| - |r|..]
    ensures forall i :: 0 <= i < |s| - |r| ==> IsWhitespace(s[i])
    ensures r == [] || !IsWhitespace(r[0])
  {
    if s != [] && IsWhitespace(s[0]) then TrimStart(s[1..]) else s
  }

  function TrimEnd(s: string): (r: string)
    ensures |r| <= |s| && r == s[..|r|]
    ensures forall i :: |r| <= i < |s| ==> IsWhitespace(s[i])
    ensures r == [] || !IsWhitespace(r[|r| - 1])
  {
    if s != [] && IsWhitespace(s[|s| - 1]) then TrimEnd(s[..|s| - 1]) else s
  }

  /** `s.trim()`: the result has no whitespace at either end, and a string that has none is returned unchanged. */
  function Trim(s: string): (r: string)
    ensures Trimmed(r) && |r| <= |s|
    ensures Trimmed(s) ==> r == s
  {
    var t := TrimStart(s);
    var r := TrimEnd(t);
    assert r != [] ==> r[0] == t[0];
    r
  }

  function LowerChar(c: char): (r: char)
    ensures !('A' <= r <= 'Z')
    ensures IsWhitespace(r) == IsWhitespace(c) && IsDigit(r) == IsDigit(c)
  {
    if 'A' <= c <= 'Z' then (c as int + 32) as char else c
  }

  function UpperChar(c: char): (r: char)
    ensures !('a' <= r <= 'z')
  {
    if 'a' <= c <= 'z' then (c as int - 32) as char else c
  }

  /** `s.toLowerCase()` on the ASCII letters. */
  function Lower(s: string): (r: string)
    ensures |r| == |s|
    ensures forall i :: 0 <= i < |s| ==> r[i] == LowerChar(s[i])
  {
    if s == [] then [] else [LowerChar(s[0])] + Lower(s[1..])
  }

  /** `s.toUpperCase()` on the ASCII letters. */
  function Upper(s: string): (r: string)
    ensures |r| == |s|
    ensures forall i :: 0 <= i < |s| ==> r[i] == UpperChar(s[i])
  {
    if s == [] then [] else [UpperChar(s[0])] + Upper(s[1..])
  }

  lemma LowerIdempotent(s: string)
    ensures Lower(Lower(s)) == Lower(s)
  {
  }

  lemma {:induction false} TrimStartLower(s: string)
    ensures TrimStart(Lower(s)) == Lower(TrimStart(s))
    decreases |s|
  {
    if s != [] {
      assert Lower(s)[1..] == Lower(s[1..]);
      if IsWhitespace(s[0]) {
        TrimStartLower(s[1..]);
      }
    }
  }

  lemma {:induction false} TrimEndLower(s: string)
    ensures TrimEnd(Lower(s)) == Lower(TrimEnd(s))
    decreases |s|
  {
    if s != [] {
      assert Lower(s)[..|s| - 1] == Lower(s[..|s| - 1]);
      if IsWhitespace(s[|s| - 1]) {
        TrimEndLower(s[..|s| - 1]);
      }
    }
  }

  /** Lowercasing only touches letters, so it commutes with trimming. */
  lemma TrimLowerCommute(s: string)
    ensures Trim(Lower(s)) == Lower(Trim(s))
  {
    TrimStartLower(s);
    TrimEndLower(TrimStart(s));
  }

  /** No character of `s` is a lower-case ASCII letter. */
  predicate NoLowerLetters(s: string) {
    forall i :: 0 <= i < |s| ==> !('a' <= s[i] <= 'z')
  }

  /** Upper-casing undoes lower-casing on a string without lower-case letters. */
  lemma UpperOfLower(s: string)
    requires NoLowerLetters(s)
    ensures Upper(Lower(s)) == s
  {
    assert forall i :: 0 <= i < |s| ==> UpperChar(LowerChar(s[i])) == s[i];
  }

  /** `sub` occurs in `s` starting at index `i`. */
  predicate OccursAt(s: string, sub: string, i: int) {
    0 <= i && i + |sub| <= |s| && s[i..i + |sub|] == sub
  }

  /** `s.includes(sub)`. */
  function Contains(s: string, sub: string): (r: bool)
    ensures r <==> exists i :: OccursAt(s, sub, i)
    ensures sub == [] ==> r
    decreases |s|
  {
    if sub <= s then
      assert OccursAt(s, sub, 0);
      true
    else if s == [] then
      false
    else
      var r := Contains(s[1..], sub);
      assert forall i :: OccursAt(s[1..], sub, i) <==> OccursAt(s, sub, i + 1);
      assert forall i :: OccursAt(s, sub, i) && i > 0 ==> OccursAt(s[1..], sub, i - 1);
      assert !OccursAt(s, sub, 0);
      r
  }

  /** `s.replace(/\D/g, '')`: the digits of `s`, in order. */
  function StripNonDigits(s: string): (r: string)
    ensures AllDigits(r) && |r| <= |s|
    ensures AllDigits(s) ==> r == s
  {
    if s == [] then [] else (if IsDigit(s[0]) then [s[0]] else []) + StripNonDigits(s[1..])
  }

  /** Stripping a string that already holds only digits changes nothing. */
  lemma StripNonDigitsIdempotent(s: string)
    ensures StripNonDigits(StripNonDigits(s)) == StripNonDigits(s)
  {
  }

  /** A leading '+' in front of digits is the only thing the strip removes. */
  lemma {:induction false} StripPlusPrefix(d: string)
    requires AllDigits(d)
    ensures StripNonDigits("+" + d) == d
  {
    assert ("+" + d)[1..] == d;
  }

  function DigitChar(d: nat): (c: char)
    requires d < 10
    ensures IsDigit(c)
  {
    ('0' as int + d) as char
  }

  function DigitValue(c: char): nat
    requires IsDigit(c)
  {
    c as int - '0' as int
  }

  /** `n.toString()` for a non-negative integer: its decimal digits, without leading zeros. */
  function NatToString(n: nat): (r: string)
    ensures 1 <= |r| && AllDigits(r)
    ensures |r| > 1 ==> r[0] != '0'
    decreases n
  {
    if n < 10 then [DigitChar(n)] else NatToString(n / 10) + [DigitChar(n % 10)]
  }

  /** The number a string of decimal digits denotes. */
  function DecimalValue(s: string): nat
    requires AllDigits(s)
  {
    if s == [] then 0 else DecimalValue(s[..|s| - 1]) * 10 + DigitValue(s[|s| - 1])
  }

  /** Printing a number and reading it back gives the number. */
  lemma {:induction false} NatToStringRoundTrip(n: nat)
    ensures DecimalValue(NatToString(n)) == n
    decreases n
  {
    if n >= 10 {
      NatToStringRoundTrip(n / 10);
      var s := NatToString(n);
      assert s[..|s| - 1] == NatToString(n / 10);
    }
  }

  function Pow10(k: nat): (p: nat)
    ensures p >= 1
  {
    if k == 0 then 1 else 10 * Pow10(k - 1)
  }

  /** A number of at least 10^k has more than `k` decimal digits; one below 10^k (k > 0) has at most `k`. */
  lemma {:induction false} NatToStringLength(n: nat, k: nat)
    ensures Pow10(k) <= n ==> k < |NatToString(n)|
    ensures n < Pow10(k) && k > 0 ==> |NatToString(n)| <= k
    decreases n
  {
    if n >= 10 {
      if k > 0 {
        NatToStringLength(n / 10, k - 1);
      }
    } else if k > 0 {
      assert Pow10(k) >= 10 by {
        Pow10Monotone(1, k);
        assert Pow10(1) == 10;
      }
    }
  }

  lemma {:induction false} Pow10Monotone(i: nat, j: nat)
    requires i <= j
    ensures Pow10(i) <= Pow10(j)
    decreases j
  {
    if i < j {
      Pow10Monotone(i, j - 1);
    }
  }

  /** `s.slice(-k)`: the last `k` characters, or all of `s` when it is shorter. */
  function Last(s: string, k: nat): (r: string)
    ensures |r| == if |s| <= k then |s| else k
    ensures r == s[|s| - |r|..]
  {
    if |s| <= k then s else s[|s| - k..]
  }

  /** `s.split(sep)` for a one-character separator. */
  function Split(s: string, sep: char): (r: seq<string>)
    ensures |r| >= 1
    ensures forall i :: 0 <= i < |r| ==> sep !in r[i]
  {
    if s == [] then [[]]
    else
      var rest := Split(s[1..], sep);
      if s[0] == sep then [[]] + rest else [[s[0]] + rest[0]] + rest[1..]
  }

  /** `parts.join(sep)`. */
  function Join(parts: seq<string>, sep: char): string {
    if parts == [] then []
    else if |parts| == 1 then parts[0]
    else parts[0] + [sep] + Join(parts[1..], sep)
  }

  /** Splitting loses nothing: joining the pieces with the separator rebuilds the string. */
  lemma {:induction false} JoinSplit(s: string, sep: char)
    ensures Join(Split(s, sep), sep) == s
  {
    if s != [] {
      var rest := Split(s[1..], sep);
      JoinSplit(s[1..], sep);
      if s[0] == sep {
        assert Split(s, sep)[1..] == rest;
      } else if |rest| > 1 {
        assert Split(s, sep)[1..] == rest[1..];
      }
    }
  }
}

=== FILE: test_drive_model.dfy ===
/**
 * The test-drive schema: the stored request, its field validators
 * (including the strictly-future date rule) and the pre-save hook that
 * strips the phone number to its digits.
 *
 * Validation runs before the hook, so the phone pattern sees the trimmed
 * but unstripped value.
 */
module TestDriveModel {
  import opened Wrappers
  import opened Strings

  datatype TestDriveStatus = Pending | Confirmed | Completed | Cancelled

  function StatusName(s: TestDriveStatus): string {
    match s
    case Pending => "pending"
    case Confirmed => "confirmed"
    case Completed => "completed"
    case Cancelled => "cancelled"
  }

  /** The status enumeration check: exactly the four names are accepted, and each names its status. */
  function ParseStatus(s: string): (r: Option<TestDriveStatus>)
    ensures r.Some? <==> s in ["pending", "confirmed", "completed", "cancelled"]
    ensures r.Some? ==> StatusName(r.value) == s
  {
    if s == "pending" then Some(Pending)
    else if s == "confirmed" then Some(Confirmed)
    else if s == "completed" then Some(Completed)
    else if s == "cancelled" then Some(Cancelled)
    else None
  }

  lemma StatusNameRoundTrip(st: TestDriveStatus)
    ensures ParseStatus(StatusName(st)) == Some(st)
  {
  }

  /** A request that still blocks another request for the same day. */
  predicate IsActive(s: TestDriveStatus) {
    s == Pending || s == Confirmed
  }

  /** A stored test-drive request; dates are milliseconds since the epoch. */
  datatype TestDrive = TestDrive(
    id: nat,
    name: string,
    email: string,
    phone: string,
    preferredDate: int,
    preferredTime: string,
    vehicleModel: string,
    message: string,
    status: TestDriveStatus,
    ipAddress: Option<string>,
    createdAt: int,
    updatedAt: int)

  const TimeSlots: seq<string> := ["09:00", "10:00", "11:00", "12:00", "14:00", "15:00", "16:00", "17:00"]

  /** The phone pattern `^[\+]?\d{7,16}$`. */
  predicate ValidPhone(p: string) {
    var d := if |p| > 0 && p[0] == '+' then p[1..] else p;
    7 <= |d| <= 16 && AllDigits(d)
  }

  /** Every constraint of the schema, stated on its own; `now` is the clock reading at validation. */
  predicate SchemaValid(t: TestDrive, isEmail: string -> bool, now: int) {
    CustomerValid(t, isEmail) && RequestValid(t, now)
  }

  predicate CustomerValid(t: TestDrive, isEmail: string -> bool) {
    && t.name != "" && |t.name| <= 100
    && t.email != "" && isEmail(t.email)
    && ValidPhone(t.phone)
  }

  predicate RequestValid(t: TestDrive, now: int) {
    && t.preferredDate > now
    && t.preferredTime in TimeSlots
    && t.vehicleModel != ""
    && |t.message| <= 500
  }

  function NameError(name: string): (e: Option<string>)
    ensures e.None? <==> name != "" && |name| <= 100
  {
    if name == "" then Some("Name is required")
    else if |name| > 100 then Some("Name cannot exceed 100 characters")
    else None
  }

  function EmailError(email: string, isEmail: string -> bool): (e: Option<string>)
    ensures e.None? <==> email != "" && isEmail(email)
  {
    if email == "" then Some("Email is required")
    else if !isEmail(email) then Some("Please provide a valid email")
    else None
  }

  function PhoneError(phone: string): (e: Option<string>)
    ensures e.None? <==> ValidPhone(phone)
  {
    if phone == "" then Some("Phone number is required")
    else if !ValidPhone(phone) then Some("Please provide a valid phone number (digits only)")
    else None
  }

  /** The date validator `v > new Date()`. */
  function DateError(date: int, now: int): (e: Option<string>)
    ensures e.None? <==> date > now
  {
    if date <= now then Some("Preferred date must be in the future") else None
  }

  function TimeError(time: string): (e: Option<string>)
    ensures e.None? <==> time in TimeSlots
  {
    if time == "" then Some("Preferred time is required")
    else if time !in TimeSlots then Some("Please select a valid time slot")
    else None
  }

  function ModelError(model: string): (e: Option<string>)
    ensures e.None? <==> model != ""
  {
    if model == "" then Some("Vehicle model is required") else None
  }

  function MessageError(message: string): (e: Option<string>)
    ensures e.None? <==> |message| <= 500
  {
    if |message| > 500 then Some("Message cannot exceed 500 characters") else None
  }

  /**
   * The `ValidationError` message list, one message per failed path in schema
   * order: empty exactly when the request meets every schema constraint.
   */
  function ValidationErrors(t: TestDrive, isEmail: string -> bool, now: int): (errors: seq<string>)
    ensures errors == [] <==> SchemaValid(t, isEmail, now)
    ensures NameError(t.name).Some? ==> errors[0] == NameError(t.name).value
    ensures DateError(t.preferredDate, now).Some? ==> DateError(t.preferredDate, now).value in errors
    ensures forall m :: CustomerMessage(t, isEmail, m) || RequestMessage(t, now, m) ==> m in errors
    ensures forall m :: m in errors ==> CustomerMessage(t, isEmail, m) || RequestMessage(t, now, m)
    ensures |errors| <= 7
  {
    CustomerErrors(t, isEmail) + RequestErrors(t, now)
  }

  /** `m` is the message of a failing name, e-mail or phone path. */
  predicate CustomerMessage(t: TestDrive, isEmail: string -> bool, m: string) {
    || NameError(t.name) == Some(m)
    || EmailError(t.email, isEmail) == Some(m)
    || PhoneError(t.phone) == Some(m)
  }

  /** `m` is the message of a failing date, time, model or message path. */
  predicate RequestMessage(t: TestDrive, now: int, m: string) {
    || DateError(t.preferredDate, now) == Some(m)
    || TimeError(t.preferredTime) == Some(m)
    || ModelError(t.vehicleModel) == Some(m)
    || MessageError(t.message) == Some(m)
  }

  /** The messages of the name, e-mail and phone paths. */
  function CustomerErrors(t: TestDrive, isEmail: string -> bool): (errors: seq<string>)
    ensures errors == [] <==> CustomerValid(t, isEmail)
    ensures NameError(t.name).Some? ==> errors != [] && errors[0] == NameError(t.name).value
    ensures forall m :: CustomerMessage(t, isEmail, m) <==> m in errors
    ensures |errors| <= 3
  {
    var checks := [NameError(t.name), EmailError(t.email, isEmail), PhoneError(t.phone)];
    assert checks[0] == NameError(t.name) && checks[1] == EmailError(t.email, isEmail);
    assert checks[2] == PhoneError(t.phone);
    PresentOfThree(NameError(t.name), EmailError(t.email, isEmail), PhoneError(t.phone));
    Present(checks)
  }

  /** The messages of the date, time, model and message paths. */
  function RequestErrors(t: TestDrive, now: int): (errors: seq<string>)
    ensures errors == [] <==> RequestValid(t, now)
    ensures DateError(t.preferredDate, now).Some? ==> DateError(t.preferredDate, now).value in errors
    ensures forall m :: RequestMessage(t, now, m) <==> m in errors
    ensures |errors| <= 4
  {
    var checks := [DateError(t.preferredDate, now), TimeError(t.preferredTime), ModelError(t.vehicleModel), MessageError(t.message)];
    assert checks[0] == DateError(t.preferredDate, now) && checks[1] == TimeError(t.preferredTime);
    assert checks[2] == ModelError(t.vehicleModel) && checks[3] == MessageError(t.message);
    PresentOfFour(DateError(t.preferredDate, now), TimeError(t.preferredTime), ModelError(t.vehicleModel), MessageError(t.message));
    Present(checks)
  }

  /** A past or present date is reported with the date message, whatever else is wrong. */
  lemma PastDateReported(t: TestDrive, isEmail: string -> bool, now: int)
    requires t.preferredDate <= now
    ensures "Preferred date must be in the future" in ValidationErrors(t, isEmail, now)
  {
  }

  /** The pre-save hook: a non-empty phone is replaced by its digits. */
  function PreSaveHook(t: TestDrive): (r: TestDrive)
    ensures r == t.(phone := r.phone)
    ensures AllDigits(r.phone) && |r.phone| <= |t.phone|
    ensures AllDigits(t.phone) ==> r == t
  {
    if t.phone != "" then t.(phone := StripNonDigits(t.phone)) else t
  }

  /** A phone that passed validation is stored as 7 to 16 digits, the number without its optional '+'. */
  lemma StoredPhoneShape(t: TestDrive)
    requires ValidPhone(t.phone)
    ensures var p := PreSaveHook(t).phone;
      p == (if t.phone[0] == '+' then t.phone[1..] else t.phone) && AllDigits(p) && 7 <= |p| <= 16
  {
    if t.phone[0] == '+' {
      assert t.phone == "+" + t.phone[1..];
      StripPlusPrefix(t.phone[1..]);
    }
  }

  /** Re-running the hook on a saved request changes nothing. */
  lemma PreSaveIdempotent(t: TestDrive)
    ensures PreSaveHook(PreSaveHook(t)) == PreSaveHook(t)
  {
  }

  /** A Mongoose document for a test-drive request. */
  class TestDriveDocument {
    var data: TestDrive

    constructor (t: TestDrive)
      ensures data == t
    {
      data := t;
    }

    /** The pre-save hook, updating the document in place. */
    method PreSave()
      modifies this
      ensures data == PreSaveHook(old(data))
    {
      if data.phone != "" {
        data := data.(phone := StripNonDigits(data.phone));
      }
    }
  }
}

=== FILE: test_drive_routes.dfy ===
/**
 * The test-drive routes under `/api/test-drive`: the public intake with its
 * start-of-day date gate and duplicate guard, the admin listing, lookup by
 * store id and the status update.
 *
 * The clock, local midnight of the current day, the client address, the
 * e-mail check and the `Date` parser are parameters.
 */
module TestDriveRoutes {
  import opened Wrappers
  import opened Strings
  import opened TestDriveModel
  import opened Responses
  import Sequences
  import Pagination

  /** The body of POST `/api/test-drive`; a field the client left out is None. */
  datatype TestDriveRequest = TestDriveRequest(
    name: Option<string>,
    email: Option<string>,
    phone: Option<string>,
    preferredDate: Option<string>,
    preferredTime: Option<string>,
    vehicleModel: Option<string>,
    message: Option<string>)

  /**
   * What the intake reads besides the body. `midnight` is local midnight of
   * the day `now` falls in; `parseDate` is `new Date(...)`, None for an
   * Invalid Date.
   */
  datatype Context = Context(
    now: int,
    midnight: int,
    ip: Option<string>,
    isEmail: string -> bool,
    parseDate: string -> Option<int>)

  /** Local midnight starts the day that holds `now`. */
  predicate ClockConsistent(ctx: Context) {
    ctx.midnight <= ctx.now
  }

  datatype SubmitOutcome =
    | Created(testDrive: TestDrive)
    | MissingFields
    | DateBeforeToday
    | DuplicateRequest
    | ValidationFailed(errors: seq<string>)
    | UnreadableDate
  {
    function Code(): int {
      match this
      case Created(_) => 201
      case MissingFields => 400
      case DateBeforeToday => 400
      case DuplicateRequest => 409
      case ValidationFailed(_) => 400
      case UnreadableDate => 500
    }
  }

  datatype Submission = Submission(outcome: SubmitOutcome, store: seq<TestDrive>)

  /** The required-field gate: name, email, phone, preferredDate, preferredTime and vehicleModel are all truthy. */
  predicate RequiredPresent(req: TestDriveRequest) {
    && IsTruthy(req.name) && IsTruthy(req.email) && IsTruthy(req.phone)
    && IsTruthy(req.preferredDate) && IsTruthy(req.preferredTime) && IsTruthy(req.vehicleModel)
  }

  /** The duplicate query: the e-mail as lowercased (but not trimmed), the same instant, a still-active status. */
  predicate Blocks(t: TestDrive, email: string, date: int) {
    t.email == Lower(email) && t.preferredDate == date && IsActive(t.status)
  }

  function ActiveDuplicate(ts: seq<TestDrive>, email: string, date: int): (r: Option<nat>)
    ensures r.Some? ==> r.value < |ts| && Blocks(ts[r.value], email, date)
    ensures r.Some? ==> forall i :: 0 <= i < r.value ==> !Blocks(ts[i], email, date)
    ensures r.None? <==> forall i :: 0 <= i < |ts| ==> !Blocks(ts[i], email, date)
  {
    Sequences.FindFirst(ts, (t: TestDrive) => Blocks(t, email, date))
  }

  /** The document `new TestDrive({...})` builds: trimmed text, lowercased e-mail, the time as sent, an empty default message. */
  function NewTestDrive(req: TestDriveRequest, ctx: Context, date: int, id: nat): TestDrive
    requires RequiredPresent(req)
  {
    TestDrive(
      id,
      Trim(req.name.value), Trim(Lower(req.email.value)), Trim(req.phone.value),
      date, req.preferredTime.value, Trim(req.vehicleModel.value),
      if IsTruthy(req.message) then Trim(req.message.value) else "",
      Pending,
      if ctx.ip.Some? then Some(Trim(ctx.ip.value)) else None,
      ctx.now, ctx.now)
  }

  /** `save()`: validation against the clock, then the pre-save hook, then the insert. */
  function Save(ts: seq<TestDrive>, doc: TestDrive, ctx: Context): (r: Submission)
    ensures r.outcome.Created? || r.outcome.ValidationFailed?
    ensures !r.outcome.Created? ==> r.store == ts
    ensures r.outcome.Created? ==> r.store == ts + [r.outcome.testDrive] && r.outcome.testDrive == PreSaveHook(doc)
    ensures r.outcome.ValidationFailed? <==> !SchemaValid(doc, ctx.isEmail, ctx.now)
    ensures r.outcome.ValidationFailed? ==> r.outcome.errors == ValidationErrors(doc, ctx.isEmail, ctx.now) && r.outcome.errors != []
  {
    var errors := ValidationErrors(doc, ctx.isEmail, ctx.now);
    if errors != [] then Submission(ValidationFailed(errors), ts)
    else
      var saved := PreSaveHook(doc);
      Submission(Created(saved), ts + [saved])
  }

  /**
   * POST `/api/test-drive`. An Invalid Date compares false against midnight,
   * so it passes the date gate and then fails to cast in the duplicate
   * query: the catch-all answers 500.
   */
  function SubmitTestDrive(ts: seq<TestDrive>, req: TestDriveRequest, ctx: Context, id: nat): (r: Submission)
    ensures r.outcome.Created? <==> r.outcome.Code() == 201
    ensures !r.outcome.Created? ==> r.store == ts
    ensures r.outcome.Created? ==> r.store == ts + [r.outcome.testDrive]
    ensures r.outcome.MissingFields? <==> !RequiredPresent(req)
    ensures r.outcome.UnreadableDate? <==> RequiredPresent(req) && ctx.parseDate(req.preferredDate.value).None?
    ensures r.outcome.DateBeforeToday? <==>
      RequiredPresent(req) && ctx.parseDate(req.preferredDate.value).Some?
      && ctx.parseDate(req.preferredDate.value).value < ctx.midnight
    ensures r.outcome.DuplicateRequest? <==>
      && RequiredPresent(req) && ctx.parseDate(req.preferredDate.value).Some?
      && ctx.parseDate(req.preferredDate.value).value >= ctx.midnight
      && exists i :: 0 <= i < |ts| && Blocks(ts[i], req.email.value, ctx.parseDate(req.preferredDate.value).value)
    ensures r.outcome.ValidationFailed? ==>
      && RequiredPresent(req) && ctx.parseDate(req.preferredDate.value).Some? && r.outcome.errors != []
      && r.outcome.errors == ValidationErrors(NewTestDrive(req, ctx, ctx.parseDate(req.preferredDate.value).value, id), ctx.isEmail, ctx.now)
    ensures r.outcome.Created? ==>
      && RequiredPresent(req) && ctx.parseDate(req.preferredDate.value).Some?
      && SchemaValid(NewTestDrive(req, ctx, ctx.parseDate(req.preferredDate.value).value, id), ctx.isEmail, ctx.now)
      && r.outcome.testDrive == PreSaveHook(NewTestDrive(req, ctx, ctx.parseDate(req.preferredDate.value).value, id))
  {
    if !RequiredPresent(req) then Submission(MissingFields, ts)
    else
      match ctx.parseDate(req.preferredDate.value)
      case None => Submission(UnreadableDate, ts)
      case Some(date) => DatedSubmission(ts, req, ctx, id, date)
  }

  /** The start-of-day check, the duplicate guard and the save, for a complete request with a readable date. */
  function DatedSubmission(ts: seq<TestDrive>, req: TestDriveRequest, ctx: Context, id: nat, date: int): (r: Submission)
    requires RequiredPresent(req)
    ensures !r.outcome.MissingFields? && !r.outcome.UnreadableDate?
    ensures !r.outcome.Created? ==> r.store == ts
    ensures r.outcome.Created? ==> r.store == ts + [r.outcome.testDrive]
    ensures r.outcome.DateBeforeToday? <==> date < ctx.midnight
    ensures r.outcome.DuplicateRequest? <==>
      date >= ctx.midnight && exists i :: 0 <= i < |ts| && Blocks(ts[i], req.email.value, date)
    ensures !r.outcome.DateBeforeToday? && !r.outcome.DuplicateRequest? ==> r == Save(ts, NewTestDrive(req, ctx, date, id), ctx)
  {
    if date < ctx.midnight then Submission(DateBeforeToday, ts)
    else if ActiveDuplicate(ts, req.email.value, date).Some? then Submission(DuplicateRequest, ts)
    else Save(ts, NewTestDrive(req, ctx, date, id), ctx)
  }

  /** A created request holds the trimmed fields, the lowercased e-mail, the time as sent and a date strictly after now. */
  lemma CreatedRequestFields(ts: seq<TestDrive>, req: TestDriveRequest, ctx: Context, id: nat)
    requires SubmitTestDrive(ts, req, ctx, id).outcome.Created?
    ensures var t := SubmitTestDrive(ts, req, ctx, id).outcome.testDrive;
      && t.id == id
      && t.name == Trim(req.name.value) && 0 < |t.name| <= 100
      && t.email == Trim(Lower(req.email.value)) && ctx.isEmail(t.email)
      && Some(t.preferredDate) == ctx.parseDate(req.preferredDate.value) && t.preferredDate > ctx.now
      && t.preferredTime == req.preferredTime.value && t.preferredTime in TimeSlots
      && t.vehicleModel == Trim(req.vehicleModel.value) && t.vehicleModel != ""
      && t.message == (if IsTruthy(req.message) then Trim(req.message.value) else "") && |t.message| <= 500
      && t.status == Pending
      && t.createdAt == ctx.now && t.updatedAt == ctx.now
  {
    var date := ctx.parseDate(req.preferredDate.value).value;
    var doc := NewTestDrive(req, ctx, date, id);
    var t := SubmitTestDrive(ts, req, ctx, id).outcome.testDrive;
    assert t == PreSaveHook(doc) && SchemaValid(doc, ctx.isEmail, ctx.now);
    assert t == doc.(phone := t.phone);
  }

  /** A created request's phone passed the pattern and is stored as 7 to 16 digits, the number without its optional '+'. */
  lemma CreatedPhoneShape(ts: seq<TestDrive>, req: TestDriveRequest, ctx: Context, id: nat)
    requires SubmitTestDrive(ts, req, ctx, id).outcome.Created?
    ensures var p := Trim(req.phone.value);
      var t := SubmitTestDrive(ts, req, ctx, id).outcome.testDrive;
      && ValidPhone(p) && AllDigits(t.phone) && 7 <= |t.phone| <= 16
      && t.phone == (if p[0] == '+' then p[1..] else p)
  {
    var date := ctx.parseDate(req.preferredDate.value).value;
    var doc := NewTestDrive(req, ctx, date, id);
    assert SubmitTestDrive(ts, req, ctx, id).outcome.testDrive == PreSaveHook(doc);
    assert SchemaValid(doc, ctx.isEmail, ctx.now);
    StoredPhoneShape(doc);
  }

  /** Any date the schema accepts also passes the route's start-of-day gate: end to end the schema's rule governs. */
  lemma SchemaDateRuleSubsumesGate(ctx: Context, date: int)
    requires ClockConsistent(ctx)
    requires DateError(date, ctx.now).None?
    ensures !(date < ctx.midnight)
  {
  }

  /**
   * A date from earlier today passes the gate but not the schema: with every
   * other field acceptable and no duplicate, the request fails validation
   * with the date message, and nothing is stored.
   */
  lemma EarlierTodayRejected(ts: seq<TestDrive>, req: TestDriveRequest, ctx: Context, id: nat)
    requires RequiredPresent(req) && ctx.parseDate(req.preferredDate.value).Some?
    requires ctx.midnight <= ctx.parseDate(req.preferredDate.value).value <= ctx.now
    requires forall i :: 0 <= i < |ts| ==> !Blocks(ts[i], req.email.value, ctx.parseDate(req.preferredDate.value).value)
    ensures var r := SubmitTestDrive(ts, req, ctx, id);
      && r.outcome.ValidationFailed?
      && "Preferred date must be in the future" in r.outcome.errors
      && r.store == ts
  {
    var doc := NewTestDrive(req, ctx, ctx.parseDate(req.preferredDate.value).value, id);
    PastDateReported(doc, ctx.isEmail, ctx.now);
  }

  /** A completed or cancelled request for the same e-mail and date never triggers the duplicate guard. */
  lemma ClosedRequestsDoNotBlock(ts: seq<TestDrive>, req: TestDriveRequest, ctx: Context, id: nat)
    requires RequiredPresent(req) && ctx.parseDate(req.preferredDate.value).Some?
    requires forall i :: 0 <= i < |ts| && ts[i].email == Lower(req.email.value)
               && ts[i].preferredDate == ctx.parseDate(req.preferredDate.value).value
               ==> ts[i].status == Completed || ts[i].status == Cancelled
    ensures !SubmitTestDrive(ts, req, ctx, id).outcome.DuplicateRequest?
  {
  }

  /** At most one active request per (e-mail, date). */
  predicate ActiveRequestsUnique(ts: seq<TestDrive>) {
    forall i, j :: 0 <= i < j < |ts| && IsActive(ts[i].status) && IsActive(ts[j].status) ==>
      ts[i].email != ts[j].email || ts[i].preferredDate != ts[j].preferredDate
  }

  /** Store identities are unique. */
  predicate IdsUnique(ts: seq<TestDrive>) {
    forall i, j :: 0 <= i < j < |ts| ==> ts[i].id != ts[j].id
  }

  predicate StoreInvariant(ts: seq<TestDrive>) {
    ActiveRequestsUnique(ts) && IdsUnique(ts)
  }

  /** Appending a request that no active request clashes with, under a fresh identity, keeps the invariant. */
  lemma AppendKeepsInvariant(ts: seq<TestDrive>, t: TestDrive)
    requires StoreInvariant(ts)
    requires forall i :: 0 <= i < |ts| ==> ts[i].id != t.id
    requires IsActive(t.status) ==> forall i :: 0 <= i < |ts| && IsActive(ts[i].status) ==>
               ts[i].email != t.email || ts[i].preferredDate != t.preferredDate
    ensures StoreInvariant(ts + [t])
  {
    var s := ts + [t];
    assert forall i :: 0 <= i < |ts| ==> s[i] == ts[i];
    assert s[|ts|] == t;
  }

  /** The intake keeps the store invariant when the e-mail it is given has no surrounding whitespace. */
  lemma SubmitPreservesInvariant(ts: seq<TestDrive>, req: TestDriveRequest, ctx: Context, id: nat)
    requires StoreInvariant(ts)
    requires forall i :: 0 <= i < |ts| ==> ts[i].id != id
    requires req.email.Some? ==> Trimmed(req.email.value)
    ensures StoreInvariant(SubmitTestDrive(ts, req, ctx, id).store)
  {
    var r := SubmitTestDrive(ts, req, ctx, id);
    if r.outcome.Created? {
      var e := req.email.value;
      var date := ctx.parseDate(req.preferredDate.value).value;
      var doc := NewTestDrive(req, ctx, date, id);
      var t := r.outcome.testDrive;
      assert ActiveDuplicate(ts, e, date).None?;
      assert t.email == doc.email && t.preferredDate == date && t.status == Pending && t.id == id;
      TrimLowerCommute(e);
      assert t.email == Lower(e);
      AppendKeepsInvariant(ts, t);
    }
  }

  /** Saving a valid document whose e-mail and date equal an active request's leaves two active requests that clash. */
  lemma SavedBesideClash(existing: TestDrive, doc: TestDrive, ctx: Context)
    requires IsActive(existing.status)
    requires existing.email == doc.email && existing.preferredDate == doc.preferredDate && doc.status == Pending
    requires SchemaValid(doc, ctx.isEmail, ctx.now)
    ensures var r := Save([existing], doc, ctx);
      r.outcome.Created? && !ActiveRequestsUnique(r.store)
  {
    var r := Save([existing], doc, ctx);
    assert r.outcome.Created?;
    assert r.store == [existing] + [PreSaveHook(doc)];
    assert r.store[1].status == Pending && r.store[0] == existing;
    assert !(r.store[0].email != r.store[1].email || r.store[0].preferredDate != r.store[1].preferredDate);
  }

  /**
   * An e-mail with leading whitespace slips past the guard, and a second
   * active request for the same e-mail and date is stored.
   */
  lemma PaddedEmailBypassesGuard(existing: TestDrive, req: TestDriveRequest, ctx: Context, id: nat)
    requires RequiredPresent(req) && IsWhitespace(req.email.value[0])
    requires ctx.parseDate(req.preferredDate.value).Some?
    requires ctx.parseDate(req.preferredDate.value).value >= ctx.midnight
    requires IsActive(existing.status) && existing.email == Trim(Lower(req.email.value))
    requires existing.preferredDate == ctx.parseDate(req.preferredDate.value).value
    requires SchemaValid(NewTestDrive(req, ctx, ctx.parseDate(req.preferredDate.value).value, id), ctx.isEmail, ctx.now)
    ensures StoreInvariant([existing])
    ensures var r := SubmitTestDrive([existing], req, ctx, id);
      r.outcome.Created? && !ActiveRequestsUnique(r.store)
  {
    var e := req.email.value;
    var date := ctx.parseDate(req.preferredDate.value).value;
    GuardMissesPaddedEmail(existing, e, date);
    var doc := NewTestDrive(req, ctx, date, id);
    assert doc.email == existing.email && doc.preferredDate == existing.preferredDate && doc.status == Pending;
    SavedBesideClash(existing, doc, ctx);
    SubmitReachesSave([existing], req, ctx, id, date);
  }

  /** A request that passes the date checks and the duplicate guard goes on to the save. */
  lemma SubmitReachesSave(ts: seq<TestDrive>, req: TestDriveRequest, ctx: Context, id: nat, date: int)
    requires RequiredPresent(req) && ctx.parseDate(req.preferredDate.value) == Some(date) && date >= ctx.midnight
    requires ActiveDuplicate(ts, req.email.value, date).None?
    ensures SubmitTestDrive(ts, req, ctx, id) == Save(ts, NewTestDrive(req, ctx, date, id), ctx)
  {
  }

  /** The guard's lowercased but untrimmed e-mail never equals a stored, trimmed one when it starts with whitespace. */
  lemma GuardMissesPaddedEmail(existing: TestDrive, email: string, date: int)
    requires email != [] && IsWhitespace(email[0]) && existing.email == Trim(Lower(email))
    ensures ActiveDuplicate([existing], email, date).None?
  {
    assert IsWhitespace(Lower(email)[0]);
  }

  /** The admin list query: the optional status filter, and the parsed page and limit when they are given. */
  datatype ListQuery = ListQuery(status: Option<string>, pageParam: Option<int>, limitParam: Option<int>)
  {
    /** `page = 1`: an absent page is the first. */
    function Page(): int {
      if pageParam.Some? then pageParam.value else 1
    }

    /** `limit = 10`: an absent limit is ten per page. */
    function Limit(): int {
      if limitParam.Some? then limitParam.value else 10
    }
  }

  /** The status filter is an exact match on the status name. */
  predicate MatchesQuery(t: TestDrive, q: ListQuery) {
    IsTruthy(q.status) ==> StatusName(t.status) == q.status.value
  }

  function Matching(ts: seq<TestDrive>, q: ListQuery): (r: seq<TestDrive>)
    ensures forall t :: multiset(r)[t] == if MatchesQuery(t, q) then multiset(ts)[t] else 0
    ensures forall i :: 0 <= i < |r| ==> MatchesQuery(r[i], q)
  {
    Sequences.Filter(ts, t => MatchesQuery(t, q))
  }

  /** `select('-ipAddress')`. */
  function Hidden(t: TestDrive): TestDrive {
    t.(ipAddress := None)
  }

  function HideAll(s: seq<TestDrive>): (r: seq<TestDrive>)
    ensures |r| == |s| && forall k :: 0 <= k < |s| ==> r[k] == Hidden(s[k])
  {
    seq(|s|, k requires 0 <= k < |s| => Hidden(s[k]))
  }

  /** Every record of a reordering of the matching requests is a stored request that matches. */
  lemma ShownFromStore(ts: seq<TestDrive>, q: ListQuery, sorted: seq<TestDrive>)
    requires multiset(sorted) == multiset(Matching(ts, q))
    ensures AllShownStored(ts, q, sorted)
  {
    forall k | 0 <= k < |sorted|
      ensures MatchesQuery(Hidden(sorted[k]), q) && exists t :: t in ts && Hidden(sorted[k]) == Hidden(t)
    {
      var t := sorted[k];
      assert t in multiset(sorted);
      assert t in multiset(ts);
    }
  }

  /** Every request of `sorted`, hidden, matches the query and is a stored request, hidden. */
  predicate AllShownStored(ts: seq<TestDrive>, q: ListQuery, sorted: seq<TestDrive>) {
    forall k :: 0 <= k < |sorted| ==>
      MatchesQuery(Hidden(sorted[k]), q) && exists t :: t in ts && Hidden(sorted[k]) == Hidden(t)
  }

  /** Every listed request lacks its IP address, matches the query and is a stored request, hidden. */
  predicate ItemsShownStored(ts: seq<TestDrive>, q: ListQuery, items: seq<TestDrive>) {
    forall k :: 0 <= k < |items| ==>
      && items[k].ipAddress.None?
      && MatchesQuery(items[k], q)
      && exists t :: t in ts && items[k] == Hidden(t)
  }

  /** `sorted` holds the requests of `s`, each as often, newest first. */
  predicate NewestFirstOf(sorted: seq<TestDrive>, s: seq<TestDrive>) {
    && multiset(sorted) == multiset(s)
    && forall i, j :: 0 <= i < j < |sorted| ==> sorted[i].createdAt >= sorted[j].createdAt
  }

  /** `items` are the records of `sorted` that follow the first `skip`, without IP address. */
  predicate PageOf(items: seq<TestDrive>, sorted: seq<TestDrive>, skip: int) {
    && 0 <= skip
    && (|items| > 0 ==> skip + |items| <= |sorted|)
    && forall k :: 0 <= k < |items| ==> items[k] == Hidden(sorted[skip + k])
  }

  /** GET `/api/test-drive`: the matching requests, newest first, one page of them, without the IP address. */
  function ListTestDrives(ts: seq<TestDrive>, q: ListQuery): (r: Pagination.Listing<TestDrive>)
    ensures r.SkipRejected? <==> Pagination.SkipCount(q.Page(), q.Limit()) < 0
    ensures r.Listed? ==>
      && r.page.totalItems == |Matching(ts, q)|
      && r.page.totalPages == Pagination.TotalPages(|Matching(ts, q)|, q.Limit())
      && r.page.currentPage == q.Page() && r.page.itemsPerPage == q.Limit()
      && |r.page.items| == Pagination.PageSize(|Matching(ts, q)|, q.Page(), q.Limit())
    ensures r.Listed? ==> forall k :: 0 <= k < |r.page.items| ==>
      && r.page.items[k].ipAddress.None?
      && MatchesQuery(r.page.items[k], q)
      && exists t :: t in ts && r.page.items[k] == Hidden(t)
    ensures r.Listed? ==> forall i, j :: 0 <= i < j < |r.page.items| ==>
      r.page.items[i].createdAt >= r.page.items[j].createdAt
    ensures r.Listed? ==> exists sorted :: NewestFirstOf(sorted, Matching(ts, q)) && PageOf(r.page.items, sorted, Pagination.SkipCount(q.Page(), q.Limit()))
  {
    var sorted := Sequences.NewestFirst(Matching(ts, q), (t: TestDrive) => t.createdAt);
    ShownFromStore(ts, q, sorted);
    ListingOfSorted(ts, q, sorted);
    assert NewestFirstOf(sorted, Matching(ts, q));
    Pagination.Paginate(HideAll(sorted), q.Page(), q.Limit())
  }

  /** Without `page` and `limit` the list is the first page, at most ten of the newest matching requests. */
  lemma DefaultFirstPage(ts: seq<TestDrive>, q: ListQuery)
    requires q.pageParam.None? && q.limitParam.None?
    ensures var r := ListTestDrives(ts, q);
      && r.Listed? && r.page.currentPage == 1 && r.page.itemsPerPage == 10
      && |r.page.items| == (if |Matching(ts, q)| < 10 then |Matching(ts, q)| else 10)
      && exists sorted :: NewestFirstOf(sorted, Matching(ts, q)) && PageOf(r.page.items, sorted, 0)
  {
    assert q.Page() == 1 && q.Limit() == 10;
    assert Pagination.SkipCount(q.Page(), q.Limit()) == 0;
  }
  /** The page cut from a newest-first list of hidden, matching, stored requests. */
  lemma ListingOfSorted(ts: seq<TestDrive>, q: ListQuery, sorted: seq<TestDrive>)
    requires forall i, j :: 0 <= i < j < |sorted| ==> sorted[i].createdAt >= sorted[j].createdAt
    requires AllShownStored(ts, q, sorted)
    ensures var r := Pagination.Paginate(HideAll(sorted), q.Page(), q.Limit());
      && (r.Listed? ==> PageOf(r.page.items, sorted, Pagination.SkipCount(q.Page(), q.Limit())))
      && (r.Listed? ==> ItemsShownStored(ts, q, r.page.items))
      && (r.Listed? ==> forall i, j :: 0 <= i < j < |r.page.items| ==>
            r.page.items[i].createdAt >= r.page.items[j].createdAt)
  {
    var r := Pagination.Paginate(HideAll(sorted), q.Page(), q.Limit());
    PageOfHidden(sorted, q.Page(), q.Limit());
    if r.Listed? {
      PageFromSorted(ts, q, sorted, r.page.items, Pagination.SkipCount(q.Page(), q.Limit()));
      SliceNewestFirst(sorted, r.page.items, Pagination.SkipCount(q.Page(), q.Limit()));
    }
  }

  /** The page cut from the hidden list is the hidden run of the list after the skipped records. */
  lemma PageOfHidden(sorted: seq<TestDrive>, page: int, limit: int)
    ensures var r := Pagination.Paginate(HideAll(sorted), page, limit);
      r.Listed? ==> PageOf(r.page.items, sorted, Pagination.SkipCount(page, limit))
  {
    var r := Pagination.Paginate(HideAll(sorted), page, limit);
    if r.Listed? {
      HiddenRun(sorted, r.page.items, Pagination.SkipCount(page, limit));
    }
  }

  /** A run of the hidden list starting at `skip` is the hidden run of the list itself. */
  lemma HiddenRun(sorted: seq<TestDrive>, items: seq<TestDrive>, skip: int)
    requires Pagination.RunOf(items, HideAll(sorted), skip)
    ensures PageOf(items, sorted, skip)
  {
    forall k | 0 <= k < |items|
      ensures items[k] == Hidden(sorted[skip + k])
    {
      var it, i := items[k], skip + k;
      assert it == HideAll(sorted)[i];
    }
  }

  /** A page cut from hidden, matching, stored requests holds hidden, matching, stored requests. */
  lemma PageFromSorted(ts: seq<TestDrive>, q: ListQuery, sorted: seq<TestDrive>, items: seq<TestDrive>, skip: int)
    requires AllShownStored(ts, q, sorted)
    requires PageOf(items, sorted, skip)
    ensures ItemsShownStored(ts, q, items)
  {
    forall k | 0 <= k < |items|
      ensures && items[k].ipAddress.None?
              && MatchesQuery(items[k], q)
              && exists t :: t in ts && items[k] == Hidden(t)
    {
      var it, i := items[k], skip + k;
      assert 0 <= i < |sorted| && it == Hidden(sorted[i]);
    }
  }

  /** A run of consecutive records of a newest-first list is newest first. */
  lemma SliceNewestFirst(sorted: seq<TestDrive>, items: seq<TestDrive>, skip: int)
    requires forall i, j :: 0 <= i < j < |sorted| ==> sorted[i].createdAt >= sorted[j].createdAt
    requires PageOf(items, sorted, skip)
    ensures forall i, j :: 0 <= i < j < |items| ==> items[i].createdAt >= items[j].createdAt
  {
    forall i, j | 0 <= i < j < |items|
      ensures items[i].createdAt >= items[j].createdAt
    {
      var x, y := items[i], items[j];
      assert x == Hidden(sorted[skip + i]) && y == Hidden(sorted[skip + j]);
    }
  }

  /** `findById`: the position of the request with store identity `id`, if any. */
  function IndexOfId(ts: seq<TestDrive>, id: nat): (r: Option<nat>)
    ensures r.Some? ==> r.value < |ts| && ts[r.value].id == id
    ensures r.Some? ==> forall i :: 0 <= i < r.value ==> ts[i].id != id
    ensures r.None? <==> forall i :: 0 <= i < |ts| ==> ts[i].id != id
  {
    Sequences.FindFirst(ts, (t: TestDrive) => t.id == id)
  }

  /** GET `/api/test-drive/:id`: the request without its IP address, 404 for an unknown id, 400 for a malformed one. */
  function GetTestDrive(ts: seq<TestDrive>, id: IdParam): (r: Lookup<TestDrive>)
    ensures r.InvalidId? <==> id.Malformed?
    ensures r.NotFound? <==> id.ObjectId? && forall i :: 0 <= i < |ts| ==> ts[i].id != id.value
    ensures r.Found? ==> exists i :: 0 <= i < |ts| && ts[i].id == id.value && r.record == Hidden(ts[i])
  {
    match id
    case Malformed => InvalidId
    case ObjectId(n) =>
      match IndexOfId(ts, n)
      case None => NotFound
      case Some(i) => Found(Hidden(ts[i]))
  }

  const StatusNames: seq<string> := ["pending", "confirmed", "completed", "cancelled"]

  /**
   * PUT `/api/test-drive/:id/status`: any status of the enumeration may
   * follow any other; only the status and the update time change.
   */
  function UpdateTestDriveStatus(ts: seq<TestDrive>, id: IdParam, status: Option<string>, now: int): (r: StoreUpdate<TestDrive>)
    ensures r.outcome.InvalidStatus? <==> !(IsTruthy(status) && status.value in StatusNames)
    ensures !r.outcome.Updated? ==> r.store == ts
    ensures r.outcome.ServerError? <==> IsTruthy(status) && status.value in StatusNames && id.Malformed?
    ensures r.outcome.NoSuchRecord? <==>
      IsTruthy(status) && status.value in StatusNames && id.ObjectId?
      && forall i :: 0 <= i < |ts| ==> ts[i].id != id.value
    ensures r.outcome.Updated? ==>
      && status.Some? && id.ObjectId? && |r.store| == |ts|
      && exists i :: 0 <= i < |ts| && ts[i].id == id.value
           && StatusName(r.store[i].status) == status.value
           && r.store[i] == ts[i].(status := r.store[i].status, updatedAt := now)
           && r.store == ts[i := r.store[i]]
           && r.outcome.record == Hidden(r.store[i])
  {
    if !IsTruthy(status) || ParseStatus(status.value).None? then StoreUpdate(InvalidStatus, ts)
    else if id.Malformed? then StoreUpdate(ServerError, ts)
    else
      match IndexOfId(ts, id.value)
      case None => StoreUpdate(NoSuchRecord, ts)
      case Some(i) =>
        var u := ts[i].(status := ParseStatus(status.value).value, updatedAt := now);
        StoreUpdate(Updated(Hidden(u)), ts[i := u])
  }

  /** A status update keeps every request's identity, e-mail and date, and so the uniqueness of identities. */
  lemma UpdateKeepsIdentities(ts: seq<TestDrive>, id: IdParam, status: Option<string>, now: int)
    ensures var s := UpdateTestDriveStatus(ts, id, status, now).store;
      |s| == |ts| && forall k :: 0 <= k < |s| ==>
        s[k].id == ts[k].id && s[k].email == ts[k].email && s[k].preferredDate == ts[k].preferredDate
    ensures IdsUnique(ts) ==> IdsUnique(UpdateTestDriveStatus(ts, id, status, now).store)
  {
  }

  /**
   * Transitions are unrestricted, so reopening a completed or cancelled
   * request beside an active one for the same e-mail and date breaks the
   * one-active-request rule.
   */
  lemma UpdateCanBreakUniqueness(ts: seq<TestDrive>, i: nat, j: nat, now: int)
    requires i < |ts| && j < |ts| && i != j && IdsUnique(ts)
    requires ts[i].email == ts[j].email && ts[i].preferredDate == ts[j].preferredDate
    requires IsActive(ts[i].status) && !IsActive(ts[j].status)
    ensures var r := UpdateTestDriveStatus(ts, ObjectId(ts[j].id), Some("pending"), now);
      r.outcome.Updated? && !ActiveRequestsUnique(r.store)
  {
    var r := UpdateTestDriveStatus(ts, ObjectId(ts[j].id), Some("pending"), now);
    assert r.outcome.Updated?;
    var k :| 0 <= k < |ts| && ts[k].id == ts[j].id && StatusName(r.store[k].status) == "pending"
      && r.store == ts[k := r.store[k]];
    assert k == j;
    assert r.store[j].status == Pending;
    assert r.store[i] == ts[i];
    if i < j {
      assert !(r.store[i].email != r.store[j].email || r.store[i].preferredDate != r.store[j].preferredDate);
    } else {
      assert !(r.store[j].email != r.store[i].email || r.store[j].preferredDate != r.store[i].preferredDate);
    }
  }
}

=== FILE: wrappers.dfy ===
/** The optional value used wherever a JavaScript field may be absent. */
module Wrappers {

  datatype Option<+T> = None | Some(value: T) {

    /** The wrapped value, or `default` when there is none. */
    function GetOr(default: T): T {
      match this
      case Some(v) => v
      case None => default
    }
  }

  /** The values present in `os`, in order. */
  function Present<T>(os: seq<Option<T>>): (r: seq<T>)
    ensures |r| <= |os|
    ensures r == [] <==> forall i :: 0 <= i < |os| ==> os[i].None?
    ensures forall i :: 0 <= i < |os| && os[i].Some? ==> os[i].value in r
    ensures forall x :: x in r ==> exists i :: 0 <= i < |os| && os[i] == Some(x)
    ensures os != [] && os[0].Some? ==> r != [] && r[0] == os[0].value
  {
    if os == [] then []
    else
      var rest := Present(os[1..]);
      assert forall i :: 1 <= i < |os| ==> os[i] == os[1..][i - 1];
      (if os[0].Some? then [os[0].value] else []) + rest
  }

  /** A value is among those present in a four-element list exactly when one of the four holds it. */
  lemma PresentOfFour<T>(a: Option<T>, b: Option<T>, c: Option<T>, d: Option<T>)
    ensures forall x :: x in Present([a, b, c, d]) <==> a == Some(x) || b == Some(x) || c == Some(x) || d == Some(x)
  {
    var os := [a, b, c, d];
    assert os[0] == a && os[1] == b && os[2] == c && os[3] == d;
  }

  /** The same for three elements. */
  lemma PresentOfThree<T>(a: Option<T>, b: Option<T>, c: Option<T>)
    ensures forall x :: x in Present([a, b, c]) <==> a == Some(x) || b == Some(x) || c == Some(x)
  {
    var os := [a, b, c];
    assert os[0] == a && os[1] == b && os[2] == c;
  }

  /** The same for two elements. */
  lemma PresentOfTwo<T>(a: Option<T>, b: Option<T>)
    ensures forall x :: x in Present([a, b]) <==> a == Some(x) || b == Some(x)
  {
    var os := [a, b];
    assert os[0] == a && os[1] == b;
  }
}
